=== FILE: README.md ===
# Absence-meta inference, detector scoring and marker-id rules, in Dafny

This project models three pure, sequential parts of a conversation-analysis
marker engine and proves properties of them.

1. **Absence-meta inference** (`DETECT_absence_meta.py`). A transcript is cut
   into consecutive blocks of at most `W` messages. A block is a *conflict
   window* when it holds at least `min_E_hits` escalation hits and its
   messages have at least `min_tokens` whitespace-separated tokens. For
   every conflict window the detector emits synthetic hits, all on the
   window's last message:
   - a `CONFLICT_CONTEXT` hit;
   - one window-wide `MEMA_ABSENCE_OF_<NAME>_IN_CONFLICT` hit for each
     absence set that the window's hits do not touch;
   - per speaker, one `MEMA_SPKR_ABSENCE_OF_<NAME>_IN_CONFLICT` hit for each
     such set. A speaker qualifies by having a hit in the window and writing
     enough of its messages.

   An absence set is its explicit ids together with every id the tag index
   lists under one of its tags. The tag index is built from a marker
   registry. The integration step appends the synthetic hits after the
   original ones.
2. **Detector scoring** (`SEM_LIE_CONCEALMENT`, `SEM_IDEALIZATION_DEVALUATION`,
   `CLU_INDIRECT_CONFLICT_AVOIDANCE`, `CLU_SUSTAINED_CONTACT`,
   `SEM_MIRRORING_REQUEST`, `ATO_SLANG_TOKEN`, `CLU_SVT_MESSAGE_INCONGRUENCE`).
   Each detector turns the match lists of its lexicons into scored
   detections `{span, label, score, evidence}`. Scores are clamped to
   [0, 1] by the shared `_mk`.
3. **Marker-id rules** (`config_loader.py`). These are:
   - the four level prefixes `ATO_`, `SEM_`, `CLU_` and `MEMA_`, with id
     validation and categorisation;
   - migration of the legacy two-letter prefixes;
   - the required-field check of a marker record;
   - the per-line rule of the legacy TXT marker format.

Modelling choices:
- Scores are exact integer hundredths: `40` stands for 0.4. Every constant of
  the detectors is a multiple of 0.05.
- Regular-expression matching is an input, not a computation. Each lexicon
  is given either as its sequence of `(start, end, text)` matches or as a
  presence boolean.
- A hit's `i` is a position in the message sequence.
- A Python exception becomes the `Err` side of a `Result`. This covers the
  `ValueError` and `KeyError` of the id rules and the `TypeError` of a frame
  that is not a container.
- A window size below 1 on a non-empty transcript makes the source loop for
  ever. The model returns `Err(NonTerminating)` there.

Where the code and the repository's prose description differ, the model
follows the code:
- **Per-speaker hits in the simple scenario.** The description of the
  six-message scenario expects only window-wide absence hits. The code also
  emits per-speaker hits, because `emit.per_speaker` defaults to true.
- **Evidence cap.** The description caps per-occurrence evidence at "e.g. 4";
  `CLU_SUSTAINED_CONTACT` caps it at 6.
- **Simple scenario not gated.** The description's six-message scenario
  passes the token gate. The repository's own six-message test has 37 tokens
  against `min_tokens` 50, so it emits nothing. The model proves the test's
  outcome.

Two behaviours of the code are modelled as written:
- `migrate_marker_id` looks legacy ids up by their first two characters. For
  an `MM_` id that key is `"MM"`, which the table lacks, so the call raises
  `KeyError`. As a result, migration never produces a `MEMA_` id.
- `check_required_fields` evaluates `key in frame`. This raises `TypeError`
  for a truthy frame that is neither a string, a list nor a dict.

## Model

| member | source | states |
|---|---|---|
| Windows.HitsIn | DETECT_absence_meta.py:11 | a hit is kept exactly when it was given and its index lies in `[lo, hi)`; a single hit is kept or dropped on its own index, so with `HitsInAppend` every passing hit stays, as often and in the order it was given |
| Windows.HitsInAppend | DETECT_absence_meta.py:11 | filtering two runs of hits is filtering each and concatenating: the list comprehension keeps order and repeats |
| Windows.WindowsFrom | DETECT_absence_meta.py:7-13 | the windows tile `[i, n)`: the first starts at `i`, the last ends at `n`, each ends where the next starts, all but the last are exactly `W` long, and each holds its slice of messages and exactly the hits indexed into it; there are none only when `i = n` |
| Windows.CollectByWindow | DETECT_absence_meta.py:5-13 | an empty transcript gives no window for any `W`; a non-empty one fails to terminate exactly when `W < 1`, and otherwise gives the tiling from 0 |
| Windows.WindowsPartition | DETECT_absence_meta.py:9-10 | the windows' message slices, concatenated, are the transcript from `i` on |
| Windows.WindowStarts | DETECT_absence_meta.py:7-13 | the `k`-th window starts at `i + k·W` |
| Windows.WindowsOrdered | DETECT_absence_meta.py:9-13 | a later window starts no earlier than an earlier one ends |
| Windows.OneWindow | DETECT_absence_meta.py:7-13 | a transcript of at most `W` messages is one window with every in-range hit |
| Windows.HitPlaced | DETECT_absence_meta.py:11 | every hit indexing a message of the transcript lies in some window |
| Windows.HitUnique | DETECT_absence_meta.py:9-11 | no hit lies in two different windows |
| Windows.HitOutsideNowhere | DETECT_absence_meta.py:11 | a hit whose index is outside `[0, n)` is in no window |
| AbsenceConfig.MinParticipation | DETECT_absence_meta.py:73-82 | the `meta` value when it is present, 2 when `meta` lacks the key, the `policy` value only when the `meta` lookup raises, and 2 when both fail |
| AbsenceConfig.PolicyOnlyWhenMetaRaises | DETECT_absence_meta.py:76-82 | changing the `policy` lookup changes `min_participation` only if the `meta` lookup raises and one of the two `policy` lookups finds a value |
| AbsenceConfig.Resolve | DETECT_absence_meta.py:30-34 | missing keys take the defaults window 30, `min_E_hits` 3, `strict_zero` true, `tolerant_max` 1, `min_tokens` 200 and `per_speaker` true; present keys are used as given; `min_participation` follows the meta-then-policy rule |
| AbsenceConfig.TagMembers | DETECT_absence_meta.py:39-40 | an id is in the union exactly when some listed tag is in the index and indexes it |
| AbsenceConfig.ResolveSet | DETECT_absence_meta.py:37-41 | an id is in the resolved set exactly when it is an explicit id or is indexed under one of the entry's tags |
| AbsenceConfig.UnknownTagAddsNothing | DETECT_absence_meta.py:39-40 | a tag absent from the index leaves the resolved set unchanged |
| AbsenceConfig.ResolveSets | DETECT_absence_meta.py:43 | one resolved set per configured name, in configuration order |
| AbsenceConfig.CountIn | DETECT_absence_meta.py:60-62 | the count is zero exactly when no hit's marker is in the set, and never exceeds the number of hits |
| AbsenceConfig.CountInMono | DETECT_absence_meta.py:62 | a larger set counts at least as many hits |
| AbsenceConfig.Passes | DETECT_absence_meta.py:63 | a passing count (window-wide here, per speaker at line 90 alike) is zero or at most `tolerant_max`; a zero count passes exactly when the rule is strict or `tolerant_max` is not negative |
| AbsenceConfig.PassesDownward | DETECT_absence_meta.py:89-90 | fewer hits never turn a pass into a fail |
| AbsenceConfig.StrictWithinTolerant | DETECT_absence_meta.py:63 | with `tolerant_max >= 0`, whatever the strict rule accepts the tolerant rule accepts |
| AbsenceConfig.EmptySetPasses | DETECT_absence_meta.py:62-63 | an empty resolved set passes in every window unless `tolerant_max` is negative |
| AbsenceMeta.BothMarker | DETECT_absence_meta.py:65 | the window-wide marker is `MEMA_ABSENCE_OF_`, the set name upper-cased character by character, then `_IN_CONFLICT` |
| AbsenceMeta.SpeakerMarker | DETECT_absence_meta.py:92 | the per-speaker marker is `MEMA_SPKR_ABSENCE_OF_`, the set name upper-cased character by character, then `_IN_CONFLICT` |
| AbsenceMeta.MarkerNamesCollide | DETECT_absence_meta.py:65 | two set names share a marker, window-wide or per speaker (line 92), exactly when they upper-case to the same text |
| AbsenceMeta.MarkerKinds | DETECT_absence_meta.py:57-93 | window-wide, per-speaker and context markers can never be mistaken for one another |
| AbsenceMeta.AbsenceHits | DETECT_absence_meta.py:61-66 | a hit is emitted exactly for each set that passes over the counted hits, at the given position and speaker, with that set's marker |
| AbsenceMeta.PassingIndices | DETECT_absence_meta.py:61-64 | the listed positions are strictly increasing, and each is a set that passes |
| AbsenceMeta.PassingIndicesComplete | DETECT_absence_meta.py:61-64 | every set that passes has its position listed |
| AbsenceMeta.AbsenceHitsInOrder | DETECT_absence_meta.py:61-66 | the hits come in set order, one per passing set: the j-th hit carries the marker of the j-th passing set |
| AbsenceMeta.AllSetsPass | DETECT_absence_meta.py:61-66 | when every set passes, each is reported once, in set order |
| AbsenceMeta.Speakers | DETECT_absence_meta.py:15-18 | the speakers with at least one hit, each once |
| AbsenceMeta.SpeakersFirstHitOrder | DETECT_absence_meta.py:15-18 | speakers are listed in the order of their first hit |
| AbsenceMeta.OneSpeaker | DETECT_absence_meta.py:15-18 | hits all by one speaker group under that speaker alone |
| AbsenceMeta.SpeakerHits | DETECT_absence_meta.py:15-18 | a speaker's group holds exactly that speaker's hits; a single hit joins the group exactly when it is the speaker's, so with `SpeakerHitsAppend` the group keeps each of the speaker's hits, as often and in the order given |
| AbsenceMeta.SpeakerHitsAppend | DETECT_absence_meta.py:15-18 | grouping two runs of hits is grouping each and concatenating: `setdefault(...).append` keeps order and repeats |
| AbsenceMeta.Participation | DETECT_absence_meta.py:72 | a speaker's message count is at most the window's length, zero for no message, and one for a single message exactly when the speaker wrote it; with `ParticipationAppend` this is the `Counter` count |
| AbsenceMeta.ParticipationAppend | DETECT_absence_meta.py:72 | message counts add over concatenated runs of messages |
| AbsenceMeta.TokenEstimate | DETECT_absence_meta.py:52 | the estimate is at least any one message's token count, zero exactly when every message has no token, and a single message's own count; with `TokenEstimateAppend` this is the sum of the counts |
| AbsenceMeta.TokenEstimateAppend | DETECT_absence_meta.py:52 | token estimates add over concatenated runs of messages |
| AbsenceMeta.SpeakerBlock | DETECT_absence_meta.py:84-93 | a speaker with fewer than `min_participation` messages gets no hit; otherwise at most one per set |
| AbsenceMeta.SpeakerBlockInOrder | DETECT_absence_meta.py:84-93 | a participating speaker gets one hit per set that passes over their own hits, in set order, at the window end, with the per-speaker marker |
| AbsenceMeta.SpeakerPart | DETECT_absence_meta.py:84-93 | the per-speaker loop puts every hit at the window's last message, attributes it to one of the listed speakers, and only to a speaker with at least `min_participation` messages in the window |
| AbsenceMeta.SpeakerPartMember | DETECT_absence_meta.py:84-93 | the per-speaker hits are exactly those of the listed speakers' blocks |
| AbsenceMeta.SpeakerPartOrder | DETECT_absence_meta.py:84-93 | per-speaker hits come grouped by speaker, in the order the speakers are listed |
| AbsenceMeta.OneSpeakerPart | DETECT_absence_meta.py:84-93 | when one participating speaker made every hit, the per-speaker hits are that speaker's set-by-set block |
| AbsenceMeta.BothPartShape | DETECT_absence_meta.py:64-66 | window-wide hits are all at the window end and all carry window-wide markers |
| AbsenceMeta.SpeakerPartShape | DETECT_absence_meta.py:91-93 | per-speaker hits are all at the window end and all carry per-speaker markers |
| AbsenceMeta.EmitWindow | DETECT_absence_meta.py:45-93 | a window emits nothing exactly when it fails a gate; otherwise the context hit comes first, then window-wide hits, then per-speaker hits, all at the window end, and no per-speaker hit at all when `per_speaker` is off |
| AbsenceMeta.EmitAllAppend | DETECT_absence_meta.py:45-93 | no state carries between windows: the loop over two runs of windows is the concatenation of the two loops |
| AbsenceMeta.EmitAll | DETECT_absence_meta.py:45-93 | the window loop appends each window's output to one list, so a hit of the loop is exactly a hit of one of its windows; `EmitAllAppend` and `EmitAllOne` give the order: window after window, each window's hits as that window emits them |
| AbsenceMeta.EmitAllOne | DETECT_absence_meta.py:45-93 | the loop over a single window emits exactly that window's hits, in its order |
| AbsenceMeta.Run | DETECT_absence_meta.py:45-94 | the run fails exactly on a non-empty transcript with `W < 1`; an empty transcript gives no hit |
| AbsenceMeta.RunIsLoop | DETECT_absence_meta.py:45 | on a non-empty transcript with `W >= 1`, the run is the window loop over the tiling from 0 |
| AbsenceMeta.RunHitsAtWindowEnds | DETECT_absence_meta.py:57-93 | every synthetic hit sits on the last message of a gated window, inside the transcript |
| AbsenceMeta.ContextInWindow | DETECT_absence_meta.py:47-57 | a window's output contains a context hit exactly when the window is gated, and that hit is its own context hit |
| AbsenceMeta.ContextLoopIff | DETECT_absence_meta.py:45-57 | the context hits of a loop are exactly one per gated window |
| AbsenceMeta.ContextHitIff | DETECT_absence_meta.py:45-57 | the context hits of a run are exactly one per gated window of the transcript |
| AbsenceMeta.BothInWindow | DETECT_absence_meta.py:59-66 | a window's window-wide hits are exactly those due: gated window, and a set that passes over all of the window's hits |
| AbsenceMeta.BlockSpeaker | DETECT_absence_meta.py:84-93 | a hit of one speaker's block is that speaker's, who participates enough, for a set that passes over that speaker's hits |
| AbsenceMeta.SpkrEmittedIsDue | DETECT_absence_meta.py:69-93 | every per-speaker hit a window emits is due: gated, per-speaker on, the speaker has a hit and enough messages, and the set passes over that speaker's own hits |
| AbsenceMeta.SpkrDueIsEmitted | DETECT_absence_meta.py:69-93 | every per-speaker hit due in a window is emitted |
| AbsenceMeta.SpkrInWindow | DETECT_absence_meta.py:69-93 | a window's per-speaker hits are exactly those due, so a speaker without hits or with thin participation gets none |
| AbsenceMeta.BothLoopIff | DETECT_absence_meta.py:45-66 | the window-wide hits of a loop are exactly those due in its windows |
| AbsenceMeta.BothHitIff | DETECT_absence_meta.py:45-66 | the window-wide hits of a run are exactly those due in the transcript's windows |
| AbsenceMeta.SpkrLoopIff | DETECT_absence_meta.py:45-93 | the per-speaker hits of a loop are exactly those due in its windows |
| AbsenceMeta.SpkrHitIff | DETECT_absence_meta.py:45-93 | the per-speaker hits of a run are exactly those due in the transcript's windows |
| AbsenceMeta.Gated | DETECT_absence_meta.py:47-54 | a gated window holds at least `min_E_hits` hits, and at least one message when `min_tokens` is positive |
| AbsenceMeta.StricterGateWindow | DETECT_absence_meta.py:47-54 | a window gated under higher `min_E_hits`/`min_tokens` emits its context hit under lower ones too |
| AbsenceMeta.StricterGateFewerContexts | DETECT_absence_meta.py:45-57 | raising `min_E_hits` or `min_tokens` never adds a context hit to a run |
| AbsenceMeta.StrictBothWithinTolerant | DETECT_absence_meta.py:60-66 | with `tolerant_max >= 0`, every window-wide hit of the strict rule is also emitted under the tolerant rule |
| AbsenceMeta.EmptySetAlwaysReported | DETECT_absence_meta.py:60-66 | a set resolving to nothing is reported window-wide in every gated window |
| AbsenceMeta.DetectAbsenceMeta | DETECT_absence_meta.py:20-94 | fails exactly on a non-empty transcript whose resolved window size is below 1; otherwise every synthetic hit points at a message of the transcript |
| AbsenceMeta.IntegrateAbsenceDetection | DETECT_absence_meta.py:116-142 | the original hits come back unchanged as a prefix, followed by synthetic hits that point into the transcript; fails exactly when detection does |
| AbsenceMeta.IntegrateIsRun | DETECT_absence_meta.py:136-142 | integration appends exactly what the run over the resolved configuration and the registry's tag index emits |
| TagIndex.AddTags | DETECT_absence_meta.py:110-111 | the id is added under each of the record's tags and no other key changes |
| TagIndex.Build | DETECT_absence_meta.py:97-113 | the two maps agree: only truthy ids are keys of `id_to_tags`, every id in the tag index is a key of `id_to_tags`, no tag maps to an empty set, and the current tags of each id are all indexed under it; `TagIndexMembership`, `IdToTagsKeys` and `IdToTagsLastWins` relate both maps to the registry |
| TagIndex.TagIndexMembership | DETECT_absence_meta.py:97-113 | an id is indexed under a tag exactly when some record with that truthy id lists the tag |
| TagIndex.IdToTagsKeys | DETECT_absence_meta.py:105-109 | `id_to_tags` has a key exactly for each truthy id of the registry |
| TagIndex.IdToTagsLastWins | DETECT_absence_meta.py:105-109 | `id_to_tags[mid]` holds the tags of the last record with id `mid` |
| AbsenceScenarios.TranscriptTokens | DETECT_absence_meta.py:52 | the token estimate of a transcript is the sum of its messages' word counts |
| AbsenceScenarios.TranscriptParticipation | DETECT_absence_meta.py:72 | a speaker's participation in a transcript is the number of messages they wrote |
| AbsenceScenarios.RealisticSetsClear | test_absence_realistic.py:30-63 | none of the test's hit markers falls in any resolved absence set |
| AbsenceScenarios.RealisticGated | test_absence_realistic.py:13-48 | the test's single window passes both gates: four escalation hits and 85 tokens |
| AbsenceScenarios.RealisticBoth | test_absence_realistic.py:41-47 | every absence set is reported window-wide, in configuration order, at message 11 |
| AbsenceScenarios.RealisticSpkr | test_absence_realistic.py:13-49 | speaker A gets every set's per-speaker hit; B, who has no hit, gets none |
| AbsenceScenarios.RealisticScenario | test_absence_realistic.py:13-95 | for any texts of the test's word counts, integration returns the four hits followed by the context hit, five window-wide and five per-speaker hits for A |
| AbsenceScenarios.RealisticTest | test_absence_realistic.py:13-95 | the same outcome for the test's own messages |
| AbsenceScenarios.SimpleNotGated | test_absence_detection.py:19-56 | the simple test's three escalation hits meet `min_E_hits`, but its 37 tokens fall short of `min_tokens` |
| AbsenceScenarios.SimpleScenario | test_absence_detection.py:19-73 | for any texts of the test's word counts, integration adds nothing to the hits |
| AbsenceScenarios.SimpleTest | test_absence_detection.py:19-73 | the same outcome for the test's own messages |
| Text.SplitWords | DETECT_absence_meta.py:52 | every token of `str.split()` is a non-empty run of non-whitespace characters |
| Text.SplitJoinWords | DETECT_absence_meta.py:52 | splitting words joined by blanks gives the words back |
| Text.TokenCountOfWords | DETECT_absence_meta.py:52 | a blank-joined word list has as many tokens as words |
| Text.Upper | DETECT_absence_meta.py:65 | upper-casing keeps the length and maps each character on its own |
| Text.UpperIdempotent | DETECT_absence_meta.py:65 | upper-casing twice is upper-casing once, and no ASCII lower-case letter survives it |
| Detection.Clamp | SEM_LIE_CONCEALMENT.py:11-12 | the result lies in [0, 1], in-range scores are kept, and out-of-range scores go to the nearer bound |
| Detection.Mk | SEM_LIE_CONCEALMENT.py:11-12 | span, label and evidence are kept, the score lies in [0, 1], and an in-range score is unchanged |
| Detection.PerMatch | SEM_MIRRORING_REQUEST.py:32-33 | one detection per match, in match order, spanned at the match, with the matched text as evidence |
| Detection.NatToString | CLU_SUSTAINED_CONTACT.py:47 | the decimal text is non-empty, digits only, without a leading zero |
| Detection.DecimalRoundTrip | CLU_SUSTAINED_CONTACT.py:47 | the decimal text reads back as the count |
| LieConcealment.InitialHits | SEM_LIE_CONCEALMENT.py:30-34 | one hit per match, in order, spanned at the match |
| LieConcealment.Boost | SEM_LIE_CONCEALMENT.py:36-49 | the proximity pass keeps the hit count, every span, label and evidence, and changes scores only |
| LieConcealment.BoostInPlace | SEM_LIE_CONCEALMENT.py:38-49 | the in-place nested loop computes the pure map, so the iteration order does not matter |
| LieConcealment.CloseCount | SEM_LIE_CONCEALMENT.py:40-47 | after looking at `n` hits, `close` is at most `n`, and below `n` once hit `i` itself has been looked at, since `i == j` is skipped |
| LieConcealment.CloseCountZero | SEM_LIE_CONCEALMENT.py:41-48 | `close` stays zero exactly when no hit looked at is another hit with a span starting within 80 characters |
| LieConcealment.CountClose | SEM_LIE_CONCEALMENT.py:41-47 | the inner loop leaves in `close` the count over all hits |
| LieConcealment.CloseCountSpans | SEM_LIE_CONCEALMENT.py:42-47 | the neighbour count reads spans only |
| LieConcealment.CloseCountIsNeighbours | SEM_LIE_CONCEALMENT.py:38-47 | the loop's `close` is the number of other matches starting within 80 characters |
| LieConcealment.Detect | SEM_LIE_CONCEALMENT.py:30-49 | hits are the matches in order with their spans and texts; each score is 0.4 without a neighbour and 0.7 + 0.05·min(5, k) with `k >= 1` neighbours |
| LieConcealment.Neighbours | SEM_LIE_CONCEALMENT.py:38-47 | the neighbour count is the size of the set of other positions whose match starts within 80 characters, and is below the number of matches |
| LieConcealment.AloneIff | SEM_LIE_CONCEALMENT.py:41-48 | a match has no neighbour exactly when every other match starts more than 80 characters away |
| LieConcealment.ProximityScoreRange | SEM_LIE_CONCEALMENT.py:48-49 | a score is 0.4 or in [0.75, 0.95], and never falls as the neighbour count grows |
| LieConcealment.SingleMatchKeepsBase | SEM_LIE_CONCEALMENT.py:38-49 | a single match gives one hit at 0.4 |
| LieConcealment.BoostedComeInPairs | SEM_LIE_CONCEALMENT.py:42-49 | closeness is symmetric, so the number of boosted hits is never exactly one |
| LieConcealment.DetectScoresInRange | SEM_LIE_CONCEALMENT.py:36-49 | every emitted score lies in [0, 1] |
| IdealizationDevaluation.FirstInside | SEM_IDEALIZATION_DEVALUATION.py:24 | finds an occurrence inside the window exactly when one exists, and it is the first such |
| IdealizationDevaluation.Detect | SEM_IDEALIZATION_DEVALUATION.py:20-31 | at most one hit per positive match, none without a positive match, every hit spanned at 0.85 |
| IdealizationDevaluation.DetectAppend | SEM_IDEALIZATION_DEVALUATION.py:21-31 | hits come in positive-match order: detecting on two runs of positive matches concatenates the results |
| IdealizationDevaluation.HitFor | SEM_IDEALIZATION_DEVALUATION.py:22-30 | a positive match yields a hit exactly when a negative occurrence lies wholly within 120 characters of its start, clipped to the text; the hit is labelled at 0.85 and its span covers the positive match; `HitUsesLeftmost` and `SpanWithinText` say which occurrence it pairs with and where the span lies |
| IdealizationDevaluation.HitUsesLeftmost | SEM_IDEALIZATION_DEVALUATION.py:24-30 | the hit pairs the positive match with a negative occurrence inside its window, the leftmost one when occurrences are listed by ascending start, with the merged span and `pos … neg` evidence |
| IdealizationDevaluation.SpanWithinText | SEM_IDEALIZATION_DEVALUATION.py:26-30 | the merged span covers the positive match and lies within the text |
| IdealizationDevaluation.NoNegativeNoHits | SEM_IDEALIZATION_DEVALUATION.py:24-25 | without a negative occurrence there is no hit |
| IndirectConflictAvoidance.Combined | CLU_INDIRECT_CONFLICT_AVOIDANCE.py:34-36 | one span-less 0.75 hit exactly when both minimisation and deferral matched |
| IndirectConflictAvoidance.Weak | CLU_INDIRECT_CONFLICT_AVOIDANCE.py:39-41 | 0.45 hits for every match of the single non-empty list, and none when both or neither matched |
| IndirectConflictAvoidance.Detect | CLU_INDIRECT_CONFLICT_AVOIDANCE.py:25-43 | shift hits at 0.7 come first whatever else matched; then the consolidated hit when both other lists matched, the weak hits when exactly one did, and nothing more when neither did |
| IndirectConflictAvoidance.ScoresAreTiers | CLU_INDIRECT_CONFLICT_AVOIDANCE.py:30-41 | every score is 0.45, 0.7 or 0.75, and 0.45 never appears beside the consolidated hit |
| IndirectConflictAvoidance.HitCount | CLU_INDIRECT_CONFLICT_AVOIDANCE.py:25-43 | the number of hits is the number of shift matches, plus one when both other lists matched, plus their total when exactly one did |
| IndirectConflictAvoidance.CompileLexicon | CLU_INDIRECT_CONFLICT_AVOIDANCE.py:21-23 | a lexicon compiles exactly when none of its patterns holds a backslash followed by an ASCII letter that `re` gives no meaning |
| IndirectConflictAvoidance.DetectWith | CLU_INDIRECT_CONFLICT_AVOIDANCE.py:15-43 | `detect` returns hits exactly when all three lexicons compile, and then returns the tier logic's hits; when only the deferral lexicon fails, the error names its first bad escape |
| IndirectConflictAvoidance.LexiconsAsWritten | CLU_INDIRECT_CONFLICT_AVOIDANCE.py:17-23 | the topic-shift and minimisation lexicons compile, and the deferral lexicon stops at `\m` |
| IndirectConflictAvoidance.AsWrittenAlwaysRaises | CLU_INDIRECT_CONFLICT_AVOIDANCE.py:19-23 | as written, `detect` raises "bad escape \m" on every input |
| IndirectConflictAvoidance.CorrectedLexiconCompiles | CLU_INDIRECT_CONFLICT_AVOIDANCE.py:19 | the deferral lexicon with `\b` in place of `\m` compiles |
| IndirectConflictAvoidance.CorrectedDetects | CLU_INDIRECT_CONFLICT_AVOIDANCE.py:19-43 | with that one-character change, `detect` returns the tier logic's hits on every input |
| SustainedContact.EvidenceHits | CLU_SUSTAINED_CONTACT.py:50-51 | min(6, count) evidence hits, one per leading match, each at min(0.5, 0.3 + 0.05·count) |
| SustainedContact.DensityHit | CLU_SUSTAINED_CONTACT.py:44-47 | the consolidated hit is span-less, with evidence `density:<count>` |
| SustainedContact.Detect | CLU_SUSTAINED_CONTACT.py:31-53 | no match gives no hit; otherwise the consolidated hit comes first exactly when there are two signals, or one with a time anchor, and the capped evidence hits follow |
| SustainedContact.ConsolidatedScore | CLU_SUSTAINED_CONTACT.py:44-45 | the consolidated score lies in [0.5, 0.95] and is 0.95 from four signals on |
| SustainedContact.EvidenceScore | CLU_SUSTAINED_CONTACT.py:51 | an evidence score lies in [0.3, 0.5] and is always below the consolidated score for the same count |
| SustainedContact.ConsolidatedStaircase | CLU_SUSTAINED_CONTACT.py:44-45 | the consolidated score is 0.60, 0.75 or 0.90 for one to three signals and 0.95 from four on |
| SustainedContact.AtMostSeven | CLU_SUSTAINED_CONTACT.py:43-51 | a call emits at most seven hits |
| SustainedContact.SingleMatchNoAnchor | CLU_SUSTAINED_CONTACT.py:43-51 | one match without a time anchor gives a single spanned hit at 0.35 |
| SustainedContact.ScoresInRange | CLU_SUSTAINED_CONTACT.py:44-51 | every score lies in [0.35, 0.95] |
| MirroringRequest.Detect | SEM_MIRRORING_REQUEST.py:25-34 | one spanned hit per match, in order, all with the shared count-based score; no match gives no hit |
| MirroringRequest.SharedScore | SEM_MIRRORING_REQUEST.py:30-33 | the shared score lies in [0.5, 0.9], and is at least 0.70 once there are two matches |
| MirroringRequest.SharedScoreTable | SEM_MIRRORING_REQUEST.py:30-33 | a single match scores 0.5, two 0.70, three 0.85, four or more 0.90; within [0.5, 0.9] and never falling as matches are added |
| MirroringRequest.OneSharedScore | SEM_MIRRORING_REQUEST.py:32-33 | all hits of one call carry the same score |
| SlangToken.Normalize | ATO_SLANG_TOKEN.py:16 | length and offsets are kept, the three apostrophe variants become `'`, other characters are kept, and no variant remains |
| SlangToken.NormalizeIdempotent | ATO_SLANG_TOKEN.py:16 | normalising twice is normalising once |
| SlangToken.Detect | ATO_SLANG_TOKEN.py:23-28 | one spanned hit per match, with the matched text, all with the shared score; no match gives no hit |
| SlangToken.SharedScore | ATO_SLANG_TOKEN.py:26 | the shared score lies in [0.4, 0.8], and is at least 0.70 once there are two matches |
| SlangToken.SharedScoreTable | ATO_SLANG_TOKEN.py:26 | one match scores 0.40, two 0.70, three 0.75, four or more 0.80; never above 0.8 and never falling as matches are added |
| MessageIncongruence.Detect | CLU_SVT_MESSAGE_INCONGRUENCE.py:20-27 | at most one hit, present exactly when the claim occurs and the ritual lexicon matches at least twice, span-less at 0.9 |
| MessageIncongruence.PartialEvidenceIsSilent | CLU_SVT_MESSAGE_INCONGRUENCE.py:24 | a claim with one ritual match, or rituals without a claim, give nothing |
| MarkerIds.ValidateMarkerId | config_loader.py:50-53 | the id comes back unchanged exactly when it is non-empty and starts with a level prefix; otherwise a `ValueError` for that id |
| MarkerIds.ParseCategory | config_loader.py:60-64 | each level prefix maps to its category, and `uncategorized` comes back exactly when no level prefix matches |
| MarkerIds.PrefixesDisjoint | config_loader.py:14-19 | no id carries two level prefixes, so the category is unique |
| MarkerIds.ValidIffCategorized | config_loader.py:50-64 | validation succeeds exactly on the ids that have a category |
| MarkerIds.MigrateMarkerId | config_loader.py:55-58 | `A_`, `S_` and `C_` become `ATO_`, `SEM_` and `CLU_` with the suffix kept; `MM_` raises `KeyError("MM")`; any other id is returned unchanged |
| MarkerIds.MigrateIdempotent | config_loader.py:55-58 | migration is idempotent wherever it succeeds |
| MarkerIds.MigratedIdsValidate | config_loader.py:50-58 | every migrated `A_`, `S_` or `C_` id passes validation |
| MarkerIds.MemaNeverProduced | config_loader.py:56-57 | migration never produces a `MEMA_` id it was not given, so the `MM_` entry of the table is unreachable |
| RequiredFields.AbsentAmong | config_loader.py:68-80 | a field is listed exactly when it is among those asked about and absent from the record |
| RequiredFields.FrameMissingIsAbsentKeys | config_loader.py:74-76 | over a container frame, the frame-key loop lists exactly the absent keys, in order |
| RequiredFields.FrameMissingRaises | config_loader.py:75 | testing a key against a frame that is not a container raises `TypeError` |
| RequiredFields.NoFrameNoKeys | config_loader.py:71-72 | without a frame no frame key is listed |
| RequiredFields.MissingFields | config_loader.py:68-80 | building the missing list raises `TypeError` exactly when the frame is truthy but not a container; otherwise the list is the canonical field list (id, frame, the four frame keys, examples, source) filtered down to the absent fields, so a field is listed exactly when it is absent, in canonical order |
| RequiredFields.NothingMissingIsComplete | config_loader.py:68-82 | an empty missing list means every required field is present |
| RequiredFields.SomethingMissingIsIncomplete | config_loader.py:68-82 | a non-empty missing list means some required field is absent |
| RequiredFields.CheckRequiredFields | config_loader.py:66-82 | passes exactly on a complete record; raises `TypeError` exactly when the frame is truthy but not a container; otherwise raises `ValueError` listing the absent fields in canonical order |
| Text.Strip | config_loader.py:162 | `strip()` cuts only whitespace, from both ends, and leaves a slice that neither starts nor ends with whitespace |
| Text.StripIdempotent | config_loader.py:162 | stripping twice is stripping once |
| Text.SplitOn | config_loader.py:165 | `split(sep)` gives at least one piece and no piece holds the separator |
| Text.JoinSplitOn | config_loader.py:165 | joining the pieces of a split with the separator restores the string |
| Text.SplitJoinOn | config_loader.py:165 | splitting separator-free pieces joined by the separator gives them back |
| TxtLegacy.StripAll | config_loader.py:165 | every field is stripped and trimmed |
| TxtLegacy.ParseLine | config_loader.py:162-172 | blank, comment and short lines are skipped; a line of four or more fields fails exactly when migrating its first field raises or the migrated id fails validation, with that error; a line that is read gives the migrated first field as id, the third field as signal, and the stripped comma-separated pieces of the fourth field as patterns |
| TxtLegacy.MmLineRaises | config_loader.py:169 | a line whose id field starts with `MM_` raises `KeyError('MM')` |
| TxtLegacy.UnprefixedLineRaises | config_loader.py:169-170 | a line whose id has no legacy prefix and fails validation raises the missing-prefix `ValueError` for that id |
| TxtLegacy.LegacyLineMigrated | config_loader.py:169-170 | a line whose id starts with `A_`, `S_` or `C_` is read, with the id renamed to `ATO_`, `SEM_` or `CLU_` and the rest kept |
| TxtLegacy.ValidIdNotMigrated | config_loader.py:169-170 | a valid id is left alone by migration |
| TxtLegacy.FormatFields | config_loader.py:162-168 | the line written for a well-formed marker is not skipped and splits into the four fields it was written from |
| TxtLegacy.FormatPatterns | config_loader.py:172 | the patterns field of a well-formed marker reads back as its patterns |
| TxtLegacy.ParseFormat | config_loader.py:162-172 | writing a well-formed marker as a line and reading it back gives the marker |
| TxtLegacy.ParseFormatParse | config_loader.py:162-172 | reading, writing and reading again gives what the first read gave |
| TxtLegacy.ParseLines | config_loader.py:157-178 | a file is read exactly when each of its lines is, and gives at most one marker per line |
| TxtLegacy.Collect | config_loader.py:159-178 | the markers list of one file: the run of per-line results collects exactly when no line raises; a raised error is one of the lines' errors, and the whole list is then lost, as the caller's `except` discards the file; a collected run holds exactly the markers its lines read, at most one per line. `ParseLinesFirstError` says the error is that of the first line that raises |
| TxtLegacy.ParseLinesFirstError | config_loader.py:169-170 | the error of an unreadable file is that of its first unreadable line |
| TxtLegacy.ParseLinesValidIds | config_loader.py:169-170 | every marker of a read file carries a valid id |
| TxtLegacy.SkippedLineIgnored | config_loader.py:162-164 | a blank or comment line changes nothing, wherever it stands |
| TxtLegacy.ParseFormatLines | config_loader.py:159-178 | writing well-formed markers one per line and reading the file back gives the markers, in order |

## Left out

- Regular-expression matching (alternation, `\b`, `re.I`, the non-overlap of `finditer`): it is a foreign library. Each lexicon is an input match list, or a presence boolean where the code only tests presence.
- IdealizationDevaluation: the negative occurrences are given as one list for the whole text. The searched slice is assumed to find the first of them lying inside the window. Because the negative lexicon has no anchors and no word boundaries, this holds when the list names every occurrence, including ones that overlap an earlier occurrence. A list of non-overlapping matches, as `finditer` on the whole text returns, can miss the occurrence the slice search finds: in "schrecklichate", `hate` at 10 overlaps `schrecklich` at 0, and a window starting anywhere in 1..10 finds `hate`.
- Floating-point rounding of score arithmetic: scores are exact hundredths, and rounding at the last binary digit is not modelled.
- The `int()`/`bool()` coercion of configuration values and the exceptions it raises, for example an uncaught `ValueError` from `int("x")`: the configuration is given already typed.
- `id_to_tags` is built but not read by the detector, so detection does not take it. The same holds for the configuration keys `emit.per_window` and `gating_conflict.context_markers_by_tag`, which are never read.
- A registry given as a dict is taken as the list of its values, which is what the integration step does with it.
- TagIndex.MarkerRecord: registry records are taken as typed, with an optional string id and a list of tag strings. A record with a truthy id and `tags` set to `None` raises `TypeError` at DETECT_absence_meta.py:109, and a string `tags` is indexed character by character at lines 110-111. Neither case is modelled.
- SlangToken: the last token pattern at ATO_SLANG_TOKEN.py:20 writes `\\b` inside a raw string, which asks for a literal backslash followed by `b` after the `k`. So a bare `k` or `k'` never matches, where a word boundary `\b` is evidently meant. Matching is an input list of matches here, so the model does not depend on which reading holds.
- Rebuilding the tag index from the same registry gives the same index: `Build` is a function, so this needs no lemma.
- The remaining single-regex detectors (`ATO_REALITY_SHIFT`, `ATO_ORGANISATION_ENTITY`, `ATO_DIRECT_ACCUSATION`): each maps its one regex to fixed-score hits through `_mk`, which `Detection.PerMatch` already covers.
- `ATO_EMO_HIGH_VALENCE_MARKER`: its `detect` is indented under a module-level function after a `return`, so it is dead code and the class has no `detect`.
- IndirectConflictAvoidance.CompileLexicon: models only the bad-escape rule of `re.compile`. It does not model character classes, where the rule differs, or a pattern ending in a lone backslash. No lexicon of the detector has either. It scans each pattern apart rather than the `|`-joined text, which is the same scan because no pattern ends in a backslash.
- RequiredFields.CheckRequiredFields: the text of the `ValueError` message is not modelled. `Missing` carries the list of absent fields in the order the message names them.
- File loading in `config_loader.py` (directory walks, YAML and JSON parsing, merging, logging, the per-file `try`): these are I/O. The TXT parser's effect of discarding a file on its first error is modelled by `ParseLines`.
- The `description` field of a TXT line is read but not kept: the source sets the description to a fixed text built from the file name. `TxtMarker` holds only the id, the signal and the patterns. The frame's other three fields are always `n/a`, and examples and tags are always empty.
- Text.Upper: handles only the ASCII letters. The absence-set names in the repository are ASCII.
- The test scenarios enter their message texts as word lists. The detector reads only the texts' token counts, and the lemmas quantify over every text with those counts.

## Findings

| source | as written | input that shows it | evidently intended | confidence | as-written member | corrected member |
|---|---|---|---|---|---|---|
| CLU_INDIRECT_CONFLICT_AVOIDANCE.py:19-23 | the deferral lexicon's second pattern is `\manderswann\b`, and compiling the joined lexicon raises "bad escape \m" on Python 3.7 and later | any text, even the empty one: the compile fails before anything is matched | `\banderswann\b`, a word boundary like every other pattern in the three lexicons | high, not executed | IndirectConflictAvoidance.AsWrittenAlwaysRaises | IndirectConflictAvoidance.CorrectedDetects |

=== FILE: absence_config.dfy ===
/** The configuration `detect_absence_meta` reads, the absence sets it
    resolves before scanning, and the pass rule it applies to each set. */
module AbsenceConfig {
  import opened Basics
  import opened Windows

  /** One lookup of `min_participation_msgs`: a value, a missing key (so the
      `.get` default applies), or a `KeyError`/`AttributeError`/`TypeError`
      raised on the way. */
  datatype Lookup = Found(n: int) | NotFound | Raises

  /** An entry of `absence_sets`: explicit marker ids and tags. */
  datatype AbsenceEntry = AbsenceEntry(ids: seq<string>, tags: seq<string>)

  /** The keys of `absence_meta_config` the detector reads, already coerced
      to integers and booleans; `None` is a missing key. `absenceSets` is the
      `absence_sets` dict in insertion order. */
  datatype RawConfig = RawConfig(
    window: Option<int>,
    minE: Option<int>,
    strictZero: Option<bool>,
    tolerantMax: Option<int>,
    minTokens: Option<int>,
    absenceSets: seq<(string, AbsenceEntry)>,
    perSpeaker: Option<bool>,
    metaMinParticipation: Lookup,
    policyMinParticipation: Lookup)

  /** The values the detector works with once defaults are filled in. */
  datatype Config = Config(
    window: int,
    minE: int,
    strictZero: bool,
    tolerantMax: int,
    minTokens: int,
    perSpeaker: bool,
    minParticipation: int)

  const DefaultWindow: int := 30
  const DefaultMinE: int := 3
  const DefaultTolerantMax: int := 1
  const DefaultMinTokens: int := 200
  const DefaultMinParticipation: int := 2

  function OrElse<T>(o: Option<T>, d: T): T
  {
    if o.Some? then o.value else d
  }

  /** `min_participation`: the `meta` value, or 2 when `meta` has no such
      key; `policy` is consulted only when the `meta` lookup raises, and 2
      is the fallback when that raises too or finds nothing. */
  function MinParticipation(meta: Lookup, policy: Lookup): (n: int)
    ensures meta.Found? ==> n == meta.n
    ensures meta.NotFound? ==> n == DefaultMinParticipation
    ensures meta.Raises? && policy.Found? ==> n == policy.n
    ensures !(meta.Found? || policy.Found?) ==> n == DefaultMinParticipation
  {
    match meta
    case Found(m) => m
    case NotFound => DefaultMinParticipation
    case Raises =>
      match policy
      case Found(p) => p
      case _ => DefaultMinParticipation
  }

  /** The `policy` value matters only when the `meta` lookup raises. */
  lemma PolicyOnlyWhenMetaRaises(meta: Lookup, p1: Lookup, p2: Lookup)
    requires MinParticipation(meta, p1) != MinParticipation(meta, p2)
    ensures meta.Raises?
    ensures p1.Found? || p2.Found?
  {
  }

  /** The configuration with the source's defaults for missing keys. */
  function Resolve(raw: RawConfig): (c: Config)
    ensures raw.window.None? ==> c.window == DefaultWindow
    ensures raw.minE.None? ==> c.minE == DefaultMinE
    ensures raw.strictZero.None? ==> c.strictZero
    ensures raw.tolerantMax.None? ==> c.tolerantMax == DefaultTolerantMax
    ensures raw.minTokens.None? ==> c.minTokens == DefaultMinTokens
    ensures raw.perSpeaker.None? ==> c.perSpeaker
    ensures raw.window.Some? ==> c.window == raw.window.value
    ensures raw.minE.Some? ==> c.minE == raw.minE.value
    ensures raw.minTokens.Some? ==> c.minTokens == raw.minTokens.value
    ensures raw.strictZero.Some? ==> c.strictZero == raw.strictZero.value
    ensures raw.tolerantMax.Some? ==> c.tolerantMax == raw.tolerantMax.value
    ensures raw.perSpeaker.Some? ==> c.perSpeaker == raw.perSpeaker.value
    ensures c.minParticipation == MinParticipation(raw.metaMinParticipation, raw.policyMinParticipation)
  {
    Config(
      OrElse(raw.window, DefaultWindow),
      OrElse(raw.minE, DefaultMinE),
      OrElse(raw.strictZero, true),
      OrElse(raw.tolerantMax, DefaultTolerantMax),
      OrElse(raw.minTokens, DefaultMinTokens),
      OrElse(raw.perSpeaker, true),
      MinParticipation(raw.metaMinParticipation, raw.policyMinParticipation))
  }

  /** The union of `tag_index.get(t, set())` over the tags. */
  function TagMembers(tags: seq<string>, tagIndex: map<string, set<string>>): (s: set<string>)
    ensures forall m :: m in s <==> exists k :: 0 <= k < |tags| && tags[k] in tagIndex && m in tagIndex[tags[k]]
  {
    if |tags| == 0 then {}
    else
      var t := tags[|tags| - 1];
      var pre := TagMembers(tags[..|tags| - 1], tagIndex);
      assert forall k :: 0 <= k < |tags| - 1 ==> tags[..|tags| - 1][k] == tags[k];
      pre + (if t in tagIndex then tagIndex[t] else {})
  }

  /** `resolve_set`: the explicit ids together with every id indexed under
      one of the tags. */
  function ResolveSet(e: AbsenceEntry, tagIndex: map<string, set<string>>): (s: set<string>)
    ensures forall m :: m in s <==>
      (m in e.ids || exists k :: 0 <= k < |e.tags| && e.tags[k] in tagIndex && m in tagIndex[e.tags[k]])
  {
    (set k | 0 <= k < |e.ids| :: e.ids[k]) + TagMembers(e.tags, tagIndex)
  }

  /** A tag the index does not know adds nothing to a set. */
  lemma UnknownTagAddsNothing(e: AbsenceEntry, t: string, tagIndex: map<string, set<string>>)
    requires t !in tagIndex
    ensures ResolveSet(AbsenceEntry(e.ids, e.tags + [t]), tagIndex) == ResolveSet(e, tagIndex)
  {
    var tags2 := e.tags + [t];
    assert tags2[..|tags2| - 1] == e.tags;
    assert TagMembers(tags2, tagIndex) == TagMembers(e.tags, tagIndex) + {};
  }

  /** `ABS`: every named set resolved once, in `absence_sets` order. */
  function ResolveSets(entries: seq<(string, AbsenceEntry)>, tagIndex: map<string, set<string>>): (r: seq<(string, set<string>)>)
    ensures |r| == |entries|
    ensures forall k :: 0 <= k < |r| ==> r[k] == (entries[k].0, ResolveSet(entries[k].1, tagIndex))
  {
    seq(|entries|, k requires 0 <= k < |entries| => (entries[k].0, ResolveSet(entries[k].1, tagIndex)))
  }

  /** `sum(mcount[m] for m in abs_set)`: the hits whose marker is in `s`,
      duplicates included. */
  function CountIn(hs: seq<Hit>, s: set<string>): (n: nat)
    ensures n <= |hs|
    ensures n == 0 <==> forall k :: 0 <= k < |hs| ==> hs[k].marker !in s
  {
    if |hs| == 0 then 0
    else
      var pre := hs[..|hs| - 1];
      assert forall k :: 0 <= k < |hs| - 1 ==> pre[k] == hs[k];
      CountIn(pre, s) + (if hs[|hs| - 1].marker in s then 1 else 0)
  }

  /** When every hit's marker is in `s`, every hit counts. */
  lemma {:induction false} CountInAll(hs: seq<Hit>, s: set<string>)
    requires forall k :: 0 <= k < |hs| ==> hs[k].marker in s
    ensures CountIn(hs, s) == |hs|
  {
    if |hs| > 0 {
      var pre := hs[..|hs| - 1];
      assert forall k :: 0 <= k < |pre| ==> pre[k] == hs[k];
      CountInAll(pre, s);
    }
  }

  /** A larger set counts at least as many hits. */
  lemma {:induction false} CountInMono(hs: seq<Hit>, s: set<string>, t: set<string>)
    requires s <= t
    ensures CountIn(hs, s) <= CountIn(hs, t)
  {
    if |hs| > 0 {
      CountInMono(hs[..|hs| - 1], s, t);
    }
  }

  /** Counting over a concatenation adds the counts. */
  lemma {:induction false} CountInAppend(a: seq<Hit>, b: seq<Hit>, s: set<string>)
    ensures CountIn(a + b, s) == CountIn(a, s) + CountIn(b, s)
    decreases |b|
  {
    if |b| == 0 {
      assert a + b == a;
    } else {
      assert (a + b)[..|a + b| - 1] == a + b[..|b| - 1];
      CountInAppend(a, b[..|b| - 1], s);
    }
  }

  /** The `ok` rule: no hit at all under `strict_zero`, at most
      `tolerant_max` otherwise. */
  predicate Passes(present: nat, strictZero: bool, tolerantMax: int)
    ensures Passes(present, strictZero, tolerantMax) ==> present == 0 || present <= tolerantMax
    ensures present == 0 ==> (Passes(present, strictZero, tolerantMax) <==> strictZero || tolerantMax >= 0)
  {
    if strictZero then present == 0 else present <= tolerantMax
  }

  /** What the strict rule accepts the tolerant rule accepts too, whenever
      `tolerant_max` is not negative. */
  lemma StrictWithinTolerant(present: nat, tolerantMax: int)
    requires tolerantMax >= 0
    ensures Passes(present, true, tolerantMax) ==> Passes(present, false, tolerantMax)
  {
  }

  /** Fewer hits never turn a pass into a fail. */
  lemma PassesDownward(fewer: nat, present: nat, strictZero: bool, tolerantMax: int)
    requires fewer <= present
    ensures Passes(present, strictZero, tolerantMax) ==> Passes(fewer, strictZero, tolerantMax)
  {
  }

  /** A set that resolves to nothing passes in every window, unless the
      tolerant rule is set below zero. */
  lemma EmptySetPasses(hs: seq<Hit>, strictZero: bool, tolerantMax: int)
    requires strictZero || tolerantMax >= 0
    ensures Passes(CountIn(hs, {}), strictZero, tolerantMax)
  {
  }
}

=== FILE: absence_meta.dfy ===
/** `detect_absence_meta` and `integrate_absence_detection`: for every
    conflict window, synthetic hits saying which kinds of marker did NOT
    occur, window-wide and per speaker. */
module AbsenceMeta {
  import opened Basics
  import opened Text
  import opened Windows
  import opened TagIndex
  import opened AbsenceConfig

  const ContextMarker: string := "CONFLICT_CONTEXT"
  const WindowSpeaker: string := "WINDOW"
  const BothSpeaker: string := "BOTH"
  const BothPrefix: string := "MEMA_ABSENCE_OF_"
  const SpeakerPrefix: string := "MEMA_SPKR_ABSENCE_OF_"
  const MarkerSuffix: string := "_IN_CONFLICT"

  /** `f"MEMA_ABSENCE_OF_{abs_name.upper()}_IN_CONFLICT"`. */
  function BothMarker(name: string): (r: string)
    ensures |r| == |BothPrefix| + |name| + |MarkerSuffix|
    ensures r[..|BothPrefix|] == BothPrefix && r[|r| - |MarkerSuffix|..] == MarkerSuffix
    ensures forall k :: 0 <= k < |name| ==> r[|BothPrefix| + k] == UpperChar(name[k])
  {
    BothPrefix + Upper(name) + MarkerSuffix
  }

  /** `f"MEMA_SPKR_ABSENCE_OF_{abs_name.upper()}_IN_CONFLICT"`. */
  function SpeakerMarker(name: string): (r: string)
    ensures |r| == |SpeakerPrefix| + |name| + |MarkerSuffix|
    ensures r[..|SpeakerPrefix|] == SpeakerPrefix && r[|r| - |MarkerSuffix|..] == MarkerSuffix
    ensures forall k :: 0 <= k < |name| ==> r[|SpeakerPrefix| + k] == UpperChar(name[k])
  {
    SpeakerPrefix + Upper(name) + MarkerSuffix
  }

  /** Two set names give the same marker exactly when they upper-case to the
      same text: `upper()` is the only thing that can merge two sets. */
  lemma MarkerNamesCollide(a: string, b: string)
    ensures BothMarker(a) == BothMarker(b) <==> Upper(a) == Upper(b)
    ensures SpeakerMarker(a) == SpeakerMarker(b) <==> Upper(a) == Upper(b)
  {
    if BothMarker(a) == BothMarker(b) {
      assert Upper(a) == BothMarker(a)[|BothPrefix|..|BothPrefix| + |a|];
      assert Upper(b) == BothMarker(b)[|BothPrefix|..|BothPrefix| + |b|];
    }
    if SpeakerMarker(a) == SpeakerMarker(b) {
      assert Upper(a) == SpeakerMarker(a)[|SpeakerPrefix|..|SpeakerPrefix| + |a|];
      assert Upper(b) == SpeakerMarker(b)[|SpeakerPrefix|..|SpeakerPrefix| + |b|];
    }
  }

  /** The marker of a window-wide absence hit. */
  predicate IsBoth(m: string)
  {
    |m| > 5 && m[..5] == "MEMA_" && m[5] == 'A'
  }

  /** The marker of a per-speaker absence hit. */
  predicate IsSpkr(m: string)
  {
    |m| > 5 && m[..5] == "MEMA_" && m[5] == 'S'
  }

  /** The three kinds of synthetic marker cannot be mistaken for one
      another. */
  lemma MarkerKinds(name: string)
    ensures IsBoth(BothMarker(name)) && !IsSpkr(BothMarker(name))
    ensures IsSpkr(SpeakerMarker(name)) && !IsBoth(SpeakerMarker(name))
    ensures !IsBoth(ContextMarker) && !IsSpkr(ContextMarker)
  {
    assert BothMarker(name)[..5] == "MEMA_" && BothMarker(name)[5] == 'A';
    assert SpeakerMarker(name)[..5] == "MEMA_" && SpeakerMarker(name)[5] == 'S';
    assert ContextMarker[..5] != "MEMA_" by {
      assert ContextMarker[0] == 'C';
    }
  }

  function MarkerOf(spkr: bool, name: string): string
  {
    if spkr then SpeakerMarker(name) else BothMarker(name)
  }

  /** The hit that marks a window as a conflict context. */
  function ContextHit(win: Window): Hit
  {
    Hit(win.end - 1, WindowSpeaker, ContextMarker)
  }

  /** A set passes over the hits counted for it. */
  predicate SetPasses(cfg: Config, counted: seq<Hit>, s: set<string>)
  {
    Passes(CountIn(counted, s), cfg.strictZero, cfg.tolerantMax)
  }

  /** One loop over `ABS`: a hit for every set that passes over `counted`,
      in set order, all at `at` and attributed to `who`. */
  function AbsenceHits(cfg: Config, sets: seq<(string, set<string>)>, counted: seq<Hit>, at: int, who: string, spkr: bool): (r: seq<Hit>)
    ensures |r| <= |sets|
    ensures forall j :: 0 <= j < |r| ==> r[j].i == at && r[j].speaker == who
    ensures forall x :: x in r <==>
      exists k :: 0 <= k < |sets| && SetPasses(cfg, counted, sets[k].1) && x == Hit(at, who, MarkerOf(spkr, sets[k].0))
  {
    if |sets| == 0 then []
    else
      var pre := sets[..|sets| - 1];
      var last := sets[|sets| - 1];
      assert forall k :: 0 <= k < |pre| ==> pre[k] == sets[k];
      AbsenceHits(cfg, pre, counted, at, who, spkr)
        + (if SetPasses(cfg, counted, last.1) then [Hit(at, who, MarkerOf(spkr, last.0))] else [])
  }

  /** The positions of the sets that pass over `counted`, ascending. */
  function PassingIndices(cfg: Config, sets: seq<(string, set<string>)>, counted: seq<Hit>): (ks: seq<nat>)
    ensures forall j :: 0 <= j < |ks| ==> ks[j] < |sets| && SetPasses(cfg, counted, sets[ks[j]].1)
    ensures forall a, b :: 0 <= a < b < |ks| ==> ks[a] < ks[b]
  {
    if |sets| == 0 then []
    else
      var pre := sets[..|sets| - 1];
      assert forall k :: 0 <= k < |pre| ==> pre[k] == sets[k];
      var rest := PassingIndices(cfg, pre, counted);
      var ks := rest + (if SetPasses(cfg, counted, sets[|sets| - 1].1) then [|sets| - 1] else []);
      assert forall j :: 0 <= j < |rest| ==> ks[j] == rest[j] && rest[j] < |sets| - 1;
      ks
  }

  /** Every set that passes has its position listed. */
  lemma {:induction false} PassingIndicesComplete(cfg: Config, sets: seq<(string, set<string>)>, counted: seq<Hit>, k: nat)
    requires k < |sets| && SetPasses(cfg, counted, sets[k].1)
    ensures k in PassingIndices(cfg, sets, counted)
    decreases |sets|
  {
    var pre := sets[..|sets| - 1];
    if k < |sets| - 1 {
      assert pre[k] == sets[k];
      PassingIndicesComplete(cfg, pre, counted, k);
    }
  }

  /** The hits of one loop over `ABS` are, in order, one per passing set:
      the `j`-th hit is that of the `j`-th passing set. */
  lemma {:induction false} AbsenceHitsInOrder(cfg: Config, sets: seq<(string, set<string>)>, counted: seq<Hit>, at: int, who: string, spkr: bool)
    ensures |AbsenceHits(cfg, sets, counted, at, who, spkr)| == |PassingIndices(cfg, sets, counted)|
    ensures forall j :: 0 <= j < |AbsenceHits(cfg, sets, counted, at, who, spkr)| ==>
      AbsenceHits(cfg, sets, counted, at, who, spkr)[j] == Hit(at, who, MarkerOf(spkr, sets[PassingIndices(cfg, sets, counted)[j]].0))
  {
    if |sets| > 0 {
      var pre := sets[..|sets| - 1];
      assert forall k :: 0 <= k < |pre| ==> pre[k] == sets[k];
      AbsenceHitsInOrder(cfg, pre, counted, at, who, spkr);
      var a := AbsenceHits(cfg, pre, counted, at, who, spkr);
      var ks := PassingIndices(cfg, pre, counted);
      var r := AbsenceHits(cfg, sets, counted, at, who, spkr);
      var rs := PassingIndices(cfg, sets, counted);
      var n := |sets| - 1;
      if SetPasses(cfg, counted, sets[n].1) {
        assert r == a + [Hit(at, who, MarkerOf(spkr, sets[n].0))];
        assert rs == ks + [n];
      } else {
        assert r == a && rs == ks;
      }
      forall j | 0 <= j < |r|
        ensures r[j] == Hit(at, who, MarkerOf(spkr, sets[rs[j]].0))
      {
        if j < |a| {
          assert r[j] == a[j] && rs[j] == ks[j] && ks[j] < |pre|;
        }
      }
    }
  }

  /** When every set passes, each is reported once, in set order. */
  lemma {:induction false} AllSetsPass(cfg: Config, sets: seq<(string, set<string>)>, counted: seq<Hit>, at: int, who: string, spkr: bool)
    requires forall k :: 0 <= k < |sets| ==> SetPasses(cfg, counted, sets[k].1)
    ensures |AbsenceHits(cfg, sets, counted, at, who, spkr)| == |sets|
    ensures forall k :: 0 <= k < |sets| ==> AbsenceHits(cfg, sets, counted, at, who, spkr)[k] == Hit(at, who, MarkerOf(spkr, sets[k].0))
  {
    if |sets| > 0 {
      var pre := sets[..|sets| - 1];
      assert forall k :: 0 <= k < |pre| ==> pre[k] == sets[k];
      AllSetsPass(cfg, pre, counted, at, who, spkr);
    }
  }

  /** Some hit of the window is by `s`. */
  predicate HasHit(hs: seq<Hit>, s: string)
  {
    exists k :: 0 <= k < |hs| && hs[k].speaker == s
  }

  /** The keys of `_by_speaker(hits)`: each speaker once, in order of their
      first hit. */
  function Speakers(hs: seq<Hit>): (r: seq<string>)
    ensures forall s :: s in r <==> HasHit(hs, s)
    ensures forall a, b :: 0 <= a < b < |r| ==> r[a] != r[b]
  {
    if |hs| == 0 then []
    else
      var pre := hs[..|hs| - 1];
      var s := hs[|hs| - 1].speaker;
      var r := Speakers(pre);
      assert forall k :: 0 <= k < |pre| ==> pre[k] == hs[k];
      assert forall t :: HasHit(hs, t) ==> HasHit(pre, t) || t == s;
      if s in r then r else r + [s]
  }

  /** Hits all by one speaker have that one speaker. */
  lemma {:induction false} OneSpeaker(hs: seq<Hit>, s: string)
    requires |hs| > 0 && forall k :: 0 <= k < |hs| ==> hs[k].speaker == s
    ensures Speakers(hs) == [s]
  {
    var pre := hs[..|hs| - 1];
    if |pre| > 0 {
      assert forall k :: 0 <= k < |pre| ==> pre[k] == hs[k];
      OneSpeaker(pre, s);
    }
  }

  /** The hits of one speaker, in order and with repeats: a single hit is
      kept exactly when it is the speaker's, and `SpeakerHitsAppend` says
      the grouping works run by run. */
  function SpeakerHits(hs: seq<Hit>, s: string): (r: seq<Hit>)
    ensures |r| <= |hs|
    ensures forall x :: x in r <==> x in hs && x.speaker == s
    ensures |hs| == 1 ==> r == (if hs[0].speaker == s then hs else [])
  {
    if |hs| == 0 then []
    else
      var h := hs[|hs| - 1];
      SpeakerHits(hs[..|hs| - 1], s) + (if h.speaker == s then [h] else [])
  }

  /** Grouping two runs of hits is grouping each and concatenating. */
  lemma {:induction false} SpeakerHitsAppend(a: seq<Hit>, b: seq<Hit>, s: string)
    ensures SpeakerHits(a + b, s) == SpeakerHits(a, s) + SpeakerHits(b, s)
    decreases |b|
  {
    if |b| == 0 {
      assert a + b == a;
    } else {
      var bl := b[..|b| - 1];
      var h := b[|b| - 1];
      assert a + b == (a + bl) + [h];
      assert b == bl + [h];
      SpeakerHitsAppend(a, bl, s);
      SpeakerHitsSnoc(a + bl, h, s);
      SpeakerHitsSnoc(bl, h, s);
    }
  }

  /** One more hit at the end is kept or dropped on its own. */
  lemma SpeakerHitsSnoc(xs: seq<Hit>, h: Hit, s: string)
    ensures SpeakerHits(xs + [h], s) == SpeakerHits(xs, s) + (if h.speaker == s then [h] else [])
  {
    assert (xs + [h])[..|xs|] == xs;
  }


  /** Hits all by `s` are all of `s`'s hits. */
  lemma {:induction false} SpeakerHitsAll(hs: seq<Hit>, s: string)
    requires forall k :: 0 <= k < |hs| ==> hs[k].speaker == s
    ensures SpeakerHits(hs, s) == hs
  {
    if |hs| > 0 {
      SpeakerHitsAll(hs[..|hs| - 1], s);
      assert hs[..|hs| - 1] + [hs[|hs| - 1]] == hs;
    }
  }

  /** When one speaker made every hit and wrote enough messages, the
      per-speaker part is that speaker's block alone. */
  lemma OneSpeakerPart(cfg: Config, sets: seq<(string, set<string>)>, win: Window, s: string)
    requires |win.hits| > 0 && forall k :: 0 <= k < |win.hits| ==> win.hits[k].speaker == s
    requires Participation(win.msgs, s) >= cfg.minParticipation
    ensures SpeakerPart(cfg, sets, win, Speakers(win.hits)) == AbsenceHits(cfg, sets, win.hits, win.end - 1, s, true)
  {
    OneSpeaker(win.hits, s);
    SpeakerHitsAll(win.hits, s);
    assert [s][..0] == [];
    assert SpeakerPart(cfg, sets, win, [s]) == SpeakerBlock(cfg, sets, win, s);
  }

  /** `participation[s]`: how many messages of the window `s` wrote. A
      single message counts one exactly when `s` wrote it, and
      `ParticipationAppend` says counts add over runs of messages. */
  function Participation(msgs: seq<Message>, s: string): (n: nat)
    ensures n <= |msgs|
    ensures |msgs| == 0 ==> n == 0
    ensures |msgs| == 1 ==> n == (if msgs[0].speaker == s then 1 else 0)
  {
    if |msgs| == 0 then 0
    else Participation(msgs[..|msgs| - 1], s) + (if msgs[|msgs| - 1].speaker == s then 1 else 0)
  }

  /** The per-speaker hits of one speaker, if they take part enough. */
  function SpeakerBlock(cfg: Config, sets: seq<(string, set<string>)>, win: Window, s: string): (r: seq<Hit>)
    ensures Participation(win.msgs, s) < cfg.minParticipation ==> r == []
    ensures |r| <= |sets|
    ensures forall j :: 0 <= j < |r| ==> r[j].i == win.end - 1 && r[j].speaker == s
  {
    if Participation(win.msgs, s) < cfg.minParticipation then []
    else AbsenceHits(cfg, sets, SpeakerHits(win.hits, s), win.end - 1, s, true)
  }

  /** A speaker who takes part enough gets one hit per set that passes over
      their own hits, in set order. */
  lemma SpeakerBlockInOrder(cfg: Config, sets: seq<(string, set<string>)>, win: Window, s: string)
    requires Participation(win.msgs, s) >= cfg.minParticipation
    ensures var ks := PassingIndices(cfg, sets, SpeakerHits(win.hits, s));
      && |SpeakerBlock(cfg, sets, win, s)| == |ks|
      && forall j :: 0 <= j < |ks| ==> SpeakerBlock(cfg, sets, win, s)[j] == Hit(win.end - 1, s, SpeakerMarker(sets[ks[j]].0))
  {
    var hs := SpeakerHits(win.hits, s);
    assert SpeakerBlock(cfg, sets, win, s) == AbsenceHits(cfg, sets, hs, win.end - 1, s, true);
    AbsenceHitsInOrder(cfg, sets, hs, win.end - 1, s, true);
  }

  /** The loop over `by_sp.items()`, one block after another: every hit is
      at the window's last message and attributed to one of the speakers,
      and a speaker who takes part too little adds nothing. */
  function SpeakerPart(cfg: Config, sets: seq<(string, set<string>)>, win: Window, speakers: seq<string>): (r: seq<Hit>)
    ensures forall j :: 0 <= j < |r| ==> r[j].i == win.end - 1 && r[j].speaker in speakers
    ensures forall j :: 0 <= j < |r| ==> Participation(win.msgs, r[j].speaker) >= cfg.minParticipation
  {
    if |speakers| == 0 then []
    else
      var pre := speakers[..|speakers| - 1];
      var last := speakers[|speakers| - 1];
      var head := SpeakerPart(cfg, sets, win, pre);
      var block := SpeakerBlock(cfg, sets, win, last);
      assert forall p :: 0 <= p < |pre| ==> pre[p] == speakers[p];
      assert forall j :: |head| <= j < |head| + |block| ==> (head + block)[j] == block[j - |head|];
      head + block
  }

  /** A per-speaker hit comes from one of the listed speakers' blocks. */
  lemma {:induction false} SpeakerPartFrom(cfg: Config, sets: seq<(string, set<string>)>, win: Window, speakers: seq<string>, x: Hit)
    requires x in SpeakerPart(cfg, sets, win, speakers)
    ensures exists p :: 0 <= p < |speakers| && x in SpeakerBlock(cfg, sets, win, speakers[p])
    decreases |speakers|
  {
    var pre := speakers[..|speakers| - 1];
    var head := SpeakerPart(cfg, sets, win, pre);
    assert SpeakerPart(cfg, sets, win, speakers) == head + SpeakerBlock(cfg, sets, win, speakers[|speakers| - 1]);
    if x in head {
      SpeakerPartFrom(cfg, sets, win, pre, x);
      var p :| 0 <= p < |pre| && x in SpeakerBlock(cfg, sets, win, pre[p]);
      assert pre[p] == speakers[p];
    }
  }

  /** Every hit of a listed speaker's block is a per-speaker hit. */
  lemma {:induction false} SpeakerPartHas(cfg: Config, sets: seq<(string, set<string>)>, win: Window, speakers: seq<string>, p: nat, x: Hit)
    requires p < |speakers| && x in SpeakerBlock(cfg, sets, win, speakers[p])
    ensures x in SpeakerPart(cfg, sets, win, speakers)
    decreases |speakers|
  {
    var pre := speakers[..|speakers| - 1];
    var head := SpeakerPart(cfg, sets, win, pre);
    assert SpeakerPart(cfg, sets, win, speakers) == head + SpeakerBlock(cfg, sets, win, speakers[|speakers| - 1]);
    if p < |pre| {
      assert pre[p] == speakers[p];
      SpeakerPartHas(cfg, sets, win, pre, p, x);
    }
  }

  /** The per-speaker hits are exactly the hits of the listed speakers'
      blocks. */
  lemma SpeakerPartMember(cfg: Config, sets: seq<(string, set<string>)>, win: Window, speakers: seq<string>, x: Hit)
    ensures x in SpeakerPart(cfg, sets, win, speakers) <==>
      exists p :: 0 <= p < |speakers| && x in SpeakerBlock(cfg, sets, win, speakers[p])
  {
    if x in SpeakerPart(cfg, sets, win, speakers) {
      SpeakerPartFrom(cfg, sets, win, speakers, x);
    }
    if exists p :: 0 <= p < |speakers| && x in SpeakerBlock(cfg, sets, win, speakers[p]) {
      var p :| 0 <= p < |speakers| && x in SpeakerBlock(cfg, sets, win, speakers[p]);
      SpeakerPartHas(cfg, sets, win, speakers, p, x);
    }
  }

  /** `text.split()` word counts summed over the window's messages: a
      single message contributes its own count, and `TokenEstimateAppend`
      says estimates add over runs of messages. */
  function TokenEstimate(msgs: seq<Message>): (n: nat)
    ensures forall k :: 0 <= k < |msgs| ==> TokenCount(msgs[k].text) <= n
    ensures n == 0 <==> forall k :: 0 <= k < |msgs| ==> TokenCount(msgs[k].text) == 0
    ensures |msgs| == 1 ==> n == TokenCount(msgs[0].text)
  {
    if |msgs| == 0 then 0
    else
      var pre := msgs[..|msgs| - 1];
      assert forall k :: 0 <= k < |pre| ==> pre[k] == msgs[k];
      TokenEstimate(pre) + TokenCount(msgs[|msgs| - 1].text)
  }

  /** The token estimate of two runs of messages is the sum of theirs. */
  lemma {:induction false} TokenEstimateAppend(a: seq<Message>, b: seq<Message>)
    ensures TokenEstimate(a + b) == TokenEstimate(a) + TokenEstimate(b)
    decreases |b|
  {
    if |b| == 0 {
      assert a + b == a;
    } else {
      assert (a + b)[..|a + b| - 1] == a + b[..|b| - 1];
      TokenEstimateAppend(a, b[..|b| - 1]);
    }
  }

  /** Participation in two runs of messages is the sum of the two. */
  lemma {:induction false} ParticipationAppend(a: seq<Message>, b: seq<Message>, s: string)
    ensures Participation(a + b, s) == Participation(a, s) + Participation(b, s)
    decreases |b|
  {
    if |b| == 0 {
      assert a + b == a;
    } else {
      assert (a + b)[..|a + b| - 1] == a + b[..|b| - 1];
      ParticipationAppend(a, b[..|b| - 1], s);
    }
  }

  /** The two gates: enough escalation hits and enough text. */
  predicate Gated(cfg: Config, eSet: set<string>, win: Window)
    ensures Gated(cfg, eSet, win) ==> |win.hits| >= cfg.minE
    ensures Gated(cfg, eSet, win) && cfg.minTokens > 0 ==> |win.msgs| > 0
  {
    CountIn(win.hits, eSet) >= cfg.minE && TokenEstimate(win.msgs) >= cfg.minTokens
  }

  /** Every hit sits at `at`. */
  predicate AllAt(r: seq<Hit>, at: int)
  {
    forall k :: 0 <= k < |r| ==> r[k].i == at
  }

  /** After the first hit come window-wide hits and then per-speaker hits,
      never the other way round. */
  predicate Grouped(r: seq<Hit>)
  {
    && (forall k :: 1 <= k < |r| ==> IsBoth(r[k].marker) || IsSpkr(r[k].marker))
    && (forall a, b :: 1 <= a < b < |r| && IsSpkr(r[a].marker) ==> IsSpkr(r[b].marker))
  }

  predicate NoSpkr(r: seq<Hit>)
  {
    forall k :: 0 <= k < |r| ==> !IsSpkr(r[k].marker)
  }

  /** The window-wide hits are all at `at` and all window-wide. */
  lemma BothPartShape(cfg: Config, sets: seq<(string, set<string>)>, counted: seq<Hit>, at: int)
    ensures AllAt(AbsenceHits(cfg, sets, counted, at, BothSpeaker, false), at)
    ensures forall k :: 0 <= k < |AbsenceHits(cfg, sets, counted, at, BothSpeaker, false)| ==>
      IsBoth(AbsenceHits(cfg, sets, counted, at, BothSpeaker, false)[k].marker)
      && !IsSpkr(AbsenceHits(cfg, sets, counted, at, BothSpeaker, false)[k].marker)
  {
    var both := AbsenceHits(cfg, sets, counted, at, BothSpeaker, false);
    forall j | 0 <= j < |both|
      ensures both[j].i == at && IsBoth(both[j].marker) && !IsSpkr(both[j].marker)
    {
      assert both[j] in both;
      var k :| 0 <= k < |sets| && SetPasses(cfg, counted, sets[k].1) && both[j] == Hit(at, BothSpeaker, MarkerOf(false, sets[k].0));
      MarkerKinds(sets[k].0);
    }
  }

  /** The per-speaker hits are all at the window's last message and all
      per-speaker. */
  lemma SpeakerPartShape(cfg: Config, sets: seq<(string, set<string>)>, win: Window, speakers: seq<string>)
    ensures AllAt(SpeakerPart(cfg, sets, win, speakers), win.end - 1)
    ensures forall k :: 0 <= k < |SpeakerPart(cfg, sets, win, speakers)| ==> IsSpkr(SpeakerPart(cfg, sets, win, speakers)[k].marker)
  {
    var spk := SpeakerPart(cfg, sets, win, speakers);
    forall j | 0 <= j < |spk|
      ensures spk[j].i == win.end - 1 && IsSpkr(spk[j].marker)
    {
      assert spk[j] in spk;
      SpeakerPartMember(cfg, sets, win, speakers, spk[j]);
      var p :| 0 <= p < |speakers| && spk[j] in SpeakerBlock(cfg, sets, win, speakers[p]);
      var s := speakers[p];
      var k :| 0 <= k < |sets| && SetPasses(cfg, SpeakerHits(win.hits, s), sets[k].1)
        && spk[j] == Hit(win.end - 1, s, MarkerOf(true, sets[k].0));
      MarkerKinds(sets[k].0);
    }
  }

  /** The context hit, window-wide hits, then per-speaker hits, in that
      order, make a grouped list at one position. */
  lemma GroupedConcat(c: Hit, both: seq<Hit>, spk: seq<Hit>, at: int)
    requires c.i == at && AllAt(both, at) && AllAt(spk, at)
    requires forall k :: 0 <= k < |both| ==> IsBoth(both[k].marker) && !IsSpkr(both[k].marker)
    requires forall k :: 0 <= k < |spk| ==> IsSpkr(spk[k].marker)
    ensures AllAt([c] + both + spk, at) && Grouped([c] + both + spk)
  {
    var r := [c] + both + spk;
    assert forall k :: 1 <= k < 1 + |both| ==> r[k] == both[k - 1];
    assert forall k :: 1 + |both| <= k < |r| ==> r[k] == spk[k - 1 - |both|];
  }

  /** The body of the window loop. A gated window gives its context hit
      first, then window-wide hits, then per-speaker hits, all at the
      window's last message; any other window gives nothing. */
  function EmitWindow(cfg: Config, sets: seq<(string, set<string>)>, eSet: set<string>, win: Window): (r: seq<Hit>)
    ensures |r| == 0 <==> !Gated(cfg, eSet, win)
    ensures |r| > 0 ==> r[0] == ContextHit(win)
    ensures AllAt(r, win.end - 1)
    ensures Grouped(r)
    ensures !cfg.perSpeaker ==> NoSpkr(r)
  {
    if !Gated(cfg, eSet, win) then []
    else
      var at := win.end - 1;
      var both := AbsenceHits(cfg, sets, win.hits, at, BothSpeaker, false);
      var spk := if cfg.perSpeaker then SpeakerPart(cfg, sets, win, Speakers(win.hits)) else [];
      BothPartShape(cfg, sets, win.hits, at);
      SpeakerPartShape(cfg, sets, win, Speakers(win.hits));
      GroupedConcat(ContextHit(win), both, spk, at);
      MarkerKinds("");
      [ContextHit(win)] + both + spk
  }

  /** What each window emits, window by window. */
  function PerWindow(cfg: Config, sets: seq<(string, set<string>)>, eSet: set<string>, ws: seq<Window>): (r: seq<seq<Hit>>)
    ensures |r| == |ws|
    ensures forall k :: 0 <= k < |ws| ==> r[k] == EmitWindow(cfg, sets, eSet, ws[k])
  {
    seq(|ws|, k requires 0 <= k < |ws| => EmitWindow(cfg, sets, eSet, ws[k]))
  }

  /** The window loop: what each window emits, window after window. A hit
      of the loop is exactly a hit of one of its windows. */
  function EmitAll(cfg: Config, sets: seq<(string, set<string>)>, eSet: set<string>, ws: seq<Window>): (r: seq<Hit>)
    ensures forall x :: x in r <==> exists k :: 0 <= k < |ws| && x in EmitWindow(cfg, sets, eSet, ws[k])
  {
    var pw := PerWindow(cfg, sets, eSet, ws);
    FlattenMembers(pw);
    Flatten(pw)
  }

  /** No state carries from one window to the next. */
  lemma EmitAllAppend(cfg: Config, sets: seq<(string, set<string>)>, eSet: set<string>, a: seq<Window>, b: seq<Window>)
    ensures EmitAll(cfg, sets, eSet, a + b) == EmitAll(cfg, sets, eSet, a) + EmitAll(cfg, sets, eSet, b)
  {
    var pab := PerWindow(cfg, sets, eSet, a + b);
    var pa := PerWindow(cfg, sets, eSet, a);
    var pb := PerWindow(cfg, sets, eSet, b);
    forall k | 0 <= k < |pab|
      ensures pab[k] == (pa + pb)[k]
    {
      if k < |a| {
        assert (a + b)[k] == a[k];
      } else {
        assert (a + b)[k] == b[k - |a|];
      }
    }
    assert pab == pa + pb;
    FlattenAppend(pa, pb);
  }

  /** A single window's loop is that window's output. */
  lemma EmitAllOne(cfg: Config, sets: seq<(string, set<string>)>, eSet: set<string>, win: Window)
    ensures EmitAll(cfg, sets, eSet, [win]) == EmitWindow(cfg, sets, eSet, win)
  {
    var out := EmitWindow(cfg, sets, eSet, win);
    assert PerWindow(cfg, sets, eSet, [win]) == [out];
    assert [out][..0] == [];
  }

  /** `detect_absence_meta` once the configuration is read: `Err` where the
      source loops for ever, the synthetic hits otherwise. */
  function Run(cfg: Config, sets: seq<(string, set<string>)>, eSet: set<string>, msgs: seq<Message>, hits: seq<Hit>): (r: Result<seq<Hit>, Stuck>)
    ensures r.Err? <==> |msgs| > 0 && cfg.window < 1
    ensures |msgs| == 0 ==> r == Ok([])
  {
    match CollectByWindow(msgs, hits, cfg.window)
    case Err(e) => Err(e)
    case Ok(ws) => Ok(EmitAll(cfg, sets, eSet, ws))
  }

  /** With a transcript and a workable window size, the run is the window
      loop over the transcript's windows. */
  lemma RunIsLoop(cfg: Config, sets: seq<(string, set<string>)>, eSet: set<string>, msgs: seq<Message>, hits: seq<Hit>)
    requires |msgs| > 0 && cfg.window >= 1
    ensures Run(cfg, sets, eSet, msgs, hits) == Ok(EmitAll(cfg, sets, eSet, WindowsFrom(msgs, hits, cfg.window, 0)))
  {
  }

  /** Every synthetic hit sits on the last message of a gated window of
      the transcript. */
  lemma RunHitsAtWindowEnds(cfg: Config, sets: seq<(string, set<string>)>, eSet: set<string>, msgs: seq<Message>, hits: seq<Hit>, x: Hit)
    requires Run(cfg, sets, eSet, msgs, hits).Ok? && x in Run(cfg, sets, eSet, msgs, hits).value
    ensures |msgs| > 0 && cfg.window >= 1
    ensures exists k :: (0 <= k < |WindowsFrom(msgs, hits, cfg.window, 0)|
      && Gated(cfg, eSet, WindowsFrom(msgs, hits, cfg.window, 0)[k])
      && x.i == WindowsFrom(msgs, hits, cfg.window, 0)[k].end - 1)
    ensures 0 <= x.i < |msgs|
  {
    var ws := WindowsFrom(msgs, hits, cfg.window, 0);
    var k :| 0 <= k < |ws| && x in EmitWindow(cfg, sets, eSet, ws[k]);
    assert IsBlock(msgs, hits, cfg.window, ws[k]);
  }

  /** A window's context hit is its only hit with the context marker, and
      it is there exactly when the window is gated. */
  lemma ContextInWindow(cfg: Config, sets: seq<(string, set<string>)>, eSet: set<string>, win: Window, x: Hit)
    ensures x in EmitWindow(cfg, sets, eSet, win) && x.marker == ContextMarker <==>
      Gated(cfg, eSet, win) && x == ContextHit(win)
  {
    var r := EmitWindow(cfg, sets, eSet, win);
    MarkerKinds("");
    if x in r && x.marker == ContextMarker {
      var j :| 0 <= j < |r| && r[j] == x;
      assert j == 0;
    }
    if Gated(cfg, eSet, win) && x == ContextHit(win) {
      assert r[0] == x;
    }
  }

  /** The context hits of a window loop are exactly one per gated
      window. */
  lemma ContextLoopIff(cfg: Config, sets: seq<(string, set<string>)>, eSet: set<string>, ws: seq<Window>, x: Hit)
    ensures x in EmitAll(cfg, sets, eSet, ws) && x.marker == ContextMarker <==>
      exists k :: 0 <= k < |ws| && Gated(cfg, eSet, ws[k]) && x == ContextHit(ws[k])
  {
    forall k | 0 <= k < |ws|
      ensures x in EmitWindow(cfg, sets, eSet, ws[k]) && x.marker == ContextMarker <==>
        Gated(cfg, eSet, ws[k]) && x == ContextHit(ws[k])
    {
      ContextInWindow(cfg, sets, eSet, ws[k], x);
    }
  }

  /** The context hits of a run are exactly one per gated window. */
  lemma ContextHitIff(cfg: Config, sets: seq<(string, set<string>)>, eSet: set<string>, msgs: seq<Message>, hits: seq<Hit>, x: Hit)
    requires |msgs| > 0 && cfg.window >= 1
    ensures x in Run(cfg, sets, eSet, msgs, hits).value && x.marker == ContextMarker <==>
      exists k :: 0 <= k < |WindowsFrom(msgs, hits, cfg.window, 0)|
        && Gated(cfg, eSet, WindowsFrom(msgs, hits, cfg.window, 0)[k])
        && x == ContextHit(WindowsFrom(msgs, hits, cfg.window, 0)[k])
  {
    RunIsLoop(cfg, sets, eSet, msgs, hits);
    ContextLoopIff(cfg, sets, eSet, WindowsFrom(msgs, hits, cfg.window, 0), x);
  }

  /** The window-wide hit `x` is due in `win`: the window is gated and `x`
      names a set that passes over all of the window's hits. */
  predicate BothDue(cfg: Config, sets: seq<(string, set<string>)>, eSet: set<string>, win: Window, x: Hit)
  {
    && Gated(cfg, eSet, win)
    && (exists k :: 0 <= k < |sets| && SetPasses(cfg, win.hits, sets[k].1)
         && x == Hit(win.end - 1, BothSpeaker, BothMarker(sets[k].0)))
  }

  /** The per-speaker hit `x` is due in `win`: the window is gated,
      per-speaker output is on, `x`'s speaker has a hit in the window and
      wrote at least `min_participation` of its messages, and `x` names a set
      that passes over that speaker's own hits. */
  predicate SpkrDue(cfg: Config, sets: seq<(string, set<string>)>, eSet: set<string>, win: Window, x: Hit)
  {
    && Gated(cfg, eSet, win)
    && cfg.perSpeaker
    && HasHit(win.hits, x.speaker)
    && Participation(win.msgs, x.speaker) >= cfg.minParticipation
    && (exists k :: 0 <= k < |sets| && SetPasses(cfg, SpeakerHits(win.hits, x.speaker), sets[k].1)
         && x == Hit(win.end - 1, x.speaker, SpeakerMarker(sets[k].0)))
  }

  /** A window's window-wide hits are exactly the ones due in it. */
  lemma BothInWindow(cfg: Config, sets: seq<(string, set<string>)>, eSet: set<string>, win: Window, x: Hit)
    ensures x in EmitWindow(cfg, sets, eSet, win) && IsBoth(x.marker) <==> BothDue(cfg, sets, eSet, win, x)
  {
    if Gated(cfg, eSet, win) {
      var at := win.end - 1;
      var both := AbsenceHits(cfg, sets, win.hits, at, BothSpeaker, false);
      var spk := if cfg.perSpeaker then SpeakerPart(cfg, sets, win, Speakers(win.hits)) else [];
      assert EmitWindow(cfg, sets, eSet, win) == [ContextHit(win)] + both + spk;
      MarkerKinds("");
      SpeakerPartShape(cfg, sets, win, Speakers(win.hits));
      if x in spk {
        var j :| 0 <= j < |spk| && spk[j] == x;
        assert IsSpkr(x.marker);
      }
      if BothDue(cfg, sets, eSet, win, x) {
        var k :| 0 <= k < |sets| && SetPasses(cfg, win.hits, sets[k].1) && x == Hit(at, BothSpeaker, BothMarker(sets[k].0));
        MarkerKinds(sets[k].0);
        assert x in both;
      }
    }
  }

  /** A hit of one speaker's block is that speaker's, due in the window. */
  lemma BlockSpeaker(cfg: Config, sets: seq<(string, set<string>)>, win: Window, s: string, x: Hit)
    requires x in SpeakerBlock(cfg, sets, win, s)
    ensures x.speaker == s
    ensures Participation(win.msgs, s) >= cfg.minParticipation
    ensures exists k :: (0 <= k < |sets| && SetPasses(cfg, SpeakerHits(win.hits, s), sets[k].1)
      && x == Hit(win.end - 1, s, SpeakerMarker(sets[k].0)))
  {
  }

  /** A gated window's output, part by part. */
  lemma EmitWindowParts(cfg: Config, sets: seq<(string, set<string>)>, eSet: set<string>, win: Window)
    requires Gated(cfg, eSet, win)
    ensures EmitWindow(cfg, sets, eSet, win) ==
      [ContextHit(win)] + AbsenceHits(cfg, sets, win.hits, win.end - 1, BothSpeaker, false)
        + (if cfg.perSpeaker then SpeakerPart(cfg, sets, win, Speakers(win.hits)) else [])
  {
  }

  /** A per-speaker hit a window emits comes from the per-speaker part. */
  lemma SpkrFromSpeakerPart(cfg: Config, sets: seq<(string, set<string>)>, eSet: set<string>, win: Window, x: Hit)
    requires x in EmitWindow(cfg, sets, eSet, win) && IsSpkr(x.marker)
    ensures Gated(cfg, eSet, win) && cfg.perSpeaker
    ensures x in SpeakerPart(cfg, sets, win, Speakers(win.hits))
  {
    var at := win.end - 1;
    var both := AbsenceHits(cfg, sets, win.hits, at, BothSpeaker, false);
    var spk := if cfg.perSpeaker then SpeakerPart(cfg, sets, win, Speakers(win.hits)) else [];
    EmitWindowParts(cfg, sets, eSet, win);
    MarkerKinds("");
    BothPartShape(cfg, sets, win.hits, at);
    assert x !in both;
    assert x in spk;
  }

  /** Every per-speaker hit a window emits is due in it. */
  lemma SpkrEmittedIsDue(cfg: Config, sets: seq<(string, set<string>)>, eSet: set<string>, win: Window, x: Hit)
    requires x in EmitWindow(cfg, sets, eSet, win) && IsSpkr(x.marker)
    ensures SpkrDue(cfg, sets, eSet, win, x)
  {
    SpkrFromSpeakerPart(cfg, sets, eSet, win, x);
    var sp := Speakers(win.hits);
    SpeakerPartMember(cfg, sets, win, sp, x);
    var p :| 0 <= p < |sp| && x in SpeakerBlock(cfg, sets, win, sp[p]);
    BlockSpeaker(cfg, sets, win, sp[p], x);
    assert sp[p] in sp;
  }

  /** Every per-speaker hit due in a window is emitted by it. */
  lemma SpkrDueIsEmitted(cfg: Config, sets: seq<(string, set<string>)>, eSet: set<string>, win: Window, x: Hit)
    requires SpkrDue(cfg, sets, eSet, win, x)
    ensures x in EmitWindow(cfg, sets, eSet, win) && IsSpkr(x.marker)
  {
    var at := win.end - 1;
    var both := AbsenceHits(cfg, sets, win.hits, at, BothSpeaker, false);
    var sp := Speakers(win.hits);
    var spk := SpeakerPart(cfg, sets, win, sp);
    EmitWindowParts(cfg, sets, eSet, win);
    var k :| 0 <= k < |sets| && SetPasses(cfg, SpeakerHits(win.hits, x.speaker), sets[k].1)
      && x == Hit(at, x.speaker, SpeakerMarker(sets[k].0));
    MarkerKinds(sets[k].0);
    assert x.speaker in sp;
    var p :| 0 <= p < |sp| && sp[p] == x.speaker;
    assert x in SpeakerBlock(cfg, sets, win, sp[p]);
    SpeakerPartMember(cfg, sets, win, sp, x);
    assert x in spk;
  }

  /** A window's per-speaker hits are exactly the ones due in it: a
      speaker with no hit in the window, or with fewer than
      `min_participation` messages in it, gets none. */
  lemma SpkrInWindow(cfg: Config, sets: seq<(string, set<string>)>, eSet: set<string>, win: Window, x: Hit)
    ensures x in EmitWindow(cfg, sets, eSet, win) && IsSpkr(x.marker) <==> SpkrDue(cfg, sets, eSet, win, x)
  {
    if x in EmitWindow(cfg, sets, eSet, win) && IsSpkr(x.marker) {
      SpkrEmittedIsDue(cfg, sets, eSet, win, x);
    }
    if SpkrDue(cfg, sets, eSet, win, x) {
      SpkrDueIsEmitted(cfg, sets, eSet, win, x);
    }
  }

  /** The window-wide hits of a window loop are the ones due in its
      windows. */
  lemma BothLoopIff(cfg: Config, sets: seq<(string, set<string>)>, eSet: set<string>, ws: seq<Window>, x: Hit)
    ensures x in EmitAll(cfg, sets, eSet, ws) && IsBoth(x.marker) <==>
      exists w :: 0 <= w < |ws| && BothDue(cfg, sets, eSet, ws[w], x)
  {
    forall w | 0 <= w < |ws|
      ensures x in EmitWindow(cfg, sets, eSet, ws[w]) && IsBoth(x.marker) <==> BothDue(cfg, sets, eSet, ws[w], x)
    {
      BothInWindow(cfg, sets, eSet, ws[w], x);
    }
  }

  /** The window-wide hits of a run are the ones due in its windows. */
  lemma BothHitIff(cfg: Config, sets: seq<(string, set<string>)>, eSet: set<string>, msgs: seq<Message>, hits: seq<Hit>, x: Hit)
    requires |msgs| > 0 && cfg.window >= 1
    ensures x in Run(cfg, sets, eSet, msgs, hits).value && IsBoth(x.marker) <==>
      exists w :: 0 <= w < |WindowsFrom(msgs, hits, cfg.window, 0)|
        && BothDue(cfg, sets, eSet, WindowsFrom(msgs, hits, cfg.window, 0)[w], x)
  {
    RunIsLoop(cfg, sets, eSet, msgs, hits);
    BothLoopIff(cfg, sets, eSet, WindowsFrom(msgs, hits, cfg.window, 0), x);
  }

  /** The per-speaker hits of a window loop are the ones due in its
      windows. */
  lemma SpkrLoopIff(cfg: Config, sets: seq<(string, set<string>)>, eSet: set<string>, ws: seq<Window>, x: Hit)
    ensures x in EmitAll(cfg, sets, eSet, ws) && IsSpkr(x.marker) <==>
      exists w :: 0 <= w < |ws| && SpkrDue(cfg, sets, eSet, ws[w], x)
  {
    forall w | 0 <= w < |ws|
      ensures x in EmitWindow(cfg, sets, eSet, ws[w]) && IsSpkr(x.marker) <==> SpkrDue(cfg, sets, eSet, ws[w], x)
    {
      SpkrInWindow(cfg, sets, eSet, ws[w], x);
    }
  }

  /** The per-speaker hits of a run are the ones due in its windows. */
  lemma SpkrHitIff(cfg: Config, sets: seq<(string, set<string>)>, eSet: set<string>, msgs: seq<Message>, hits: seq<Hit>, x: Hit)
    requires |msgs| > 0 && cfg.window >= 1
    ensures x in Run(cfg, sets, eSet, msgs, hits).value && IsSpkr(x.marker) <==>
      exists w :: 0 <= w < |WindowsFrom(msgs, hits, cfg.window, 0)|
        && SpkrDue(cfg, sets, eSet, WindowsFrom(msgs, hits, cfg.window, 0)[w], x)
  {
    RunIsLoop(cfg, sets, eSet, msgs, hits);
    SpkrLoopIff(cfg, sets, eSet, WindowsFrom(msgs, hits, cfg.window, 0), x);
  }

  /** A window gated under the stricter thresholds is gated under the
      looser ones, so it emits its context hit under both. */
  lemma StricterGateWindow(cfg: Config, strict: Config, sets: seq<(string, set<string>)>, eSet: set<string>, win: Window, x: Hit)
    requires strict == cfg.(minE := strict.minE, minTokens := strict.minTokens)
    requires cfg.minE <= strict.minE && cfg.minTokens <= strict.minTokens
    requires x in EmitWindow(strict, sets, eSet, win) && x.marker == ContextMarker
    ensures x in EmitWindow(cfg, sets, eSet, win)
  {
    ContextInWindow(strict, sets, eSet, win, x);
    assert Gated(cfg, eSet, win);
    ContextInWindow(cfg, sets, eSet, win, x);
  }

  /** Raising `min_E_hits` or `min_tokens` never adds a context hit. */
  lemma StricterGateFewerContexts(cfg: Config, strict: Config, sets: seq<(string, set<string>)>, eSet: set<string>, msgs: seq<Message>, hits: seq<Hit>, x: Hit)
    requires strict == cfg.(minE := strict.minE, minTokens := strict.minTokens)
    requires cfg.minE <= strict.minE && cfg.minTokens <= strict.minTokens
    requires |msgs| > 0 && cfg.window >= 1
    requires x in Run(strict, sets, eSet, msgs, hits).value && x.marker == ContextMarker
    ensures x in Run(cfg, sets, eSet, msgs, hits).value
  {
    var ws := WindowsFrom(msgs, hits, cfg.window, 0);
    RunIsLoop(strict, sets, eSet, msgs, hits);
    RunIsLoop(cfg, sets, eSet, msgs, hits);
    var w :| 0 <= w < |ws| && x in EmitWindow(strict, sets, eSet, ws[w]);
    StricterGateWindow(cfg, strict, sets, eSet, ws[w], x);
  }

  /** Under a non-negative `tolerant_max`, every window-wide hit the strict
      rule emits the tolerant rule emits too. */
  lemma StrictBothWithinTolerant(cfg: Config, sets: seq<(string, set<string>)>, eSet: set<string>, msgs: seq<Message>, hits: seq<Hit>, x: Hit)
    requires cfg.strictZero && cfg.tolerantMax >= 0
    requires |msgs| > 0 && cfg.window >= 1
    requires x in Run(cfg, sets, eSet, msgs, hits).value && IsBoth(x.marker)
    ensures x in Run(cfg.(strictZero := false), sets, eSet, msgs, hits).value
  {
    var tolerant := cfg.(strictZero := false);
    var ws := WindowsFrom(msgs, hits, cfg.window, 0);
    assert Run(cfg, sets, eSet, msgs, hits).value == EmitAll(cfg, sets, eSet, ws);
    assert Run(tolerant, sets, eSet, msgs, hits).value == EmitAll(tolerant, sets, eSet, ws);
    var w :| 0 <= w < |ws| && x in EmitWindow(cfg, sets, eSet, ws[w]);
    BothInWindow(cfg, sets, eSet, ws[w], x);
    var k :| 0 <= k < |sets| && SetPasses(cfg, ws[w].hits, sets[k].1)
      && x == Hit(ws[w].end - 1, BothSpeaker, BothMarker(sets[k].0));
    StrictWithinTolerant(CountIn(ws[w].hits, sets[k].1), cfg.tolerantMax);
    assert SetPasses(tolerant, ws[w].hits, sets[k].1);
    assert BothDue(tolerant, sets, eSet, ws[w], x);
    BothInWindow(tolerant, sets, eSet, ws[w], x);
  }

  /** A set that resolves to nothing gets its window-wide hit in every
      gated window, unless the tolerant rule is set below zero. */
  lemma EmptySetAlwaysReported(cfg: Config, sets: seq<(string, set<string>)>, eSet: set<string>, win: Window, k: nat)
    requires k < |sets| && sets[k].1 == {}
    requires cfg.strictZero || cfg.tolerantMax >= 0
    requires Gated(cfg, eSet, win)
    ensures Hit(win.end - 1, BothSpeaker, BothMarker(sets[k].0)) in EmitWindow(cfg, sets, eSet, win)
  {
    var x := Hit(win.end - 1, BothSpeaker, BothMarker(sets[k].0));
    EmptySetPasses(win.hits, cfg.strictZero, cfg.tolerantMax);
    assert BothDue(cfg, sets, eSet, win, x);
    BothInWindow(cfg, sets, eSet, win, x);
  }

  /** The first position of `s` in `xs`. */
  function IndexOf(xs: seq<string>, s: string): (r: nat)
    requires s in xs
    ensures r < |xs| && xs[r] == s
    ensures forall j :: 0 <= j < r ==> xs[j] != s
  {
    if xs[0] == s then 0 else 1 + IndexOf(xs[1..], s)
  }

  /** Appending does not move the first position of an element already
      there. */
  lemma {:induction false} IndexOfAppend(xs: seq<string>, y: string, s: string)
    requires s in xs
    ensures IndexOf(xs + [y], s) == IndexOf(xs, s)
  {
    if xs[0] != s {
      assert (xs + [y])[1..] == xs[1..] + [y];
      IndexOfAppend(xs[1..], y, s);
    }
  }

  /** The speakers are listed in order of their first hit: every hit of a
      later speaker comes after some hit of an earlier one. */
  lemma {:induction false} SpeakersFirstHitOrder(hs: seq<Hit>, a: nat, b: nat, k: nat)
    requires a < b < |Speakers(hs)|
    requires k < |hs| && hs[k].speaker == Speakers(hs)[b]
    ensures exists j :: 0 <= j < k && hs[j].speaker == Speakers(hs)[a]
  {
    var pre := hs[..|hs| - 1];
    var s := hs[|hs| - 1].speaker;
    var r := Speakers(pre);
    var sp := Speakers(hs);
    assert forall i :: 0 <= i < |pre| ==> pre[i] == hs[i];
    assert r[a] in r;
    var i :| 0 <= i < |pre| && pre[i].speaker == r[a];
    if s in r {
      assert sp == r;
      if k < |pre| {
        SpeakersFirstHitOrder(pre, a, b, k);
      } else {
        assert hs[i].speaker == sp[a];
      }
    } else {
      assert sp == r + [s];
      assert sp[a] == r[a];
      if b < |r| {
        assert sp[b] == r[b];
        assert k < |pre|;
        SpeakersFirstHitOrder(pre, a, b, k);
      } else {
        assert !HasHit(pre, s);
        assert k == |hs| - 1;
        assert hs[i].speaker == sp[a];
      }
    }
  }

  /** Per-speaker hits come grouped by speaker, in the order the speakers
      are listed. */
  lemma {:induction false} SpeakerPartOrder(cfg: Config, sets: seq<(string, set<string>)>, win: Window, speakers: seq<string>, i1: nat, i2: nat)
    requires forall a, b :: 0 <= a < b < |speakers| ==> speakers[a] != speakers[b]
    requires i1 < i2 < |SpeakerPart(cfg, sets, win, speakers)|
    ensures SpeakerPart(cfg, sets, win, speakers)[i1].speaker in speakers
    ensures SpeakerPart(cfg, sets, win, speakers)[i2].speaker in speakers
    ensures IndexOf(speakers, SpeakerPart(cfg, sets, win, speakers)[i1].speaker)
      <= IndexOf(speakers, SpeakerPart(cfg, sets, win, speakers)[i2].speaker)
  {
    var n := |speakers|;
    var pre := speakers[..n - 1];
    var last := speakers[n - 1];
    var r := SpeakerPart(cfg, sets, win, speakers);
    var head := SpeakerPart(cfg, sets, win, pre);
    var block := SpeakerBlock(cfg, sets, win, last);
    assert speakers == pre + [last];
    assert r == head + block;
    if i2 < |head| {
      assert r[i1] == head[i1] && r[i2] == head[i2];
      SpeakerPartOrder(cfg, sets, win, pre, i1, i2);
      IndexOfAppend(pre, last, head[i1].speaker);
      IndexOfAppend(pre, last, head[i2].speaker);
    } else {
      assert r[i2] == block[i2 - |head|] && block[i2 - |head|] in block;
      BlockSpeaker(cfg, sets, win, last, r[i2]);
      assert IndexOf(speakers, last) == n - 1;
    }
  }

  /** `detect_absence_meta`: the configuration read with its defaults, the
      absence sets resolved through the tag index, then the window loop.
      Every synthetic hit points at a message of the transcript. */
  function DetectAbsenceMeta(msgs: seq<Message>, hits: seq<Hit>, raw: RawConfig, tagIndex: map<string, set<string>>, eSet: set<string>): (r: Result<seq<Hit>, Stuck>)
    ensures r.Err? <==> |msgs| > 0 && Resolve(raw).window < 1
    ensures r.Ok? ==> forall k :: 0 <= k < |r.value| ==> 0 <= r.value[k].i < |msgs|
  {
    var cfg := Resolve(raw);
    var sets := ResolveSets(raw.absenceSets, tagIndex);
    var r := Run(cfg, sets, eSet, msgs, hits);
    if r.Ok? then
      assert forall k :: 0 <= k < |r.value| ==> 0 <= r.value[k].i < |msgs| by {
        forall k | 0 <= k < |r.value|
          ensures 0 <= r.value[k].i < |msgs|
        {
          RunHitsAtWindowEnds(cfg, sets, eSet, msgs, hits, r.value[k]);
        }
      }
      r
    else r
  }

  /** `integrate_absence_detection`: the tag index built from the registry,
      detection run, and the synthetic hits appended after the original
      ones, which come through unchanged. */
  function IntegrateAbsenceDetection(msgs: seq<Message>, hits: seq<Hit>, raw: RawConfig, registry: seq<MarkerRecord>, eSet: set<string>): (r: Result<seq<Hit>, Stuck>)
    ensures r.Err? <==> |msgs| > 0 && Resolve(raw).window < 1
    ensures r.Ok? ==> |r.value| >= |hits| && r.value[..|hits|] == hits
    ensures r.Ok? ==> forall k :: |hits| <= k < |r.value| ==> 0 <= r.value[k].i < |msgs|
  {
    match DetectAbsenceMeta(msgs, hits, raw, Build(registry).tagToIds, eSet)
    case Err(e) => Err(e)
    case Ok(synthetic) =>
      assert forall k :: |hits| <= k < |hits + synthetic| ==> (hits + synthetic)[k] == synthetic[k - |hits|];
      Ok(hits + synthetic)
  }

  /** Integration appends what the run over the resolved configuration
      emits. */
  lemma IntegrateIsRun(msgs: seq<Message>, hits: seq<Hit>, raw: RawConfig, registry: seq<MarkerRecord>, eSet: set<string>, synthetic: seq<Hit>)
    requires Run(Resolve(raw), ResolveSets(raw.absenceSets, Build(registry).tagToIds), eSet, msgs, hits) == Ok(synthetic)
    ensures IntegrateAbsenceDetection(msgs, hits, raw, registry, eSet) == Ok(hits + synthetic)
  {
  }
}

=== FILE: basics.dfy ===
/** Option and Result types shared by every module of the model, and the
    concatenation of a sequence of sequences. */
module Basics {

  datatype Option<+T> = None | Some(value: T)

  /** A computation that either yields a value or fails with an error, the
      model's stand-in for a Python exception. */
  datatype Result<+T, +E> = Ok(value: T) | Err(error: E)

  /** Concatenation of a sequence of sequences. */
  function Flatten<T>(ss: seq<seq<T>>): (r: seq<T>)
    ensures |ss| == 0 ==> r == []
  {
    if |ss| == 0 then [] else Flatten(ss[..|ss| - 1]) + ss[|ss| - 1]
  }

  lemma {:induction false} FlattenAppend<T>(a: seq<seq<T>>, b: seq<seq<T>>)
    ensures Flatten(a + b) == Flatten(a) + Flatten(b)
    decreases |b|
  {
    if |b| == 0 {
      assert a + b == a;
    } else {
      var ab := a + b;
      var bl := b[..|b| - 1];
      assert ab[..|ab| - 1] == a + bl;
      assert ab[|ab| - 1] == b[|b| - 1];
      FlattenAppend(a, bl);
      assert Flatten(ab) == Flatten(a + bl) + b[|b| - 1];
      assert Flatten(b) == Flatten(bl) + b[|b| - 1];
    }
  }

  /** Every element of a flattened sequence comes from one of its parts. */
  lemma {:induction false} FlattenMember<T>(ss: seq<seq<T>>, x: T)
    requires x in Flatten(ss)
    ensures exists k :: 0 <= k < |ss| && x in ss[k]
  {
    if |ss| > 0 {
      var last := ss[|ss| - 1];
      if x !in last {
        FlattenMember(ss[..|ss| - 1], x);
        var k :| 0 <= k < |ss| - 1 && x in ss[..|ss| - 1][k];
        assert x in ss[k];
      }
    }
  }

  /** Every element of a part is in the flattened sequence. */
  lemma {:induction false} FlattenHas<T>(ss: seq<seq<T>>, k: nat, x: T)
    requires k < |ss| && x in ss[k]
    ensures x in Flatten(ss)
  {
    if k < |ss| - 1 {
      FlattenHas(ss[..|ss| - 1], k, x);
    }
  }

  /** The elements of a flattened sequence are exactly those of its parts. */
  lemma FlattenMembers<T>(ss: seq<seq<T>>)
    ensures forall x :: x in Flatten(ss) <==> exists k :: 0 <= k < |ss| && x in ss[k]
  {
    forall x
      ensures x in Flatten(ss) <==> exists k :: 0 <= k < |ss| && x in ss[k]
    {
      if x in Flatten(ss) {
        FlattenMember(ss, x);
      }
      if exists k :: 0 <= k < |ss| && x in ss[k] {
        var k :| 0 <= k < |ss| && x in ss[k];
        FlattenHas(ss, k, x);
      }
    }
  }
}

=== FILE: detection.dfy ===
/** The pattern-matcher contract shared by every detector: a detection is
    `{span, label, score, evidence}` (the label is the field `marker` here). Scores are exact integer hundredths
    (every constant of the detectors is a multiple of 0.05), so a score of
    `40` stands for 0.4. Regular-expression matching itself is not modelled:
    a lexicon's matches are an input, a sequence of `Match` values in the
    order `finditer` yields them. */
module Detection {
  import opened Basics

  datatype Span = Span(start: int, end: int)

  /** One regular-expression match: `m.start()`, `m.end()`, `m.group(0)`. */
  datatype Match = Match(start: nat, end: nat, text: string)

  datatype Detection = Detection(span: Option<Span>, marker: string, score: int, evidence: string)

  /** The score 1.0 in hundredths. */
  const One := 100

  function Min(a: int, b: int): int { if a <= b then a else b }
  function Max(a: int, b: int): int { if a >= b then a else b }
  function Abs(a: int): nat { if a >= 0 then a else -a }

  /** `max(0.0, min(1.0, score))`. */
  function Clamp(score: int): (r: int)
    ensures 0 <= r <= One
    ensures 0 <= score <= One ==> r == score
    ensures score < 0 ==> r == 0
    ensures score > One ==> r == One
  {
    Max(0, Min(One, score))
  }

  /** The detectors' shared `_mk`: builds a detection whose score is clamped
      into [0, 1]; span, label and evidence are kept as given. */
  function Mk(span: Option<Span>, marker: string, score: int, evidence: string): (d: Detection)
    ensures d.span == span && d.marker == marker && d.evidence == evidence
    ensures 0 <= d.score <= One
    ensures 0 <= score <= One ==> d.score == score
  {
    Detection(span, marker, Clamp(score), evidence)
  }

  /** Clamping an in-range score is the identity, so clamping twice is clamping once. */
  lemma ClampIdempotent(score: int)
    ensures Clamp(Clamp(score)) == Clamp(score)
  {
  }

  /** The span `(m.start(), m.end())` of a match. */
  function SpanOf(m: Match): Option<Span>
  {
    Some(Span(m.start, m.end))
  }

  /** One detection per match, in match order, spanned at the match, with the
      matched text as evidence and one shared score. */
  function PerMatch(ms: seq<Match>, marker: string, score: int): (r: seq<Detection>)
    requires 0 <= score <= One
    ensures |r| == |ms|
    ensures forall k :: 0 <= k < |ms| ==>
      r[k] == Detection(SpanOf(ms[k]), marker, score, ms[k].text)
  {
    seq(|ms|, k requires 0 <= k < |ms| => Mk(SpanOf(ms[k]), marker, score, ms[k].text))
  }

  function DigitChar(d: nat): char
    requires d < 10
  {
    ('0' as int + d) as char
  }

  /** Python's `str(n)` for a non-negative integer. */
  function NatToString(n: nat): (s: string)
    ensures |s| > 0
    ensures forall k :: 0 <= k < |s| ==> '0' <= s[k] <= '9'
    ensures |s| > 1 ==> s[0] != '0'
  {
    if n < 10 then [DigitChar(n)] else NatToString(n / 10) + [DigitChar(n % 10)]
  }

  /** Reading a string of decimal digits back as a number. */
  function ParseDecimal(s: string): nat
    requires forall k :: 0 <= k < |s| ==> '0' <= s[k] <= '9'
  {
    if |s| == 0 then 0
    else ParseDecimal(s[..|s| - 1]) * 10 + (s[|s| - 1] as int - '0' as int)
  }

  /** `str` loses nothing: the decimal text reads back as the number. */
  lemma {:induction false} DecimalRoundTrip(n: nat)
    ensures ParseDecimal(NatToString(n)) == n
  {
    if n >= 10 {
      DecimalRoundTrip(n / 10);
      var s := NatToString(n);
      assert s[..|s| - 1] == NatToString(n / 10);
    }
  }
}

=== FILE: idealization_devaluation.dfy ===
/** SEM_IDEALIZATION_DEVALUATION: every positive-lexicon match opens a
    window of 120 characters either side of its start; the leftmost
    negative-lexicon occurrence lying wholly inside that window pairs with it
    into one merged-span hit at 0.85. The negative lexicon has no anchors or
    word boundaries, so searching the window slice finds the first
    occurrence in the whole text that lies inside the window. `neg` is the
    list of the occurrences in the whole text, ascending by start, and it
    must list every occurrence, including one that overlaps an earlier one:
    a list of non-overlapping matches can miss the one the slice search
    finds. In "schrecklichate", `hate` at 10 overlaps `schrecklich` at 0,
    and a window starting anywhere in 1..10 finds `hate`. */
module IdealizationDevaluation {
  import opened Basics
  import opened Detection

  const Label := "SEM_IDEALIZATION_DEVALUATION"
  const Score := 85
  /** The search radius in characters, measured from the positive match's start. */
  const Radius := 120
  /** The separator `" … "` between the two matched texts in the evidence. */
  const Separator := " \U{2026} "

  /** `(max(0, s0 - 120), min(len(t), s0 + 120))`. */
  function Window(textLen: nat, s0: nat): (int, int)
  {
    (Max(0, s0 - Radius), Min(textLen, s0 + Radius))
  }

  predicate Inside(n: Match, lo: int, hi: int)
  {
    lo <= n.start && n.end <= hi
  }

  /** `neg.search` on the window slice: the first occurrence lying inside. */
  function FirstInside(neg: seq<Match>, lo: int, hi: int): (r: Option<nat>)
    ensures r.Some? <==> exists k :: 0 <= k < |neg| && Inside(neg[k], lo, hi)
    ensures r.Some? ==> r.value < |neg| && Inside(neg[r.value], lo, hi)
    ensures r.Some? ==> forall k :: 0 <= k < r.value ==> !Inside(neg[k], lo, hi)
  {
    if |neg| == 0 then None
    else if Inside(neg[0], lo, hi) then Some(0)
    else
      var r := FirstInside(neg[1..], lo, hi);
      assert forall k :: 1 <= k < |neg| ==> neg[k] == neg[1..][k - 1];
      if r.Some? then Some(r.value + 1) else None
  }

  /** The hit a positive match contributes, if any: one exactly when a
      negative occurrence lies inside the window, labelled at 0.85, with a
      span that covers the positive match. */
  function HitFor(textLen: nat, p: Match, neg: seq<Match>): (r: Option<Detection>)
    ensures r.Some? <==> exists k :: 0 <= k < |neg| && Inside(neg[k], Window(textLen, p.start).0, Window(textLen, p.start).1)
    ensures r.Some? ==> r.value.marker == Label && r.value.score == Score && r.value.span.Some?
    ensures r.Some? ==> r.value.span.value.start <= p.start && p.end <= r.value.span.value.end
  {
    var (lo, hi) := Window(textLen, p.start);
    match FirstInside(neg, lo, hi)
    case None => None
    case Some(k) =>
      var n := neg[k];
      Some(Mk(Some(Span(Min(p.start, n.start), Max(p.end, n.end))), Label, Score, p.text + Separator + n.text))
  }

  /** The detector: at most one hit per positive match, each at 0.85 with a span. */
  function Detect(textLen: nat, pos: seq<Match>, neg: seq<Match>): (r: seq<Detection>)
    ensures |r| <= |pos|
    ensures |pos| == 0 ==> r == []
    ensures forall k :: 0 <= k < |r| ==> r[k].score == Score && r[k].marker == Label && r[k].span.Some?
  {
    if |pos| == 0 then []
    else
      var rest := Detect(textLen, pos[..|pos| - 1], neg);
      match HitFor(textLen, pos[|pos| - 1], neg)
      case None => rest
      case Some(d) => rest + [d]
  }

  /** One more positive match adds its own hit, if any, at the end. */
  lemma DetectSnoc(textLen: nat, pos: seq<Match>, p: Match, neg: seq<Match>)
    ensures Detect(textLen, pos + [p], neg) ==
      Detect(textLen, pos, neg) + (if HitFor(textLen, p, neg).Some? then [HitFor(textLen, p, neg).value] else [])
  {
    assert (pos + [p])[..|pos|] == pos;
  }

  /** Hits come in positive-match order: detecting on two runs of positive
      matches is detecting on each and concatenating. */
  lemma {:induction false} DetectAppend(textLen: nat, a: seq<Match>, b: seq<Match>, neg: seq<Match>)
    ensures Detect(textLen, a + b, neg) == Detect(textLen, a, neg) + Detect(textLen, b, neg)
    decreases |b|
  {
    if |b| == 0 {
      assert a + b == a;
    } else {
      var bl := b[..|b| - 1];
      var p := b[|b| - 1];
      assert b == bl + [p];
      assert a + b == (a + bl) + [p];
      DetectAppend(textLen, a, bl, neg);
      DetectSnoc(textLen, a + bl, p, neg);
      DetectSnoc(textLen, bl, p, neg);
    }
  }

  predicate StartsAscending(neg: seq<Match>)
  {
    forall a, b :: 0 <= a < b < |neg| ==> neg[a].start < neg[b].start
  }

  /** The hit pairs the positive match with an occurrence inside its window;
      with occurrences listed by ascending start it is the leftmost one. The
      merged span covers both matches. */
  lemma HitUsesLeftmost(textLen: nat, p: Match, neg: seq<Match>)
    requires HitFor(textLen, p, neg).Some?
    ensures var (lo, hi) := Window(textLen, p.start);
      exists k :: 0 <= k < |neg| && Inside(neg[k], lo, hi)
        && HitFor(textLen, p, neg).value.evidence == p.text + Separator + neg[k].text
        && HitFor(textLen, p, neg).value.span == Some(Span(Min(p.start, neg[k].start), Max(p.end, neg[k].end)))
        && (StartsAscending(neg) ==> forall k' :: 0 <= k' < |neg| && Inside(neg[k'], lo, hi) ==> neg[k].start <= neg[k'].start)
  {
    var (lo, hi) := Window(textLen, p.start);
    var k := FirstInside(neg, lo, hi).value;
    assert Inside(neg[k], lo, hi);
  }

  /** The merged span covers the positive match and lies inside the text
      whenever the positive match does. */
  lemma SpanWithinText(textLen: nat, p: Match, neg: seq<Match>)
    requires p.start <= p.end <= textLen
    requires HitFor(textLen, p, neg).Some?
    ensures var s := HitFor(textLen, p, neg).value.span.value;
      0 <= s.start <= p.start && p.end <= s.end <= textLen
  {
  }

  /** A text without any negative occurrence yields no hit at all. */
  lemma {:induction false} NoNegativeNoHits(textLen: nat, pos: seq<Match>)
    ensures Detect(textLen, pos, []) == []
  {
    if |pos| > 0 {
      NoNegativeNoHits(textLen, pos[..|pos| - 1]);
    }
  }
}

=== FILE: indirect_conflict_avoidance.dfy ===
/** CLU_INDIRECT_CONFLICT_AVOIDANCE: topic shifts fire per occurrence at 0.7;
    minimisation together with deferral fires once, without a span, at 0.75;
    either of those two alone fires per occurrence at 0.45. The inputs are the
    match lists of the three lexicons. */
module IndirectConflictAvoidance {
  import opened Basics
  import opened Detection

  const Label := "CLU_INDIRECT_CONFLICT_AVOIDANCE"
  const ShiftScore := 70
  const CombinedScore := 75
  const WeakScore := 45
  const CombinedEvidence := "minimization+defer"

  /** The consolidated minimisation+deferral hit, present iff both lists are non-empty. */
  function Combined(mm: seq<Match>, md: seq<Match>): (c: seq<Detection>)
    ensures |c| == (if |mm| > 0 && |md| > 0 then 1 else 0)
    ensures |c| == 1 ==> c[0] == Detection(None, Label, CombinedScore, CombinedEvidence)
  {
    if |mm| > 0 && |md| > 0 then [Mk(None, Label, CombinedScore, CombinedEvidence)] else []
  }

  /** The weak hits: one per match of whichever single list is non-empty. */
  function Weak(mm: seq<Match>, md: seq<Match>): (w: seq<Detection>)
    ensures (|mm| > 0) != (|md| > 0) ==> w == PerMatch(mm + md, Label, WeakScore)
    ensures (|mm| > 0) == (|md| > 0) ==> w == []
  {
    if (|mm| > 0 && |md| == 0) || (|md| > 0 && |mm| == 0) then
      assert |mm| == 0 ==> mm + md == md;
      assert |md| == 0 ==> mm + md == mm;
      PerMatch(if |mm| > 0 then mm else md, Label, WeakScore)
    else []
  }

  function Detect(ms: seq<Match>, mm: seq<Match>, md: seq<Match>): (r: seq<Detection>)
    // shift hits come first, one per match, whatever the other lists hold
    ensures |r| >= |ms|
    ensures forall k :: 0 <= k < |ms| ==> r[k] == Detection(SpanOf(ms[k]), Label, ShiftScore, ms[k].text)
    // both minimisation and deferral: one span-less consolidated hit and no weak hit
    ensures |mm| > 0 && |md| > 0 ==>
      && |r| == |ms| + 1
      && r[|ms|] == Detection(None, Label, CombinedScore, CombinedEvidence)
    // exactly one of them: a weak hit per match of the non-empty list
    ensures (|mm| > 0) != (|md| > 0) ==>
      && |r| == |ms| + |mm| + |md|
      && forall k :: 0 <= k < |mm| + |md| ==>
           r[|ms| + k] == Detection(SpanOf((mm + md)[k]), Label, WeakScore, (mm + md)[k].text)
    // neither: only the shift hits
    ensures |mm| == 0 && |md| == 0 ==> |r| == |ms|
  {
    var shift := PerMatch(ms, Label, ShiftScore);
    var tail := Combined(mm, md) + Weak(mm, md);
    var r := shift + tail;
    assert forall k :: 0 <= k < |ms| ==> r[k] == shift[k];
    assert forall k :: 0 <= k < |tail| ==> r[|ms| + k] == tail[k];
    r
  }

  /** Every score is one of the three tiers, and a 0.45 hit never appears
      beside the consolidated one. */
  lemma {:induction false} ScoresAreTiers(ms: seq<Match>, mm: seq<Match>, md: seq<Match>)
    ensures forall k :: 0 <= k < |Detect(ms, mm, md)| ==>
      Detect(ms, mm, md)[k].score in {WeakScore, ShiftScore, CombinedScore}
    ensures |mm| > 0 && |md| > 0 ==>
      forall k :: 0 <= k < |Detect(ms, mm, md)| ==> Detect(ms, mm, md)[k].score != WeakScore
  {
    var r := Detect(ms, mm, md);
    forall k | 0 <= k < |r|
      ensures r[k].score in {WeakScore, ShiftScore, CombinedScore}
      ensures |mm| > 0 && |md| > 0 ==> r[k].score != WeakScore
    {
      if k < |ms| {
      } else if |mm| > 0 && |md| > 0 {
        assert k == |ms|;
      } else {
        assert r[|ms| + (k - |ms|)] == r[k];
      }
    }
  }

  /** Total hit count: `|ms| + [mm and md] + (|mm| + |md| if exactly one)`. */
  lemma HitCount(ms: seq<Match>, mm: seq<Match>, md: seq<Match>)
    ensures |Detect(ms, mm, md)| ==
      |ms| + (if |mm| > 0 && |md| > 0 then 1 else 0) + (if (|mm| > 0) != (|md| > 0) then |mm| + |md| else 0)
  {
  }

  /** The three lexicons as the source writes them, one regular expression
      per entry, before `"|".join`. */
  const ShiftLexicon: seq<string> := [
    "\\banderes\\s+Thema\\b", "\\begal\\s+jetzt\\b", "\\blass\\s+gut\\s+sein\\b",
    "\\bnicht\\s+der\\s+richtige\\s+Moment\\b"]
  const MiniLexicon: seq<string> := [
    "\\bkein\\s+Drama\\b", "\\bnicht\\s+so\\s+wichtig\\b", "\\bhalb\\s+so\\s+wild\\b"]
  const DeferLexicon: seq<string> := ["\\bspäter\\b", "\\manderswann\\b", "\\bnot\\s+now\\b"]

  /** The deferral lexicon with the evidently intended word boundary in
      place of the unknown escape in its second entry. */
  const CorrectedDeferLexicon: seq<string> := ["\\bspäter\\b", "\\banderswann\\b", "\\bnot\\s+now\\b"]

  /** The letters Python's `re` gives a meaning after a backslash outside a
      character class; any other ASCII letter there is a "bad escape". */
  const KnownEscapes: set<char> :=
    {'a', 'b', 'f', 'n', 'r', 't', 'v', 'x', 'u', 'U', 'N', 'A', 'Z', 'B', 'd', 'D', 's', 'S', 'w', 'W'}

  predicate AsciiLetter(c: char)
  {
    'a' <= c <= 'z' || 'A' <= c <= 'Z'
  }

  /** The letter of the first bad escape of `p` from position `i` on; an
      escaped character is skipped together with its backslash. */
  function BadEscapeFrom(p: string, i: nat): (r: Option<char>)
    requires i <= |p|
    decreases |p| - i
  {
    if i + 1 >= |p| then None
    else if p[i] == '\\' then
      if AsciiLetter(p[i + 1]) && p[i + 1] !in KnownEscapes then Some(p[i + 1])
      else BadEscapeFrom(p, i + 2)
    else BadEscapeFrom(p, i + 1)
  }

  /** Why `re.compile` raises. */
  datatype CompileError = BadEscape(letter: char)

  /** Compiling a lexicon: the first bad escape of its entries, if any. */
  function CompileLexicon(ps: seq<string>): (r: Option<char>)
    ensures r.None? <==> forall k :: 0 <= k < |ps| ==> BadEscapeFrom(ps[k], 0).None?
  {
    if |ps| == 0 then None
    else
      match BadEscapeFrom(ps[0], 0)
      case Some(c) => Some(c)
      case None =>
        var rest := CompileLexicon(ps[1..]);
        assert forall k :: 1 <= k < |ps| ==> ps[k] == ps[1..][k - 1];
        rest
  }

  /** `detect` with its lexicons compiled first, in the source's order:
      the first lexicon that fails to compile raises, and otherwise the tier
      logic runs on the match lists. */
  function DetectWith(shift: seq<string>, mini: seq<string>, defer: seq<string>,
                      ms: seq<Match>, mm: seq<Match>, md: seq<Match>): (r: Result<seq<Detection>, CompileError>)
    ensures r.Ok? <==> CompileLexicon(shift).None? && CompileLexicon(mini).None? && CompileLexicon(defer).None?
    ensures r.Ok? ==> r.value == Detect(ms, mm, md)
    ensures CompileLexicon(shift).None? && CompileLexicon(mini).None? && CompileLexicon(defer).Some? ==>
      r == Err(BadEscape(CompileLexicon(defer).value))
  {
    match CompileLexicon(shift)
    case Some(c) => Err(BadEscape(c))
    case None =>
      match CompileLexicon(mini)
      case Some(c) => Err(BadEscape(c))
      case None =>
        match CompileLexicon(defer)
        case Some(c) => Err(BadEscape(c))
        case None => Ok(Detect(ms, mm, md))
  }

  /* One lemma per lexicon entry: the scan of a literal pattern is
     evaluated step by step, and evaluating several patterns in a single
     proof exceeds the solver's budget. */

  lemma ShiftEntry0Compiles()
    ensures BadEscapeFrom(ShiftLexicon[0], 0).None?
  {
    assert ShiftLexicon[0] == "\\banderes\\s+Thema\\b";
    assert BadEscapeFrom("\\banderes\\s+Thema\\b", 9).None?;
  }

  lemma ShiftEntry1Compiles()
    ensures BadEscapeFrom(ShiftLexicon[1], 0).None?
  {
    assert ShiftLexicon[1] == "\\begal\\s+jetzt\\b";
    assert BadEscapeFrom("\\begal\\s+jetzt\\b", 9).None?;
  }

  lemma ShiftEntry2Compiles()
    ensures BadEscapeFrom(ShiftLexicon[2], 0).None?
  {
    assert ShiftLexicon[2] == "\\blass\\s+gut\\s+sein\\b";
    assert BadEscapeFrom("\\blass\\s+gut\\s+sein\\b", 18).None?;
    assert BadEscapeFrom("\\blass\\s+gut\\s+sein\\b", 9).None?;
  }

  /** The longest topic-shift pattern, scanned six characters per lemma
      from the end: longer stretches exceed the solver's budget. */
  const MomentPattern := "\\bnicht\\s+der\\s+richtige\\s+Moment\\b"

  lemma MomentScanFrom30()
    ensures BadEscapeFrom(MomentPattern, 30).None?
  {
  }

  lemma MomentScanFrom24()
    ensures BadEscapeFrom(MomentPattern, 24).None?
  {
    MomentScanFrom30();
  }

  lemma MomentScanFrom18()
    ensures BadEscapeFrom(MomentPattern, 18).None?
  {
    MomentScanFrom24();
  }

  lemma MomentScanFrom12()
    ensures BadEscapeFrom(MomentPattern, 12).None?
  {
    MomentScanFrom18();
  }

  lemma MomentScanFrom6()
    ensures BadEscapeFrom(MomentPattern, 6).None?
  {
    MomentScanFrom12();
  }

  lemma MomentScanFrom0()
    ensures BadEscapeFrom(MomentPattern, 0).None?
  {
    MomentScanFrom6();
  }

  lemma ShiftEntry3Compiles()
    ensures BadEscapeFrom(ShiftLexicon[3], 0).None?
  {
    assert ShiftLexicon[3] == MomentPattern;
    MomentScanFrom0();
  }

  lemma MiniEntry0Compiles()
    ensures BadEscapeFrom(MiniLexicon[0], 0).None?
  {
    assert MiniLexicon[0] == "\\bkein\\s+Drama\\b";
    assert BadEscapeFrom("\\bkein\\s+Drama\\b", 9).None?;
  }

  lemma MiniEntry1Compiles()
    ensures BadEscapeFrom(MiniLexicon[1], 0).None?
  {
    assert MiniLexicon[1] == "\\bnicht\\s+so\\s+wichtig\\b";
    assert BadEscapeFrom("\\bnicht\\s+so\\s+wichtig\\b", 18).None?;
    assert BadEscapeFrom("\\bnicht\\s+so\\s+wichtig\\b", 9).None?;
  }

  lemma MiniEntry2Compiles()
    ensures BadEscapeFrom(MiniLexicon[2], 0).None?
  {
    assert MiniLexicon[2] == "\\bhalb\\s+so\\s+wild\\b";
    assert BadEscapeFrom("\\bhalb\\s+so\\s+wild\\b", 18).None?;
    assert BadEscapeFrom("\\bhalb\\s+so\\s+wild\\b", 9).None?;
  }

  lemma CorrectedDeferEntry0Compiles()
    ensures BadEscapeFrom(CorrectedDeferLexicon[0], 0).None?
  {
    assert CorrectedDeferLexicon[0] == "\\bspäter\\b";
  }

  lemma CorrectedDeferEntry1Compiles()
    ensures BadEscapeFrom(CorrectedDeferLexicon[1], 0).None?
  {
    assert CorrectedDeferLexicon[1] == "\\banderswann\\b";
    assert BadEscapeFrom("\\banderswann\\b", 9).None?;
  }

  lemma CorrectedDeferEntry2Compiles()
    ensures BadEscapeFrom(CorrectedDeferLexicon[2], 0).None?
  {
    assert CorrectedDeferLexicon[2] == "\\bnot\\s+now\\b";
    assert BadEscapeFrom("\\bnot\\s+now\\b", 9).None?;
  }

  /** Every topic-shift pattern compiles. */
  lemma ShiftLexiconCompiles()
    ensures CompileLexicon(ShiftLexicon).None?
  {
    ShiftEntry0Compiles(); ShiftEntry1Compiles(); ShiftEntry2Compiles(); ShiftEntry3Compiles();
  }

  /** Every minimisation pattern compiles. */
  lemma MiniLexiconCompiles()
    ensures CompileLexicon(MiniLexicon).None?
  {
    MiniEntry0Compiles(); MiniEntry1Compiles(); MiniEntry2Compiles();
  }

  /** The deferral lexicon as written stops at the escape `\m` of its
      second entry; its first entry compiles. */
  lemma DeferLexiconStops()
    ensures CompileLexicon(DeferLexicon) == Some('m')
  {
    var p0 := "\\bspäter\\b";
    var p1 := "\\manderswann\\b";
    assert BadEscapeFrom(p0, 0).None?;
    assert BadEscapeFrom(p1, 0) == Some('m');
    assert DeferLexicon[..1] == [p0] && DeferLexicon[1] == p1;
  }

  /** The lexicons as written: topic shift and minimisation compile, and
      deferral stops at the escape `\m` of its second entry. */
  lemma LexiconsAsWritten()
    ensures CompileLexicon(ShiftLexicon).None?
    ensures CompileLexicon(MiniLexicon).None?
    ensures CompileLexicon(DeferLexicon) == Some('m')
  {
    ShiftLexiconCompiles();
    MiniLexiconCompiles();
    DeferLexiconStops();
  }

  /** The corrected deferral lexicon compiles. */
  lemma CorrectedLexiconCompiles()
    ensures CompileLexicon(CorrectedDeferLexicon).None?
  {
    CorrectedDeferEntry0Compiles(); CorrectedDeferEntry1Compiles(); CorrectedDeferEntry2Compiles();
  }

  /** As written, `detect` raises on every input. */
  lemma AsWrittenAlwaysRaises(ms: seq<Match>, mm: seq<Match>, md: seq<Match>)
    ensures DetectWith(ShiftLexicon, MiniLexicon, DeferLexicon, ms, mm, md) == Err(BadEscape('m'))
  {
    LexiconsAsWritten();
  }

  /** With the word boundary restored, the only change to the lexicon,
      `detect` runs the tier logic on every input. */
  lemma CorrectedDetects(ms: seq<Match>, mm: seq<Match>, md: seq<Match>)
    ensures CorrectedDeferLexicon == DeferLexicon[1 := "\\banderswann\\b"]
    ensures DetectWith(ShiftLexicon, MiniLexicon, CorrectedDeferLexicon, ms, mm, md) == Ok(Detect(ms, mm, md))
  {
    LexiconsAsWritten();
    CorrectedLexiconCompiles();
  }
}

=== FILE: lie_concealment.dfy ===
/** SEM_LIE_CONCEALMENT: one weak hit per hedge/avoidance match, then a
    proximity pass that raises the score of every hit with another hit
    starting within 80 characters of its own start. */
module LieConcealment {
  import opened Basics
  import opened Detection

  const Label := "SEM_LIE_CONCEALMENT"
  const BaseScore := 40
  /** The proximity radius in characters. */
  const Radius := 80

  /** The first pass: one detection per match, in match order, at 0.4. */
  function InitialHits(ms: seq<Match>): (hs: seq<Detection>)
    ensures |hs| == |ms|
    ensures forall k :: 0 <= k < |ms| ==> hs[k].span.Some? && hs[k].span.value.start == ms[k].start
  {
    PerMatch(ms, Label, BaseScore)
  }

  /** The position the proximity pass reads for a hit: its span start, or 0
      for a hit without a span. */
  function StartOf(d: Detection): int
  {
    if d.span.Some? then d.span.value.start else 0
  }

  /** Hit `j` counts as a neighbour of hit `i`. */
  predicate Close(hs: seq<Detection>, i: nat, j: nat)
    requires i < |hs| && j < |hs|
  {
    i != j && hs[j].span.Some? && Abs(StartOf(hs[i]) - hs[j].span.value.start) <= Radius
  }

  /** `close` of the source after its inner loop has looked at hits `0..n`:
      at most one per hit looked at, and a hit never counts itself. */
  function CloseCount(hs: seq<Detection>, i: nat, n: nat): (r: nat)
    requires i < |hs| && n <= |hs|
    ensures r <= n && (i < n ==> r < n)
  {
    if n == 0 then 0 else CloseCount(hs, i, n - 1) + (if Close(hs, i, n - 1) then 1 else 0)
  }

  /** `close` stays zero exactly when none of the hits looked at is close. */
  lemma {:induction false} CloseCountZero(hs: seq<Detection>, i: nat, n: nat)
    requires i < |hs| && n <= |hs|
    ensures CloseCount(hs, i, n) == 0 <==> forall j :: 0 <= j < n ==> !Close(hs, i, j)
  {
    if n > 0 {
      CloseCountZero(hs, i, n - 1);
    }
  }

  /** `max(score, 0.7 + min(0.25, 0.05*close))` when `close >= 1`. */
  function BoostedScore(score: int, close: nat): int
  {
    if close >= 1 then Max(score, 70 + Min(25, 5 * close)) else score
  }

  /** The proximity pass as a pure map over the hits. */
  function Boost(hs: seq<Detection>): (r: seq<Detection>)
    ensures |r| == |hs|
    ensures forall i :: 0 <= i < |hs| ==>
      r[i].span == hs[i].span && r[i].marker == hs[i].marker && r[i].evidence == hs[i].evidence
  {
    seq(|hs|, i requires 0 <= i < |hs| => hs[i].(score := BoostedScore(hs[i].score, CloseCount(hs, i, |hs|))))
  }

  /** Hits with the same spans have the same neighbour counts. */
  lemma {:induction false} CloseCountSpans(hs: seq<Detection>, gs: seq<Detection>, i: nat, n: nat)
    requires |hs| == |gs| && i < |hs| && n <= |hs|
    requires forall k :: 0 <= k < |hs| ==> hs[k].span == gs[k].span
    ensures CloseCount(hs, i, n) == CloseCount(gs, i, n)
  {
    if n > 0 {
      CloseCountSpans(hs, gs, i, n - 1);
    }
  }

  /** The source's inner loop: the neighbours of hit `i` among all hits. */
  method CountClose(hs: seq<Detection>, i: nat) returns (close: nat)
    requires i < |hs|
    ensures close == CloseCount(hs, i, |hs|)
  {
    close := 0;
    var j := 0;
    while j < |hs|
      invariant 0 <= j <= |hs|
      invariant close == CloseCount(hs, i, j)
    {
      if i != j && hs[j].span.Some? && Abs(StartOf(hs[i]) - hs[j].span.value.start) <= Radius {
        close := close + 1;
      }
      j := j + 1;
    }
  }

  /** The source's nested loop, updating the hit list in place. The scores
      written so far never feed back into `close`, which reads spans only, so
      the in-place pass computes the same thing as the pure map `Boost`. */
  method BoostInPlace(hs: seq<Detection>) returns (out: seq<Detection>)
    ensures out == Boost(hs)
  {
    out := hs;
    var i := 0;
    while i < |hs|
      invariant 0 <= i <= |hs|
      invariant |out| == |hs|
      invariant forall k :: 0 <= k < i ==> out[k] == Boost(hs)[k]
      invariant forall k :: i <= k < |hs| ==> out[k] == hs[k]
    {
      var close := CountClose(out, i);
      CloseCountSpans(out, hs, i, |hs|);
      if close >= 1 {
        out := out[i := out[i].(score := Max(out[i].score, 70 + Min(25, 5 * close)))];
      }
      i := i + 1;
    }
    assert out == Boost(hs);
  }

  /** Matches `j != k` whose starts lie within the radius of match `k`'s,
      among the first `n`. */
  function NeighboursBelow(ms: seq<Match>, k: nat, n: nat): (r: nat)
    requires k < |ms| && n <= |ms|
    ensures r == |NearSet(ms, k, n)|
    ensures r <= n && (k < n ==> r < n)
  {
    if n == 0 then 0
    else
      var near := n - 1 != k && Abs(ms[k].start - ms[n - 1].start) <= Radius;
      assert NearSet(ms, k, n) == NearSet(ms, k, n - 1) + (if near then {n - 1} else {});
      NeighboursBelow(ms, k, n - 1) + (if near then 1 else 0)
  }

  /** The positions `j != k` below `n` whose match starts within the radius
      of match `k`'s start. */
  function NearSet(ms: seq<Match>, k: nat, n: nat): set<nat>
    requires k < |ms| && n <= |ms|
  {
    set j: nat | j < n && j != k && Abs(ms[k].start - ms[j].start) <= Radius
  }

  /** The number of other matches starting within 80 characters of match `k`. */
  function Neighbours(ms: seq<Match>, k: nat): (r: nat)
    requires k < |ms|
    ensures r == |NearSet(ms, k, |ms|)|
    ensures r < |ms|
  {
    NeighboursBelow(ms, k, |ms|)
  }

  /** A match has no neighbour exactly when every other match starts more
      than 80 characters away from it. */
  lemma AloneIff(ms: seq<Match>, k: nat)
    requires k < |ms|
    ensures Neighbours(ms, k) == 0 <==> forall j :: 0 <= j < |ms| && j != k ==> Abs(ms[k].start - ms[j].start) > Radius
  {
    if Neighbours(ms, k) == 0 {
      assert NearSet(ms, k, |ms|) == {};
      forall j | 0 <= j < |ms| && j != k
        ensures Abs(ms[k].start - ms[j].start) > Radius
      {
        assert j !in NearSet(ms, k, |ms|);
      }
    } else {
      var j :| j in NearSet(ms, k, |ms|);
    }
  }

  /** The score a hit ends with, given its neighbour count: 0.4 when alone,
      otherwise 0.7 plus 0.05 per neighbour, at most five of them. */
  function ProximityScore(neighbours: nat): int
  {
    if neighbours == 0 then BaseScore else 70 + 5 * Min(5, neighbours)
  }

  lemma {:induction false} CloseCountIsNeighbours(ms: seq<Match>, k: nat, n: nat)
    requires k < |ms| && n <= |ms|
    ensures CloseCount(InitialHits(ms), k, n) == NeighboursBelow(ms, k, n)
  {
    if n > 0 {
      CloseCountIsNeighbours(ms, k, n - 1);
    }
  }

  /** The detector: hits are exactly the matches, in order, with their spans
      and texts, and each score is determined by the match's neighbour count. */
  function Detect(ms: seq<Match>): (r: seq<Detection>)
    ensures |r| == |ms|
    ensures forall k :: 0 <= k < |ms| ==>
      r[k].span == SpanOf(ms[k]) && r[k].marker == Label && r[k].evidence == ms[k].text
    ensures forall k :: 0 <= k < |ms| ==> r[k].score == ProximityScore(Neighbours(ms, k))
  {
    var hs := InitialHits(ms);
    forall k | 0 <= k < |ms|
      ensures CloseCount(hs, k, |hs|) == Neighbours(ms, k)
    {
      CloseCountIsNeighbours(ms, k, |ms|);
    }
    Boost(hs)
  }

  /** Scores lie in {0.4} or [0.75, 0.95], hence in [0, 1], and never fall as
      the neighbour count grows. */
  lemma ProximityScoreRange(a: nat, b: nat)
    ensures ProximityScore(a) == BaseScore || 75 <= ProximityScore(a) <= 95
    ensures 0 <= ProximityScore(a) <= One
    ensures a <= b ==> ProximityScore(a) <= ProximityScore(b)
  {
  }

  /** A single match has no neighbour and keeps 0.4. */
  lemma SingleMatchKeepsBase(m: Match)
    ensures Detect([m]) == [Detection(SpanOf(m), Label, BaseScore, m.text)]
  {
    assert NeighboursBelow([m], 0, 0) == 0;
    assert Neighbours([m], 0) == 0;
  }

  /** A positive neighbour count has a witness among the first `n` matches. */
  lemma {:induction false} NeighbourWitness(ms: seq<Match>, k: nat, n: nat) returns (j: nat)
    requires k < |ms| && n <= |ms| && NeighboursBelow(ms, k, n) >= 1
    ensures j < n && j != k && Abs(ms[k].start - ms[j].start) <= Radius
  {
    if NeighboursBelow(ms, k, n - 1) >= 1 {
      j := NeighbourWitness(ms, k, n - 1);
    } else {
      j := n - 1;
    }
  }

  /** A witness makes the neighbour count positive. */
  lemma {:induction false} WitnessNeighbour(ms: seq<Match>, k: nat, j: nat, n: nat)
    requires k < |ms| && j < n <= |ms| && j != k && Abs(ms[k].start - ms[j].start) <= Radius
    ensures NeighboursBelow(ms, k, n) >= 1
  {
    if j < n - 1 {
      WitnessNeighbour(ms, k, j, n - 1);
    }
  }

  /** The indices of hits raised by the proximity pass. */
  function Boosted(ms: seq<Match>): set<nat>
  {
    set k: nat | k < |ms| && Neighbours(ms, k) >= 1
  }

  /** Closeness is symmetric, so a boosted hit always has a boosted partner:
      the number of boosted hits is 0 or at least 2. */
  lemma {:induction false} BoostedComeInPairs(ms: seq<Match>)
    ensures |Boosted(ms)| != 1
  {
    var b := Boosted(ms);
    if |b| > 0 {
      var k :| k in b;
      var j := NeighbourWitness(ms, k, |ms|);
      WitnessNeighbour(ms, j, k, |ms|);
      assert j in b;
      assert j in b - {k};
      assert |b - {k}| >= 1;
    }
  }

  /** Every score the detector emits lies in [0, 1]. */
  lemma {:induction false} DetectScoresInRange(ms: seq<Match>)
    ensures forall k :: 0 <= k < |ms| ==> 0 <= Detect(ms)[k].score <= One
  {
    forall k | 0 <= k < |ms|
      ensures 0 <= Detect(ms)[k].score <= One
    {
      ProximityScoreRange(Neighbours(ms, k), Neighbours(ms, k));
    }
  }
}

=== FILE: marker_ids.dfy ===
/** Marker-id prefix logic: the four level prefixes `ATO_`, `SEM_`, `CLU_`,
    `MEMA_` and their categories, validation, and migration of legacy
    two-letter prefixes. */
module MarkerIds {
  import opened Basics

  /** The source's exceptions: `ValueError` for an id without a level
      prefix, `KeyError` for a legacy key missing from the migration table. */
  datatype IdError = MissingPrefix(id: string) | KeyError(key: string)

  /** The level prefixes with their categories, in declaration order. */
  const Levels: seq<(string, string)> :=
    [("ATO_", "atomic"), ("SEM_", "semantic"), ("CLU_", "cluster"), ("MEMA_", "meta")]

  const Uncategorized := "uncategorized"

  /** The first two characters a prefix fixes; they tell all eight prefixes
      of this module apart except where one extends another. */
  lemma PrefixChars(id: string)
    ensures "ATO_" <= id ==> |id| >= 4 && id[0] == 'A' && id[1] == 'T'
    ensures "SEM_" <= id ==> |id| >= 4 && id[0] == 'S' && id[1] == 'E'
    ensures "CLU_" <= id ==> |id| >= 4 && id[0] == 'C' && id[1] == 'L'
    ensures "MEMA_" <= id ==> |id| >= 5 && id[0] == 'M' && id[1] == 'E'
    ensures "A_" <= id ==> |id| >= 2 && id[0] == 'A' && id[1] == '_'
    ensures "S_" <= id ==> |id| >= 2 && id[0] == 'S' && id[1] == '_'
    ensures "C_" <= id ==> |id| >= 2 && id[0] == 'C' && id[1] == '_'
    ensures "MM_" <= id ==> |id| >= 3 && id[0] == 'M' && id[1] == 'M'
  {
  }

  predicate HasLevelPrefix(id: string)
  {
    exists k :: 0 <= k < |Levels| && Levels[k].0 <= id
  }

  /** `validate_marker_id`: the id itself when it is non-empty and carries a
      level prefix, a `ValueError` otherwise. */
  function ValidateMarkerId(id: string): (r: Result<string, IdError>)
    ensures r.Ok? <==> |id| > 0 && ("ATO_" <= id || "SEM_" <= id || "CLU_" <= id || "MEMA_" <= id)
    ensures r.Ok? ==> r.value == id
    ensures r.Err? ==> r.error == MissingPrefix(id)
  {
    assert Levels[0].0 == "ATO_" && Levels[1].0 == "SEM_" && Levels[2].0 == "CLU_" && Levels[3].0 == "MEMA_";
    if |id| == 0 || !HasLevelPrefix(id) then Err(MissingPrefix(id)) else Ok(id)
  }

  /** The category of the first level prefix of `id`, scanning from `k` on. */
  function CategoryFrom(id: string, k: nat): string
    requires k <= |Levels|
    decreases |Levels| - k
  {
    if k == |Levels| then Uncategorized
    else if Levels[k].0 <= id then Levels[k].1
    else CategoryFrom(id, k + 1)
  }

  /** `parse_category_from_id`. */
  function ParseCategory(id: string): (r: string)
    ensures "ATO_" <= id ==> r == "atomic"
    ensures "SEM_" <= id ==> r == "semantic"
    ensures "CLU_" <= id ==> r == "cluster"
    ensures "MEMA_" <= id ==> r == "meta"
    ensures r == Uncategorized <==> !("ATO_" <= id || "SEM_" <= id || "CLU_" <= id || "MEMA_" <= id)
  {
    PrefixChars(id);
    assert CategoryFrom(id, 3) == if "MEMA_" <= id then "meta" else Uncategorized;
    CategoryFrom(id, 0)
  }

  /** The level prefixes are pairwise disjoint: an id carries at most one. */
  lemma PrefixesDisjoint(id: string, a: nat, b: nat)
    requires a < |Levels| && b < |Levels| && a != b
    ensures !(Levels[a].0 <= id && Levels[b].0 <= id)
  {
    PrefixChars(id);
  }

  /** Validation succeeds exactly on the ids that have a category. */
  lemma ValidIffCategorized(id: string)
    ensures ValidateMarkerId(id).Ok? <==> ParseCategory(id) != Uncategorized
  {
  }

  /** The migration table, keyed by two-letter prefixes plus `MM_`. */
  const LegacyTable: map<string, string> := map["A_" := "ATO_", "S_" := "SEM_", "C_" := "CLU_", "MM_" := "MEMA_"]

  predicate HasLegacyPrefix(id: string)
  {
    "A_" <= id || "S_" <= id || "C_" <= id || "MM_" <= id
  }

  /** `migrate_marker_id`: a legacy id is looked up by its first two
      characters. That key is `"MM"` for an `MM_` id, which the table lacks,
      so those ids raise `KeyError`. */
  function MigrateMarkerId(oldId: string): (r: Result<string, IdError>)
    ensures "A_" <= oldId ==> r == Ok("ATO_" + oldId[2..])
    ensures "S_" <= oldId ==> r == Ok("SEM_" + oldId[2..])
    ensures "C_" <= oldId ==> r == Ok("CLU_" + oldId[2..])
    ensures "MM_" <= oldId ==> r == Err(KeyError("MM"))
    ensures !HasLegacyPrefix(oldId) ==> r == Ok(oldId)
  {
    PrefixChars(oldId);
    if HasLegacyPrefix(oldId) then
      var key := oldId[..2];
      assert "A_" <= oldId ==> key == "A_";
      assert "S_" <= oldId ==> key == "S_";
      assert "C_" <= oldId ==> key == "C_";
      assert "MM_" <= oldId ==> key == "MM" && key !in LegacyTable;
      if key in LegacyTable then Ok(LegacyTable[key] + oldId[2..]) else Err(KeyError(key))
    else Ok(oldId)
  }

  /** Migration is idempotent wherever it succeeds. */
  lemma MigrateIdempotent(oldId: string)
    requires MigrateMarkerId(oldId).Ok?
    ensures MigrateMarkerId(MigrateMarkerId(oldId).value) == MigrateMarkerId(oldId)
  {
    var r := MigrateMarkerId(oldId).value;
    PrefixChars(oldId);
    PrefixChars(r);
    if HasLegacyPrefix(oldId) {
      assert r[1] in {'T', 'E', 'L'};
    }
  }

  /** Every migrated `A_`, `S_` or `C_` id passes validation. */
  lemma MigratedIdsValidate(oldId: string)
    requires "A_" <= oldId || "S_" <= oldId || "C_" <= oldId
    ensures MigrateMarkerId(oldId).Ok? && ValidateMarkerId(MigrateMarkerId(oldId).value).Ok?
  {
    var r := MigrateMarkerId(oldId).value;
    assert "ATO_" <= r || "SEM_" <= r || "CLU_" <= r;
  }

  /** The `MM_` → `MEMA_` entry of the table is unreachable: migration never
      produces a `MEMA_` id it was not given. */
  lemma MemaNeverProduced(oldId: string)
    requires MigrateMarkerId(oldId).Ok? && "MEMA_" <= MigrateMarkerId(oldId).value
    ensures MigrateMarkerId(oldId).value == oldId
  {
    var r := MigrateMarkerId(oldId).value;
    PrefixChars(oldId);
    PrefixChars(r);
  }
}

=== FILE: message_incongruence.dfy ===
/** CLU_SVT_MESSAGE_INCONGRUENCE: a conjunctive gate. A "rarely" claim
    together with at least two ritual matches gives one strong span-less hit;
    anything less gives nothing. */
module MessageIncongruence {
  import opened Basics
  import opened Detection

  const Label := "CLU_SVT_MESSAGE_INCONGRUENCE"
  const Score := 90
  const Evidence := "claim+>=2 ritual signals"

  function Detect(hasClaim: bool, ritual: seq<Match>): (r: seq<Detection>)
    ensures |r| <= 1
    ensures |r| == 1 <==> hasClaim && |ritual| >= 2
    ensures |r| == 1 ==> r[0] == Detection(None, Label, Score, Evidence)
  {
    if hasClaim && |ritual| >= 2 then [Mk(None, Label, Score, Evidence)] else []
  }

  /** A claim with a single ritual match, or rituals without a claim, yield nothing. */
  lemma PartialEvidenceIsSilent(ritual: seq<Match>, m: Match)
    ensures Detect(true, [m]) == []
    ensures Detect(false, ritual) == []
  {
  }
}

=== FILE: mirroring_request.dfy ===
/** SEM_MIRRORING_REQUEST: one hit per request match, all sharing one score
    that grows with the number of matches. */
module MirroringRequest {
  import opened Basics
  import opened Detection

  const Label := "SEM_MIRRORING_REQUEST"

  /** The shared score: `min(0.9, 0.4 + 0.15*min(4, n))` for several matches;
      a single match scores 0.5 and the computed 0.55 is discarded. */
  function SharedScore(n: nat): (r: int)
    ensures 50 <= r <= 90
    ensures n > 1 ==> r >= 70
  {
    if n > 1 then Min(90, 40 + 15 * Min(4, n)) else 50
  }

  function Detect(ms: seq<Match>): (r: seq<Detection>)
    ensures |r| == |ms|
    ensures forall k :: 0 <= k < |ms| ==>
      r[k] == Detection(SpanOf(ms[k]), Label, SharedScore(|ms|), ms[k].text)
  {
    PerMatch(ms, Label, SharedScore(|ms|))
  }

  /** 1 → 0.50, 2 → 0.70, 3 → 0.85, four or more → 0.90; always within
      [0.5, 0.9] and never falling as matches are added. */
  lemma SharedScoreTable(n: nat, m: nat)
    ensures n == 1 ==> SharedScore(n) == 50
    ensures n == 2 ==> SharedScore(n) == 70
    ensures n == 3 ==> SharedScore(n) == 85
    ensures n >= 4 ==> SharedScore(n) == 90
    ensures 50 <= SharedScore(n) <= 90
    ensures 1 <= n <= m ==> SharedScore(n) <= SharedScore(m)
  {
  }

  /** All hits of one call carry the same score. */
  lemma OneSharedScore(ms: seq<Match>, a: nat, b: nat)
    requires a < |ms| && b < |ms|
    ensures Detect(ms)[a].score == Detect(ms)[b].score
  {
  }
}

=== FILE: required_fields.dfy ===
/** `check_required_fields`: which mandatory fields a marker record lacks.
    A record is a map from field name to a Python value; only the shapes the
    check distinguishes are modelled. */
module RequiredFields {
  import opened Basics

  /** A Python value as far as truthiness, `isinstance(_, list)` and the
      `in` operator can tell. */
  datatype Value =
    | PNone
    | PBool(b: bool)
    | PInt(i: int)
    | PStr(s: string)
    | PList(items: seq<Value>)
    | PDict(keys: set<string>)

  type Record = map<string, Value>

  /** `data.get(name)`. */
  function Get(d: Record, name: string): Value
  {
    if name in d then d[name] else PNone
  }

  /** Python truthiness. */
  predicate Truthy(v: Value)
  {
    match v
    case PNone => false
    case PBool(b) => b
    case PInt(i) => i != 0
    case PStr(s) => |s| > 0
    case PList(items) => |items| > 0
    case PDict(keys) => |keys| > 0
  }

  /** Values on which `key in v` does not raise `TypeError`. */
  predicate Iterable(v: Value)
  {
    v.PStr? || v.PList? || v.PDict?
  }

  predicate IsSubstring(k: string, s: string)
  {
    k <= s || (|s| > 0 && IsSubstring(k, s[1..]))
  }

  /** `key in v`: a key test on a dict, membership on a list, a substring test
      on a string; `TypeError` on anything else. */
  function Contains(v: Value, key: string): Result<bool, ()>
  {
    match v
    case PDict(keys) => Ok(key in keys)
    case PList(items) => Ok(PStr(key) in items)
    case PStr(s) => Ok(IsSubstring(key, s))
    case _ => Err(())
  }

  const FrameKeys: seq<string> := ["signal", "concept", "pragmatics", "narrative"]

  /** An entry of the missing list. */
  datatype Field = FId | FFrame | FFrameKey(key: string) | FExamples | FSource

  /** `ValueError` listing the missing fields, or the `TypeError` of testing
      a key against a frame that is not a container. */
  datatype FieldError = Missing(fields: seq<Field>) | NotIterable

  predicate IsNonEmptyList(v: Value)
  {
    v.PList? && |v.items| >= 1
  }

  /** At least one of pattern, composed_of, detect_class is truthy. */
  predicate HasSource(d: Record)
  {
    Truthy(Get(d, "pattern")) || Truthy(Get(d, "composed_of")) || Truthy(Get(d, "detect_class"))
  }

  /** When a field counts as missing. */
  predicate Absent(d: Record, f: Field)
  {
    match f
    case FId => !Truthy(Get(d, "id"))
    case FFrame => !Truthy(Get(d, "frame"))
    case FFrameKey(k) => Truthy(Get(d, "frame")) && Contains(Get(d, "frame"), k) == Ok(false)
    case FExamples => !IsNonEmptyList(Get(d, "examples"))
    case FSource => !HasSource(d)
  }

  /** The fields of `fs` that are absent from `d`, in the order of `fs`. */
  function AbsentAmong(d: Record, fs: seq<Field>): (r: seq<Field>)
    ensures |r| <= |fs|
    ensures forall f :: f in r <==> f in fs && Absent(d, f)
  {
    if |fs| == 0 then [] else (if Absent(d, fs[0]) then [fs[0]] else []) + AbsentAmong(d, fs[1..])
  }

  lemma {:induction false} AbsentAmongAppend(d: Record, a: seq<Field>, b: seq<Field>)
    ensures AbsentAmong(d, a + b) == AbsentAmong(d, a) + AbsentAmong(d, b)
  {
    if |a| == 0 {
      assert a + b == b;
    } else {
      assert (a + b)[1..] == a[1..] + b;
      AbsentAmongAppend(d, a[1..], b);
    }
  }

  function FrameFields(keys: seq<string>): (fs: seq<Field>)
    ensures |fs| == |keys|
    ensures forall k :: 0 <= k < |keys| ==> fs[k] == FFrameKey(keys[k])
  {
    seq(|keys|, k requires 0 <= k < |keys| => FFrameKey(keys[k]))
  }

  /** Every field the check can report for the frame keys `keys`, in the
      order it reports them. */
  function CanonicalWith(keys: seq<string>): seq<Field>
  {
    [FId, FFrame] + FrameFields(keys) + [FExamples, FSource]
  }

  const Canonical: seq<Field> := CanonicalWith(FrameKeys)

  /** The inner loop over the required frame keys, in order. */
  function FrameMissing(frame: Value, keys: seq<string>): Result<seq<Field>, FieldError>
  {
    if |keys| == 0 then Ok([])
    else match Contains(frame, keys[0])
      case Err(_) => Err(NotIterable)
      case Ok(present) =>
        match FrameMissing(frame, keys[1..])
        case Err(e) => Err(e)
        case Ok(rest) => Ok((if present then [] else [FFrameKey(keys[0])]) + rest)
  }

  /** The missing list the source builds, or the error raised while building
      it: `TypeError` exactly when the frame is truthy but not a container,
      and otherwise the canonical field list filtered down to the absent
      fields, so membership and order both follow. */
  function MissingFields(d: Record): (r: Result<seq<Field>, FieldError>)
    ensures r.Err? <==> Truthy(Get(d, "frame")) && !Iterable(Get(d, "frame"))
    ensures r.Err? ==> r.error == NotIterable
    ensures r.Ok? ==> r.value == AbsentAmong(d, Canonical)
  {
    var frame := Get(d, "frame");
    if Truthy(frame) && !Iterable(frame) then
      FrameMissingRaises(frame, FrameKeys);
      MissingFieldsWith(d, FrameKeys)
    else
      MissingWithIsAbsent(d, FrameKeys);
      MissingFieldsWith(d, FrameKeys)
  }

  function MissingFieldsWith(d: Record, keys: seq<string>): Result<seq<Field>, FieldError>
  {
    var frame := Get(d, "frame");
    var idPart := if !Truthy(Get(d, "id")) then [FId] else [];
    var framePart := if !Truthy(frame) then Ok([FFrame]) else FrameMissing(frame, keys);
    match framePart
    case Err(e) => Err(e)
    case Ok(fp) =>
      var examplesPart := if !IsNonEmptyList(Get(d, "examples")) then [FExamples] else [];
      var sourcePart := if !HasSource(d) then [FSource] else [];
      Ok(idPart + fp + examplesPart + sourcePart)
  }

  lemma AbsentAmongSingle(d: Record, f: Field)
    ensures AbsentAmong(d, [f]) == if Absent(d, f) then [f] else []
  {
    assert [f][1..] == [];
  }

  /** Over a container frame, the inner loop keeps the absent keys in order. */
  lemma {:induction false} FrameMissingIsAbsentKeys(d: Record, keys: seq<string>)
    requires Truthy(Get(d, "frame")) && Iterable(Get(d, "frame"))
    ensures FrameMissing(Get(d, "frame"), keys) == Ok(AbsentAmong(d, FrameFields(keys)))
  {
    if |keys| > 0 {
      FrameMissingIsAbsentKeys(d, keys[1..]);
      assert FrameFields(keys)[1..] == FrameFields(keys[1..]);
    }
  }

  /** A frame that is not a container makes every key test raise. */
  lemma FrameMissingRaises(frame: Value, keys: seq<string>)
    requires !Iterable(frame) && |keys| > 0
    ensures FrameMissing(frame, keys) == Err(NotIterable)
  {
  }

  /** With no frame, no frame key is reported. */
  lemma {:induction false} NoFrameNoKeys(d: Record, keys: seq<string>)
    requires !Truthy(Get(d, "frame"))
    ensures AbsentAmong(d, FrameFields(keys)) == []
  {
    if |keys| > 0 {
      NoFrameNoKeys(d, keys[1..]);
      assert FrameFields(keys)[1..] == FrameFields(keys[1..]);
    }
  }

  /** The source's list once the frame part `fp` is known. */
  lemma MissingFieldsWithValue(d: Record, keys: seq<string>, fp: seq<Field>)
    requires (if !Truthy(Get(d, "frame")) then Ok([FFrame]) else FrameMissing(Get(d, "frame"), keys)) == Ok(fp)
    ensures MissingFieldsWith(d, keys) ==
      Ok(AbsentAmong(d, [FId]) + fp + AbsentAmong(d, [FExamples]) + AbsentAmong(d, [FSource]))
  {
    AbsentAmongSingle(d, FId);
    AbsentAmongSingle(d, FExamples);
    AbsentAmongSingle(d, FSource);
  }

  /** The canonical filter split into its four runs. */
  lemma CanonicalRuns(d: Record, keys: seq<string>)
    ensures AbsentAmong(d, CanonicalWith(keys)) ==
      AbsentAmong(d, [FId]) + (AbsentAmong(d, [FFrame]) + AbsentAmong(d, FrameFields(keys)))
        + AbsentAmong(d, [FExamples]) + AbsentAmong(d, [FSource])
  {
    var ff := FrameFields(keys);
    assert CanonicalWith(keys) == (([FId] + ([FFrame] + ff)) + [FExamples]) + [FSource];
    AbsentAmongAppend(d, ([FId] + ([FFrame] + ff)) + [FExamples], [FSource]);
    AbsentAmongAppend(d, [FId] + ([FFrame] + ff), [FExamples]);
    AbsentAmongAppend(d, [FId], [FFrame] + ff);
    AbsentAmongAppend(d, [FFrame], ff);
  }

  /** The frame part of the source's list is the canonical filter of the
      frame run. */
  lemma FramePart(d: Record, keys: seq<string>)
    requires !(Truthy(Get(d, "frame")) && !Iterable(Get(d, "frame")))
    ensures (if !Truthy(Get(d, "frame")) then Ok([FFrame]) else FrameMissing(Get(d, "frame"), keys))
      == Ok(AbsentAmong(d, [FFrame]) + AbsentAmong(d, FrameFields(keys)))
  {
    AbsentAmongSingle(d, FFrame);
    if Truthy(Get(d, "frame")) {
      FrameMissingIsAbsentKeys(d, keys);
      assert [] + AbsentAmong(d, FrameFields(keys)) == AbsentAmong(d, FrameFields(keys));
    } else {
      NoFrameNoKeys(d, keys);
      assert [FFrame] + [] == [FFrame];
    }
  }

  lemma MissingWithIsAbsent(d: Record, keys: seq<string>)
    requires !(Truthy(Get(d, "frame")) && !Iterable(Get(d, "frame")))
    ensures MissingFieldsWith(d, keys) == Ok(AbsentAmong(d, CanonicalWith(keys)))
  {
    FramePart(d, keys);
    MissingFieldsWithValue(d, keys, AbsentAmong(d, [FFrame]) + AbsentAmong(d, FrameFields(keys)));
    CanonicalRuns(d, keys);
  }

  /** The members of the canonical list by position. */
  lemma CanonicalIndices()
    ensures |Canonical| == 8
    ensures Canonical[0] == FId && Canonical[1] == FFrame
    ensures Canonical[6] == FExamples && Canonical[7] == FSource
    ensures forall k :: 0 <= k < 4 ==> Canonical[2 + k] == FFrameKey(FrameKeys[k])
  {
  }

  /** An empty missing list means a complete record. */
  lemma NothingMissingIsComplete(d: Record)
    requires !(Truthy(Get(d, "frame")) && !Iterable(Get(d, "frame")))
    requires |AbsentAmong(d, Canonical)| == 0
    ensures Complete(d)
  {
    CanonicalIndices();
    assert !Absent(d, Canonical[0]) && !Absent(d, Canonical[1]);
    assert !Absent(d, Canonical[6]) && !Absent(d, Canonical[7]);
    forall k | 0 <= k < |FrameKeys|
      ensures Contains(Get(d, "frame"), FrameKeys[k]) == Ok(true)
    {
      assert !Absent(d, Canonical[2 + k]);
    }
  }

  /** A non-empty missing list means an incomplete record. */
  lemma SomethingMissingIsIncomplete(d: Record)
    requires |AbsentAmong(d, Canonical)| > 0
    ensures !Complete(d)
  {
    var f := AbsentAmong(d, Canonical)[0];
    assert f in AbsentAmong(d, Canonical);
    var k :| 0 <= k < |Canonical| && Canonical[k] == f;
    CanonicalIndices();
    if 2 <= k < 6 {
      assert f == FFrameKey(FrameKeys[k - 2]);
    }
  }

  /** Everything the check asks for is present. */
  predicate Complete(d: Record)
  {
    var frame := Get(d, "frame");
    && Truthy(Get(d, "id"))
    && Truthy(frame)
    && (forall k :: 0 <= k < |FrameKeys| ==> Contains(frame, FrameKeys[k]) == Ok(true))
    && IsNonEmptyList(Get(d, "examples"))
    && HasSource(d)
  }

  /** `check_required_fields`: passes on a complete record, raises `ValueError`
      with the canonical-order list of absent fields otherwise, and raises
      `TypeError` when the frame is truthy but not a container. */
  function CheckRequiredFields(d: Record): (r: Result<(), FieldError>)
    ensures r.Ok? <==> Complete(d)
    ensures r == Err(NotIterable) <==> Truthy(Get(d, "frame")) && !Iterable(Get(d, "frame"))
    ensures r.Err? && r.error.Missing? ==>
      r.error.fields == AbsentAmong(d, Canonical) && |r.error.fields| > 0
  {
    match MissingFields(d)
    case Err(e) => Err(e)
    case Ok(missing) =>
      if |missing| > 0 then
        SomethingMissingIsIncomplete(d);
        Err(Missing(missing))
      else
        NothingMissingIsComplete(d);
        Ok(())
  }
}

=== FILE: scenarios.dfy ===
/** The two transcripts the repository's own tests feed to the absence
    detector, and what the model emits for them. The message texts enter
    through their `str.split()` lengths, which is all the detector reads of
    them; the tests' texts themselves are given word by word. */
module AbsenceScenarios {
  import opened Basics
  import opened Text
  import opened Windows
  import opened TagIndex
  import opened AbsenceConfig
  import opened AbsenceMeta

  /** Messages `i = 0, 1, …` with the given speakers and texts. */
  function Transcript(speakers: seq<string>, texts: seq<string>): (r: seq<Message>)
    requires |speakers| == |texts|
    ensures |r| == |texts|
    ensures forall k :: 0 <= k < |r| ==> r[k] == Message(speakers[k], texts[k])
  {
    seq(|texts|, k requires 0 <= k < |texts| => Message(speakers[k], texts[k]))
  }

  /** Each word list joined with blanks. */
  function Texts(ws: seq<seq<string>>): (r: seq<string>)
    ensures |r| == |ws|
    ensures forall k :: 0 <= k < |ws| ==> r[k] == JoinWords(ws[k])
  {
    seq(|ws|, k requires 0 <= k < |ws| => JoinWords(ws[k]))
  }

  /** Joined word lists split back into as many tokens as they have words. */
  lemma TextsCounts(ws: seq<seq<string>>, counts: seq<nat>)
    requires |ws| == |counts|
    requires forall k :: 0 <= k < |ws| ==> AllWords(ws[k]) && |ws[k]| == counts[k]
    ensures forall k :: 0 <= k < |ws| ==> TokenCount(Texts(ws)[k]) == counts[k]
  {
    forall k | 0 <= k < |ws|
      ensures TokenCount(Texts(ws)[k]) == counts[k]
    {
      TokenCountOfWords(ws[k]);
    }
  }

  function Sum(xs: seq<nat>): nat
  {
    if |xs| == 0 then 0 else xs[0] + Sum(xs[1..])
  }

  function Occurrences(xs: seq<string>, s: string): nat
  {
    if |xs| == 0 then 0 else (if xs[0] == s then 1 else 0) + Occurrences(xs[1..], s)
  }

  /** The token estimate of a transcript is the sum of its messages'
      word counts. */
  lemma {:induction false} TranscriptTokens(speakers: seq<string>, texts: seq<string>, counts: seq<nat>)
    requires |speakers| == |texts| == |counts|
    requires forall k :: 0 <= k < |texts| ==> TokenCount(texts[k]) == counts[k]
    ensures TokenEstimate(Transcript(speakers, texts)) == Sum(counts)
  {
    if |texts| > 0 {
      var t := Transcript(speakers, texts);
      assert t == [t[0]] + Transcript(speakers[1..], texts[1..]);
      TokenEstimateAppend([t[0]], Transcript(speakers[1..], texts[1..]));
      TranscriptTokens(speakers[1..], texts[1..], counts[1..]);
    }
  }

  /** A speaker's participation in a transcript is how often they speak. */
  lemma {:induction false} TranscriptParticipation(speakers: seq<string>, texts: seq<string>, s: string)
    requires |speakers| == |texts|
    ensures Participation(Transcript(speakers, texts), s) == Occurrences(speakers, s)
  {
    if |texts| > 0 {
      var t := Transcript(speakers, texts);
      assert t == [t[0]] + Transcript(speakers[1..], texts[1..]);
      ParticipationAppend([t[0]], Transcript(speakers[1..], texts[1..]), s);
      TranscriptParticipation(speakers[1..], texts[1..], s);
    }
  }

  /** A marker listed under none of an entry's tags, and not among its ids,
      is outside the resolved set. */
  lemma ResolvedAvoids(e: AbsenceEntry, rs: seq<MarkerRecord>, m: string)
    requires m !in e.ids
    requires forall k :: 0 <= k < |e.tags| ==> !Tagged(rs, m, e.tags[k])
    ensures m !in ResolveSet(e, Build(rs).tagToIds)
  {
    TagIndexMembership(rs);
  }

  const RealisticSpeakers: seq<string> := ["A", "B", "A", "B", "A", "B", "A", "B", "A", "B", "A", "B"]
  const RealisticCounts: seq<nat> := [6, 6, 7, 8, 5, 6, 8, 7, 6, 9, 7, 10]

  lemma RealisticSums()
    ensures Sum(RealisticCounts) == 85
    ensures Occurrences(RealisticSpeakers, "A") == 6
  {
  }

  const RealisticHits: seq<Hit> := [
    Hit(0, "A", "SEM_ACCUSATION_DIRECT"),
    Hit(2, "A", "ATO_TRUST_DEFICIT_STATEMENT"),
    Hit(4, "A", "SEM_CONTROL_ACCUSATION"),
    Hit(8, "A", "SEM_ACCUSATION_DIRECT")]

  const RealisticSets: seq<(string, AbsenceEntry)> := [
    ("derogation", AbsenceEntry([], ["derogation", "contempt", "insult"])),
    ("profanity", AbsenceEntry([], ["profanity"])),
    ("threat", AbsenceEntry([], ["threat", "intimidation"])),
    ("ultimatum", AbsenceEntry([], ["ultimatum"])),
    ("character_attack", AbsenceEntry([], ["character_attack"]))]

  /** The test's configuration: `min_tokens` lowered to 50, no `meta`
      section, so `min_participation` stays 2. */
  const RealisticRaw: RawConfig := RawConfig(
    Some(30), Some(3), Some(true), Some(1), Some(50), RealisticSets, Some(true), NotFound, NotFound)

  const RealisticRegistry: seq<MarkerRecord> := [
    MarkerRecord(Some("SEM_ACCUSATION_DIRECT"), ["accusation", "conflict"]),
    MarkerRecord(Some("ATO_TRUST_DEFICIT_STATEMENT"), ["distrust", "conflict"]),
    MarkerRecord(Some("SEM_CONTROL_ACCUSATION"), ["accusation", "control"]),
    MarkerRecord(Some("HARSH_INSULT"), ["insult", "derogation", "contempt"]),
    MarkerRecord(Some("PROFANITY_MARKER"), ["profanity"]),
    MarkerRecord(Some("DIRECT_THREAT"), ["threat", "intimidation"]),
    MarkerRecord(Some("ULTIMATUM_MARKER"), ["ultimatum"]),
    MarkerRecord(Some("CHARACTER_ASSASSINATION"), ["character_attack"])]

  const RealisticESet: set<string> := {
    "SEM_ACCUSATION_DIRECT", "ATO_TRUST_DEFICIT_STATEMENT", "SEM_CONTROL_ACCUSATION",
    "HARSH_INSULT", "PROFANITY_MARKER", "DIRECT_THREAT", "ULTIMATUM_MARKER", "CHARACTER_ASSASSINATION"}

  /** The hit markers carry only conflict tags, none of the absence tags. */
  lemma RealisticUntagged(m: string, t: string)
    requires m in {"SEM_ACCUSATION_DIRECT", "ATO_TRUST_DEFICIT_STATEMENT", "SEM_CONTROL_ACCUSATION"}
    requires t in {"derogation", "contempt", "insult", "profanity", "threat", "intimidation", "ultimatum", "character_attack"}
    ensures !Tagged(RealisticRegistry, m, t)
  {
  }

  /** No marker of the test's hits is in any resolved absence set. */
  lemma RealisticSetsClear(k: nat, j: nat)
    requires k < |RealisticSets| && j < |RealisticHits|
    ensures RealisticHits[j].marker !in ResolveSet(RealisticSets[k].1, Build(RealisticRegistry).tagToIds)
  {
    var e := RealisticSets[k].1;
    var m := RealisticHits[j].marker;
    forall i | 0 <= i < |e.tags|
      ensures !Tagged(RealisticRegistry, m, e.tags[i])
    {
      RealisticUntagged(m, e.tags[i]);
    }
    ResolvedAvoids(e, RealisticRegistry, m);
  }

  /** What the detector emits for the test: the context hit, one
      window-wide hit per absence set, and the same per set for speaker A,
      who has hits and six messages; B has no hit and so no per-speaker
      hit. All sit on the last message. */
  const RealisticSynthetic: seq<Hit> := [Hit(11, WindowSpeaker, ContextMarker)] + RealisticWindowWide + RealisticSpeakerA

  const RealisticWindowWide: seq<Hit> := [
    Hit(11, BothSpeaker, BothPrefix + "DEROGATION" + MarkerSuffix),
    Hit(11, BothSpeaker, BothPrefix + "PROFANITY" + MarkerSuffix),
    Hit(11, BothSpeaker, BothPrefix + "THREAT" + MarkerSuffix),
    Hit(11, BothSpeaker, BothPrefix + "ULTIMATUM" + MarkerSuffix),
    Hit(11, BothSpeaker, BothPrefix + "CHARACTER_ATTACK" + MarkerSuffix)]

  const RealisticSpeakerA: seq<Hit> := [
    Hit(11, "A", SpeakerPrefix + "DEROGATION" + MarkerSuffix),
    Hit(11, "A", SpeakerPrefix + "PROFANITY" + MarkerSuffix),
    Hit(11, "A", SpeakerPrefix + "THREAT" + MarkerSuffix),
    Hit(11, "A", SpeakerPrefix + "ULTIMATUM" + MarkerSuffix),
    Hit(11, "A", SpeakerPrefix + "CHARACTER_ATTACK" + MarkerSuffix)]

  /** The absence set names in upper case. */
  lemma RealisticUpper(k: nat)
    requires k < 5
    ensures Upper(RealisticSets[k].0) == ["DEROGATION", "PROFANITY", "THREAT", "ULTIMATUM", "CHARACTER_ATTACK"][k]
  {
    var names := ["derogation", "profanity", "threat", "ultimatum", "character_attack"];
    assert RealisticSets[k].0 == names[k];
  }

  /** The window-wide hits, one per absence set. */
  lemma RealisticBothNames(k: nat)
    requires k < 5
    ensures Hit(11, BothSpeaker, BothMarker(RealisticSets[k].0)) == RealisticWindowWide[k]
  {
    RealisticUpper(k);
  }

  /** A's per-speaker hits, one per absence set. */
  lemma RealisticSpkrNames(k: nat)
    requires k < 5
    ensures Hit(11, "A", SpeakerMarker(RealisticSets[k].0)) == RealisticSpeakerA[k]
  {
    RealisticUpper(k);
  }

  /** The test's single window, with every hit in it. */
  lemma RealisticWindows(texts: seq<string>)
    requires |texts| == 12
    ensures WindowsFrom(Transcript(RealisticSpeakers, texts), RealisticHits, 30, 0)
      == [Window(0, 12, Transcript(RealisticSpeakers, texts), RealisticHits)]
  {
    var msgs := Transcript(RealisticSpeakers, texts);
    OneWindow(msgs, RealisticHits, 30);
    HitsInAll(RealisticHits, 0, 12);
  }

  /** The window passes both gates: four escalation hits and 85 tokens. */
  lemma RealisticGated(texts: seq<string>, cfg: Config, sets: seq<(string, set<string>)>)
    requires |texts| == 12
    requires forall k :: 0 <= k < 12 ==> TokenCount(texts[k]) == RealisticCounts[k]
    requires cfg == Resolve(RealisticRaw)
    ensures Gated(cfg, RealisticESet, Window(0, 12, Transcript(RealisticSpeakers, texts), RealisticHits))
  {
    CountInAll(RealisticHits, RealisticESet);
    TranscriptTokens(RealisticSpeakers, texts, RealisticCounts);
    RealisticSums();
  }

  /** Every absence set passes, over all hits and over A's. */
  lemma RealisticAllPass(cfg: Config, sets: seq<(string, set<string>)>)
    requires cfg == Resolve(RealisticRaw)
    requires sets == ResolveSets(RealisticSets, Build(RealisticRegistry).tagToIds)
    ensures forall k :: 0 <= k < |sets| ==> SetPasses(cfg, RealisticHits, sets[k].1)
  {
    forall k | 0 <= k < |sets|
      ensures CountIn(RealisticHits, sets[k].1) == 0
    {
      forall j | 0 <= j < |RealisticHits|
        ensures RealisticHits[j].marker !in sets[k].1
      {
        RealisticSetsClear(k, j);
      }
    }
  }

  /** The window-wide hits: every set, in order. */
  lemma RealisticBoth(cfg: Config, sets: seq<(string, set<string>)>)
    requires cfg == Resolve(RealisticRaw)
    requires sets == ResolveSets(RealisticSets, Build(RealisticRegistry).tagToIds)
    ensures AbsenceHits(cfg, sets, RealisticHits, 11, BothSpeaker, false) == RealisticWindowWide
  {
    RealisticAllPass(cfg, sets);
    AllSetsPass(cfg, sets, RealisticHits, 11, BothSpeaker, false);
    forall k | 0 <= k < 5
      ensures AbsenceHits(cfg, sets, RealisticHits, 11, BothSpeaker, false)[k] == RealisticWindowWide[k]
    {
      RealisticBothNames(k);
    }
  }

  /** A wrote six of the twelve messages. */
  lemma RealisticParticipation(texts: seq<string>)
    requires |texts| == 12
    ensures Participation(Transcript(RealisticSpeakers, texts), "A") == 6
  {
    TranscriptParticipation(RealisticSpeakers, texts, "A");
    RealisticSums();
  }

  /** The per-speaker hits: A's, every set, in order. */
  lemma RealisticSpkr(texts: seq<string>, cfg: Config, sets: seq<(string, set<string>)>)
    requires |texts| == 12
    requires cfg == Resolve(RealisticRaw)
    requires sets == ResolveSets(RealisticSets, Build(RealisticRegistry).tagToIds)
    ensures SpeakerPart(cfg, sets, Window(0, 12, Transcript(RealisticSpeakers, texts), RealisticHits), Speakers(RealisticHits))
      == RealisticSpeakerA
  {
    var win := Window(0, 12, Transcript(RealisticSpeakers, texts), RealisticHits);
    RealisticParticipation(texts);
    assert cfg.minParticipation == 2;
    OneSpeakerPart(cfg, sets, win, "A");
    RealisticSpkrHits(cfg, sets);
  }

  /** A's hits over every set, in order. */
  lemma RealisticSpkrHits(cfg: Config, sets: seq<(string, set<string>)>)
    requires cfg == Resolve(RealisticRaw)
    requires sets == ResolveSets(RealisticSets, Build(RealisticRegistry).tagToIds)
    ensures AbsenceHits(cfg, sets, RealisticHits, 11, "A", true) == RealisticSpeakerA
  {
    RealisticAllPass(cfg, sets);
    AllSetsPass(cfg, sets, RealisticHits, 11, "A", true);
    forall k | 0 <= k < 5
      ensures AbsenceHits(cfg, sets, RealisticHits, 11, "A", true)[k] == RealisticSpeakerA[k]
    {
      RealisticSpkrNames(k);
    }
  }

  /** The single window's output. */
  lemma RealisticEmit(texts: seq<string>)
    requires |texts| == 12
    requires forall k :: 0 <= k < 12 ==> TokenCount(texts[k]) == RealisticCounts[k]
    ensures EmitWindow(Resolve(RealisticRaw), ResolveSets(RealisticSets, Build(RealisticRegistry).tagToIds), RealisticESet,
      Window(0, 12, Transcript(RealisticSpeakers, texts), RealisticHits)) == RealisticSynthetic
  {
    var cfg := Resolve(RealisticRaw);
    var sets := ResolveSets(RealisticSets, Build(RealisticRegistry).tagToIds);
    var win := Window(0, 12, Transcript(RealisticSpeakers, texts), RealisticHits);
    RealisticGated(texts, cfg, sets);
    EmitWindowParts(cfg, sets, RealisticESet, win);
    RealisticBoth(cfg, sets);
    RealisticSpkr(texts, cfg, sets);
  }

  /** The test's transcript, for any texts of the test's word counts:
      integration keeps the four hits and appends the eleven synthetic
      ones. */
  lemma RealisticScenario(texts: seq<string>)
    requires |texts| == 12
    requires forall k :: 0 <= k < 12 ==> TokenCount(texts[k]) == RealisticCounts[k]
    ensures IntegrateAbsenceDetection(Transcript(RealisticSpeakers, texts), RealisticHits, RealisticRaw, RealisticRegistry, RealisticESet)
      == Ok(RealisticHits + RealisticSynthetic)
  {
    var msgs := Transcript(RealisticSpeakers, texts);
    var cfg := Resolve(RealisticRaw);
    var sets := ResolveSets(RealisticSets, Build(RealisticRegistry).tagToIds);
    var win := Window(0, 12, msgs, RealisticHits);
    RealisticWindows(texts);
    RealisticEmit(texts);
    RunIsLoop(cfg, sets, RealisticESet, msgs, RealisticHits);
    EmitAllOne(cfg, sets, RealisticESet, win);
    IntegrateIsRun(msgs, RealisticHits, RealisticRaw, RealisticRegistry, RealisticESet, RealisticSynthetic);
  }

  /** The test's messages, word by word. */
  const RealisticMsg0: seq<string> := ["Ich", "glaube,", "du", "hast", "mich", "belogen."]
  const RealisticMsg1: seq<string> := ["Das", "stimmt", "nicht,", "ich", "war", "ehrlich."]
  const RealisticMsg2: seq<string> := ["Ich", "kann", "dir", "einfach", "nicht", "mehr", "vertrauen."]
  const RealisticMsg3: seq<string> := ["Ich", "verstehe", "deinen", "Ärger,", "aber", "lass", "uns", "reden."]
  const RealisticMsg4: seq<string> := ["Du", "versuchst", "mich", "zu", "kontrollieren."]
  const RealisticMsg5: seq<string> := ["Das", "war", "nicht", "meine", "Absicht,", "entschuldige."]
  const RealisticMsg6: seq<string> := ["Es", "ist", "schwer", "für", "mich,", "das", "zu", "glauben."]
  const RealisticMsg7: seq<string> := ["Ich", "möchte", "das", "wirklich", "klären", "mit", "dir."]
  const RealisticMsg8: seq<string> := ["Ich", "bin", "sehr", "enttäuscht", "von", "dir."]
  const RealisticMsg9: seq<string> := ["Das", "tut", "mir", "leid,", "ich", "will", "es", "besser", "machen."]
  const RealisticMsg10: seq<string> := ["Wir", "müssen", "wirklich", "über", "unsere", "Kommunikation", "sprechen."]
  const RealisticMsg11: seq<string> := ["Ja,", "ich", "bin", "bereit", "dazu.", "Lass", "uns", "einen", "Weg", "finden."]
  const RealisticWords: seq<seq<string>> := [
    RealisticMsg0, RealisticMsg1, RealisticMsg2, RealisticMsg3, RealisticMsg4, RealisticMsg5,
    RealisticMsg6, RealisticMsg7, RealisticMsg8, RealisticMsg9, RealisticMsg10, RealisticMsg11]

  /** Each of the test's word lists is whitespace-free words of the
      counted length. There is one lemma per message because checking every
      character of all twelve lists against the whitespace set in a single
      proof exceeds the solver's budget. */
  lemma RealisticMsg0Words()
    ensures AllWords(RealisticMsg0) && |RealisticMsg0| == RealisticCounts[0]
  {
  }

  lemma RealisticMsg1Words()
    ensures AllWords(RealisticMsg1) && |RealisticMsg1| == RealisticCounts[1]
  {
  }

  lemma RealisticMsg2Words()
    ensures AllWords(RealisticMsg2) && |RealisticMsg2| == RealisticCounts[2]
  {
  }

  lemma RealisticMsg3Words()
    ensures AllWords(RealisticMsg3) && |RealisticMsg3| == RealisticCounts[3]
  {
  }

  lemma RealisticMsg4Words()
    ensures AllWords(RealisticMsg4) && |RealisticMsg4| == RealisticCounts[4]
  {
  }

  lemma RealisticMsg5Words()
    ensures AllWords(RealisticMsg5) && |RealisticMsg5| == RealisticCounts[5]
  {
  }

  lemma RealisticMsg6Words()
    ensures AllWords(RealisticMsg6) && |RealisticMsg6| == RealisticCounts[6]
  {
  }

  lemma RealisticMsg7Words()
    ensures AllWords(RealisticMsg7) && |RealisticMsg7| == RealisticCounts[7]
  {
  }

  lemma RealisticMsg8Words()
    ensures AllWords(RealisticMsg8) && |RealisticMsg8| == RealisticCounts[8]
  {
  }

  lemma RealisticMsg9Words()
    ensures AllWords(RealisticMsg9) && |RealisticMsg9| == RealisticCounts[9]
  {
  }

  lemma RealisticMsg10Words()
    ensures AllWords(RealisticMsg10) && |RealisticMsg10| == RealisticCounts[10]
  {
  }

  lemma RealisticMsg11Words()
    ensures AllWords(RealisticMsg11) && |RealisticMsg11| == RealisticCounts[11]
  {
  }

  lemma RealisticWordsShape(ws: seq<seq<string>>)
    requires ws == RealisticWords
    ensures |ws| == |RealisticCounts|
    ensures forall k :: 0 <= k < |ws| ==> AllWords(ws[k]) && |ws[k]| == RealisticCounts[k]
  {
    RealisticMsg0Words();
    RealisticMsg1Words();
    RealisticMsg2Words();
    RealisticMsg3Words();
    RealisticMsg4Words();
    RealisticMsg5Words();
    RealisticMsg6Words();
    RealisticMsg7Words();
    RealisticMsg8Words();
    RealisticMsg9Words();
    RealisticMsg10Words();
    RealisticMsg11Words();
  }

  /** The realistic test end to end: the four accusations keep the
      window in conflict, 85 tokens clear `min_tokens`, and every absence
      set is reported window-wide and for A. */
  lemma RealisticTest(ws: seq<seq<string>>)
    requires ws == RealisticWords
    ensures |Texts(ws)| == |RealisticSpeakers|
    ensures IntegrateAbsenceDetection(Transcript(RealisticSpeakers, Texts(ws)), RealisticHits, RealisticRaw, RealisticRegistry, RealisticESet)
      == Ok(RealisticHits + RealisticSynthetic)
  {
    RealisticWordsShape(ws);
    TextsCounts(ws, RealisticCounts);
    RealisticScenario(Texts(ws));
  }

  const SimpleSpeakers: seq<string> := ["A", "B", "A", "B", "A", "B"]
  const SimpleCounts: seq<nat> := [5, 6, 6, 8, 4, 8]

  const SimpleHits: seq<Hit> := [
    Hit(0, "A", "SEM_ACCUSATION_DIRECT"),
    Hit(2, "A", "ATO_TRUST_DEFICIT_STATEMENT"),
    Hit(4, "A", "SEM_ACCUSATION_DIRECT")]

  /** The simple test's configuration: `min_tokens` lowered to 50, no
      `tolerant_max`. */
  const SimpleRaw: RawConfig := RawConfig(
    Some(30), Some(3), Some(true), None, Some(50), SimpleSets, Some(true), NotFound, NotFound)

  const SimpleSets: seq<(string, AbsenceEntry)> := [
    ("derogation", AbsenceEntry(["HARSH_INSULT"], ["insult", "contempt"])),
    ("threat", AbsenceEntry(["DIRECT_THREAT"], ["threat"]))]

  const SimpleRegistry: seq<MarkerRecord> := [
    MarkerRecord(Some("SEM_ACCUSATION_DIRECT"), ["accusation"]),
    MarkerRecord(Some("ATO_TRUST_DEFICIT_STATEMENT"), ["distrust"]),
    MarkerRecord(Some("HARSH_INSULT"), ["insult", "derogation"]),
    MarkerRecord(Some("DIRECT_THREAT"), ["threat"])]

  const SimpleESet: set<string> := {"SEM_ACCUSATION_DIRECT", "ATO_TRUST_DEFICIT_STATEMENT", "HARSH_INSULT", "DIRECT_THREAT"}

  lemma SimpleSums()
    ensures Sum(SimpleCounts) == 37
  {
  }

  /** Three escalation hits meet `min_E_hits`, but 37 tokens fall short
      of `min_tokens`. */
  lemma SimpleNotGated(texts: seq<string>, cfg: Config)
    requires |texts| == 6
    requires forall k :: 0 <= k < 6 ==> TokenCount(texts[k]) == SimpleCounts[k]
    requires cfg == Resolve(SimpleRaw)
    ensures CountIn(SimpleHits, SimpleESet) >= cfg.minE
    ensures !Gated(cfg, SimpleESet, Window(0, 6, Transcript(SimpleSpeakers, texts), SimpleHits))
  {
    CountInAll(SimpleHits, SimpleESet);
    TranscriptTokens(SimpleSpeakers, texts, SimpleCounts);
    SimpleSums();
  }

  /** The simple test's single window, with every hit in it. */
  lemma SimpleWindows(texts: seq<string>)
    requires |texts| == 6
    ensures WindowsFrom(Transcript(SimpleSpeakers, texts), SimpleHits, 30, 0)
      == [Window(0, 6, Transcript(SimpleSpeakers, texts), SimpleHits)]
  {
    OneWindow(Transcript(SimpleSpeakers, texts), SimpleHits, 30);
    HitsInAll(SimpleHits, 0, 6);
  }

  /** The ungated window emits nothing. */
  lemma SimpleEmit(texts: seq<string>)
    requires |texts| == 6
    requires forall k :: 0 <= k < 6 ==> TokenCount(texts[k]) == SimpleCounts[k]
    ensures EmitWindow(Resolve(SimpleRaw), ResolveSets(SimpleSets, Build(SimpleRegistry).tagToIds), SimpleESet,
      Window(0, 6, Transcript(SimpleSpeakers, texts), SimpleHits)) == []
  {
    SimpleNotGated(texts, Resolve(SimpleRaw));
  }

  /** The simple test's transcript, for any texts of its word counts:
      nothing is added to the hits. */
  lemma SimpleScenario(texts: seq<string>)
    requires |texts| == 6
    requires forall k :: 0 <= k < 6 ==> TokenCount(texts[k]) == SimpleCounts[k]
    ensures IntegrateAbsenceDetection(Transcript(SimpleSpeakers, texts), SimpleHits, SimpleRaw, SimpleRegistry, SimpleESet)
      == Ok(SimpleHits)
  {
    var msgs := Transcript(SimpleSpeakers, texts);
    var cfg := Resolve(SimpleRaw);
    var sets := ResolveSets(SimpleSets, Build(SimpleRegistry).tagToIds);
    var win := Window(0, 6, msgs, SimpleHits);
    SimpleWindows(texts);
    SimpleEmit(texts);
    RunIsLoop(cfg, sets, SimpleESet, msgs, SimpleHits);
    EmitAllOne(cfg, sets, SimpleESet, win);
    IntegrateIsRun(msgs, SimpleHits, SimpleRaw, SimpleRegistry, SimpleESet, []);
    assert SimpleHits + [] == SimpleHits;
  }

  /** The simple test's messages, word by word. */
  const SimpleMsg0: seq<string> := ["Du", "lügst", "die", "ganze", "Zeit!"]
  const SimpleMsg1: seq<string> := ["Das", "stimmt", "nicht,", "ich", "bin", "ehrlich."]
  const SimpleMsg2: seq<string> := ["Ich", "kann", "dir", "nicht", "mehr", "vertrauen."]
  const SimpleMsg3: seq<string> := ["Ich", "verstehe", "deine", "Sorge,", "lass", "uns", "darüber", "reden."]
  const SimpleMsg4: seq<string> := ["Du", "manipulierst", "mich", "ständig."]
  const SimpleMsg5: seq<string> := ["Das", "tut", "mir", "leid,", "ich", "möchte", "das", "klären."]
  const SimpleWords: seq<seq<string>> := [
    SimpleMsg0, SimpleMsg1, SimpleMsg2, SimpleMsg3, SimpleMsg4, SimpleMsg5]

  /** Each of the simple test's word lists is whitespace-free words of
      the counted length, one lemma per message for the same reason as in
      the realistic test. */
  lemma SimpleMsg0Words()
    ensures AllWords(SimpleMsg0) && |SimpleMsg0| == SimpleCounts[0]
  {
  }

  lemma SimpleMsg1Words()
    ensures AllWords(SimpleMsg1) && |SimpleMsg1| == SimpleCounts[1]
  {
  }

  lemma SimpleMsg2Words()
    ensures AllWords(SimpleMsg2) && |SimpleMsg2| == SimpleCounts[2]
  {
  }

  lemma SimpleMsg3Words()
    ensures AllWords(SimpleMsg3) && |SimpleMsg3| == SimpleCounts[3]
  {
  }

  lemma SimpleMsg4Words()
    ensures AllWords(SimpleMsg4) && |SimpleMsg4| == SimpleCounts[4]
  {
  }

  lemma SimpleMsg5Words()
    ensures AllWords(SimpleMsg5) && |SimpleMsg5| == SimpleCounts[5]
  {
  }

  /** The simple test end to end: the original hits come back alone. */
  lemma SimpleTest(ws: seq<seq<string>>)
    requires ws == SimpleWords
    ensures |Texts(ws)| == |SimpleSpeakers|
    ensures IntegrateAbsenceDetection(Transcript(SimpleSpeakers, Texts(ws)), SimpleHits, SimpleRaw, SimpleRegistry, SimpleESet)
      == Ok(SimpleHits)
  {
    SimpleMsg0Words();
    SimpleMsg1Words();
    SimpleMsg2Words();
    SimpleMsg3Words();
    SimpleMsg4Words();
    SimpleMsg5Words();
    TextsCounts(ws, SimpleCounts);
    SimpleScenario(Texts(ws));
  }
}

=== FILE: slang_token.dfy ===
/** ATO_SLANG_TOKEN: apostrophe normalisation of the input text, then one
    hit per slang-token match, all sharing a count-based score. */
module SlangToken {
  import opened Basics
  import opened Detection

  const Label := "ATO_SLANG_TOKEN"

  /** The characters `’`, `` ` `` and `´` the detector rewrites to `'`. */
  predicate IsApostropheVariant(c: char)
  {
    c == '\U{2019}' || c == '`' || c == '\U{00B4}'
  }

  function NormalizeChar(c: char): char
  {
    if IsApostropheVariant(c) then '\'' else c
  }

  /** `re.sub(r"[’`´]", "'", text)`: a one-for-one substitution, so lengths
      and character offsets are preserved. */
  function Normalize(s: string): (r: string)
    ensures |r| == |s|
    ensures forall k :: 0 <= k < |s| ==> !IsApostropheVariant(r[k])
    ensures forall k :: 0 <= k < |s| && !IsApostropheVariant(s[k]) ==> r[k] == s[k]
    ensures forall k :: 0 <= k < |s| && IsApostropheVariant(s[k]) ==> r[k] == '\''
  {
    seq(|s|, k requires 0 <= k < |s| => NormalizeChar(s[k]))
  }

  /** Normalising twice is normalising once. */
  lemma NormalizeIdempotent(s: string)
    ensures Normalize(Normalize(s)) == Normalize(s)
  {
  }

  /** `0.4` for one match, otherwise `min(0.8, 0.7 + 0.05*(n - 2))`. */
  function SharedScore(n: nat): (r: int)
    ensures 40 <= r <= 80
    ensures n > 1 ==> r >= 70
  {
    if n == 1 then 40 else Min(80, 70 + 5 * (n - 2))
  }

  function Detect(ms: seq<Match>): (r: seq<Detection>)
    ensures |r| == |ms|
    ensures forall k :: 0 <= k < |ms| ==>
      r[k] == Detection(SpanOf(ms[k]), Label, SharedScore(|ms|), ms[k].text)
  {
    if |ms| == 0 then [] else PerMatch(ms, Label, SharedScore(|ms|))
  }

  /** 1 → 0.40, 2 → 0.70, 3 → 0.75, four or more → 0.80; never above 0.8
      and never falling as matches are added. */
  lemma SharedScoreTable(n: nat, m: nat)
    requires n >= 1
    ensures n == 1 ==> SharedScore(n) == 40
    ensures n == 2 ==> SharedScore(n) == 70
    ensures n == 3 ==> SharedScore(n) == 75
    ensures n >= 4 ==> SharedScore(n) == 80
    ensures 40 <= SharedScore(n) <= 80
    ensures n <= m ==> SharedScore(n) <= SharedScore(m)
  {
  }
}

=== FILE: sustained_contact.dfy ===
/** CLU_SUSTAINED_CONTACT: a consolidated, span-less density hit scored on a
    staircase, followed by at most six per-match evidence hits at a reduced
    score. Inputs: the matches of the combined routine/time/call lexicon, and
    whether the time/weekday lexicon occurs anywhere in the text. */
module SustainedContact {
  import opened Basics
  import opened Detection

  const Label := "CLU_SUSTAINED_CONTACT"
  /** At most this many per-match evidence hits. */
  const EvidenceCap := 6

  /** `max(0.5, min(0.95, 0.45 + 0.15*min(4, count)))`. */
  function ConsolidatedScore(count: nat): (r: int)
    ensures 50 <= r <= 95
    ensures count >= 4 ==> r == 95
  {
    Max(50, Min(95, 45 + 15 * Min(4, count)))
  }

  /** `min(0.5, 0.3 + 0.05*count)`. */
  function EvidenceScore(count: nat): (r: int)
    ensures 30 <= r <= 50
    ensures r < ConsolidatedScore(count)
  {
    Min(50, 30 + 5 * count)
  }

  /** The consolidated hit is emitted on two or more signals, or on one
      signal with a concrete time anchor. */
  predicate Consolidates(count: nat, hasTime: bool)
  {
    count >= 2 || (count >= 1 && hasTime)
  }

  /** 1 when the consolidated hit is emitted, 0 otherwise. */
  function HeadCount(count: nat, hasTime: bool): nat
  {
    if Consolidates(count, hasTime) then 1 else 0
  }

  /** The capped per-match evidence hits. */
  function EvidenceHits(ms: seq<Match>): (e: seq<Detection>)
    ensures |e| == Min(EvidenceCap, |ms|)
    ensures forall k :: 0 <= k < |e| ==> e[k] == Detection(SpanOf(ms[k]), Label, EvidenceScore(|ms|), ms[k].text)
  {
    PerMatch(ms[..Min(EvidenceCap, |ms|)], Label, EvidenceScore(|ms|))
  }

  /** The span-less density hit, evidence `"density:<count>"`. */
  function DensityHit(count: nat): (d: Detection)
    ensures d == Detection(None, Label, ConsolidatedScore(count), "density:" + NatToString(count))
  {
    Mk(None, Label, ConsolidatedScore(count), "density:" + NatToString(count))
  }

  function Detect(ms: seq<Match>, hasTime: bool): (r: seq<Detection>)
    ensures |ms| == 0 ==> r == []
    ensures |ms| > 0 ==> |r| == HeadCount(|ms|, hasTime) + Min(EvidenceCap, |ms|)
    ensures |ms| > 0 && Consolidates(|ms|, hasTime) ==>
      r[0] == DensityHit(|ms|)
    ensures |ms| > 0 ==> r[HeadCount(|ms|, hasTime)..] == EvidenceHits(ms)
  {
    if |ms| == 0 then []
    else
      var count := |ms|;
      var head := if Consolidates(count, hasTime) then [DensityHit(count)] else [];
      var evidence := EvidenceHits(ms);
      var r := head + evidence;
      assert r[|head|..] == evidence;
      r
  }

  /** The staircase: 1 → 0.60, 2 → 0.75, 3 → 0.90, four or more → 0.95. */
  lemma ConsolidatedStaircase(count: nat)
    requires count >= 1
    ensures ConsolidatedScore(count) == (if count >= 4 then 95 else 45 + 15 * count)
    ensures 60 <= ConsolidatedScore(count) <= 95
  {
  }

  /** At most seven hits, and none without a match. */
  lemma AtMostSeven(ms: seq<Match>, hasTime: bool)
    ensures |Detect(ms, hasTime)| <= EvidenceCap + 1
  {
  }

  /** Evidence hits appear without a consolidated hit: one match and no time
      anchor give a single spanned hit at 0.35. */
  lemma SingleMatchNoAnchor(m: Match)
    ensures Detect([m], false) == [Detection(SpanOf(m), Label, 35, m.text)]
  {
    var r := Detect([m], false);
    assert |r| == 1;
  }

  /** Every score emitted lies in [0.35, 0.95]. */
  lemma ScoresInRange(ms: seq<Match>, hasTime: bool)
    ensures forall k :: 0 <= k < |Detect(ms, hasTime)| ==> 35 <= Detect(ms, hasTime)[k].score <= 95
  {
    var r := Detect(ms, hasTime);
    if |ms| > 0 {
      var head := HeadCount(|ms|, hasTime);
      forall k | 0 <= k < |r|
        ensures 35 <= r[k].score <= 95
      {
        if k >= head {
          assert r[k] == r[head..][k - head];
        }
      }
    }
  }
}

=== FILE: tag_index.dfy ===
/** `build_tag_index`: the tag → marker-ids index and the id → tags map
    built from a marker registry. */
module TagIndex {
  import opened Basics

  /** One registry entry: `marker.get("id")` and `marker.get("tags", [])`. */
  datatype MarkerRecord = MarkerRecord(id: Option<string>, tags: seq<string>)

  /** `if mid:` — a missing or empty id skips the record. */
  predicate IdTruthy(r: MarkerRecord)
  {
    r.id.Some? && |r.id.value| > 0
  }

  /** `set(tags)`. */
  function TagSet(tags: seq<string>): set<string>
  {
    set k | 0 <= k < |tags| :: tags[k]
  }

  datatype Index = Index(tagToIds: map<string, set<string>>, idToTags: map<string, set<string>>)

  /** The inner loop: `tag_index[tag].add(mid)` for every tag of one record. */
  function AddTags(m: map<string, set<string>>, tags: seq<string>, mid: string): (r: map<string, set<string>>)
    ensures r.Keys == m.Keys + TagSet(tags)
    ensures forall t :: t in r ==> r[t] == (if t in m then m[t] else {}) + (if t in TagSet(tags) then {mid} else {})
  {
    map t | t in m.Keys + TagSet(tags) :: (if t in m then m[t] else {}) + (if t in TagSet(tags) then {mid} else {})
  }

  /** `build_tag_index` over the registry in order. The two maps agree:
      every id of the tag index has an entry in `id_to_tags`, only truthy
      ids are keys, no tag maps to an empty set, and the current tags of an
      id are all indexed under it. */
  function Build(rs: seq<MarkerRecord>): (r: Index)
    ensures forall mid :: mid in r.idToTags ==> |mid| > 0
    ensures forall t :: t in r.tagToIds ==> r.tagToIds[t] != {}
    ensures forall t, mid :: t in r.tagToIds && mid in r.tagToIds[t] ==> mid in r.idToTags
    ensures forall mid, t :: mid in r.idToTags && t in r.idToTags[mid] ==> t in r.tagToIds && mid in r.tagToIds[t]
  {
    if |rs| == 0 then Index(map[], map[])
    else
      var ix := Build(rs[..|rs| - 1]);
      var r := rs[|rs| - 1];
      if !IdTruthy(r) then ix
      else Index(AddTags(ix.tagToIds, r.tags, r.id.value), ix.idToTags[r.id.value := TagSet(r.tags)])
  }

  /** Some record with the truthy id `mid` lists the tag `t`. */
  predicate Tagged(rs: seq<MarkerRecord>, mid: string, t: string)
  {
    exists k :: 0 <= k < |rs| && IdTruthy(rs[k]) && rs[k].id.value == mid && t in rs[k].tags
  }

  /** Some record carries the truthy id `mid`. */
  predicate Registered(rs: seq<MarkerRecord>, mid: string)
  {
    exists k :: 0 <= k < |rs| && IdTruthy(rs[k]) && rs[k].id.value == mid
  }

  /** Appending a record adds exactly its own id and tags to `Tagged`. */
  lemma TaggedSnoc(pre: seq<MarkerRecord>, r: MarkerRecord, mid: string, t: string)
    ensures Tagged(pre + [r], mid, t) <==> Tagged(pre, mid, t) || (IdTruthy(r) && r.id.value == mid && t in r.tags)
  {
    var rs := pre + [r];
    if Tagged(pre, mid, t) {
      var k :| 0 <= k < |pre| && IdTruthy(pre[k]) && pre[k].id.value == mid && t in pre[k].tags;
      assert rs[k] == pre[k];
    }
    if Tagged(rs, mid, t) {
      var k :| 0 <= k < |rs| && IdTruthy(rs[k]) && rs[k].id.value == mid && t in rs[k].tags;
      if k < |pre| {
        assert pre[k] == rs[k];
      }
    }
    if IdTruthy(r) && r.id.value == mid && t in r.tags {
      assert rs[|pre|] == r;
    }
  }

  /** `mid ∈ tag_index[t]` exactly when some record with id `mid` lists
      `t`. */
  lemma {:induction false} TagIndexMembership(rs: seq<MarkerRecord>)
    ensures forall t, mid :: t in Build(rs).tagToIds && mid in Build(rs).tagToIds[t] <==> Tagged(rs, mid, t)
  {
    if |rs| > 0 {
      var pre := rs[..|rs| - 1];
      var r := rs[|rs| - 1];
      assert rs == pre + [r];
      TagIndexMembership(pre);
      forall t, mid
        ensures t in Build(rs).tagToIds && mid in Build(rs).tagToIds[t] <==> Tagged(rs, mid, t)
      {
        TaggedSnoc(pre, r, mid, t);
        if IdTruthy(r) {
          assert t in TagSet(r.tags) <==> t in r.tags;
        }
      }
    }
  }

  /** `id_to_tags` has a key exactly for each truthy id of the registry. */
  lemma {:induction false} IdToTagsKeys(rs: seq<MarkerRecord>)
    ensures forall mid :: mid in Build(rs).idToTags <==> Registered(rs, mid)
  {
    if |rs| > 0 {
      var pre := rs[..|rs| - 1];
      var r := rs[|rs| - 1];
      IdToTagsKeys(pre);
      forall mid | Registered(pre, mid)
        ensures Registered(rs, mid)
      {
        var k :| 0 <= k < |pre| && IdTruthy(pre[k]) && pre[k].id.value == mid;
        assert rs[k] == pre[k];
      }
      forall mid | Registered(rs, mid)
        ensures Registered(pre, mid) || (IdTruthy(r) && r.id.value == mid)
      {
        var k :| 0 <= k < |rs| && IdTruthy(rs[k]) && rs[k].id.value == mid;
        if k < |pre| {
          assert pre[k] == rs[k];
        }
      }
      if IdTruthy(r) {
        assert Registered(rs, r.id.value) by {
          assert IdTruthy(rs[|rs| - 1]);
        }
      }
    }
  }

  /** Record `k` is the last one with id `mid`, and its tags are `tags`. */
  predicate LastWith(rs: seq<MarkerRecord>, mid: string, tags: set<string>, k: int)
  {
    && 0 <= k < |rs| && rs[k].id == Some(mid) && tags == TagSet(rs[k].tags)
    && (forall j :: k < j < |rs| ==> rs[j].id != Some(mid))
  }

  /** A record with another id appended keeps the last one with `mid`. */
  lemma LastWithExtend(rs: seq<MarkerRecord>, r: MarkerRecord, mid: string, tags: set<string>, k: int)
    requires LastWith(rs, mid, tags, k) && r.id != Some(mid)
    ensures LastWith(rs + [r], mid, tags, k)
  {
    var rs2 := rs + [r];
    assert rs2[k] == rs[k];
    forall j | k < j < |rs2|
      ensures rs2[j].id != Some(mid)
    {
      if j < |rs| {
        assert rs2[j] == rs[j];
      }
    }
  }

  /** `id_to_tags` holds for each id the tags of the last record with that
      id. */
  lemma {:induction false} IdToTagsLastWins(rs: seq<MarkerRecord>)
    ensures forall mid :: mid in Build(rs).idToTags ==> exists k :: LastWith(rs, mid, Build(rs).idToTags[mid], k)
  {
    if |rs| > 0 {
      var pre := rs[..|rs| - 1];
      var r := rs[|rs| - 1];
      assert rs == pre + [r];
      IdToTagsLastWins(pre);
      IdToTagsKeys(pre);
      var ix := Build(rs);
      forall mid | mid in ix.idToTags
        ensures exists k :: LastWith(rs, mid, ix.idToTags[mid], k)
      {
        if IdTruthy(r) && r.id.value == mid {
          assert LastWith(rs, mid, ix.idToTags[mid], |rs| - 1);
        } else {
          assert mid in Build(pre).idToTags && ix.idToTags[mid] == Build(pre).idToTags[mid];
          var k :| LastWith(pre, mid, Build(pre).idToTags[mid], k);
          assert |mid| > 0;
          LastWithExtend(pre, r, mid, Build(pre).idToTags[mid], k);
        }
      }
    }
  }
}

=== FILE: text.dfy ===
/** The few Python string operations the core relies on: `str.split()` with no
    argument (token counting), `str.strip()`, `str.split(sep)` and
    `str.upper()`, stated over `seq<char>`. */
module Text {

  /** Python's `str.isspace` for a single character: the blank, the ASCII
      controls TAB to CR and FS to US, NEL, NBSP, OGHAM SPACE MARK, the
      spaces U+2000 to U+200A, LINE and PARAGRAPH SEPARATOR, NNBSP, MMSP and
      IDEOGRAPHIC SPACE. */
  predicate IsSpace(c: char)
  {
    if c <= ' ' then c == ' ' || '\t' <= c <= '\r' || '\U{001C}' <= c
    else if c < '\U{0085}' then false
    else if c < '\U{1680}' then c == '\U{0085}' || c == '\U{00A0}'
    else
      || c == '\U{1680}' || '\U{2000}' <= c <= '\U{200A}' || c == '\U{2028}' || c == '\U{2029}'
      || c == '\U{202F}' || c == '\U{205F}' || c == '\U{3000}'
  }

  /** A non-empty run of non-whitespace characters. */
  predicate IsWord(w: string)
  {
    |w| > 0 && forall k :: 0 <= k < |w| ==> !IsSpace(w[k])
  }

  predicate AllWords(ws: seq<string>)
  {
    forall k :: 0 <= k < |ws| ==> IsWord(ws[k])
  }

  /** Length of the word at the front of `s`. */
  function WordLength(s: string): (n: nat)
    requires |s| > 0 && !IsSpace(s[0])
    ensures 1 <= n <= |s|
    ensures forall k :: 0 <= k < n ==> !IsSpace(s[k])
    ensures n == |s| || IsSpace(s[n])
  {
    if |s| == 1 || IsSpace(s[1]) then 1 else 1 + WordLength(s[1..])
  }

  /** Python's `s.split()`: the maximal whitespace-free runs of `s`, in order. */
  function SplitWords(s: string): (ws: seq<string>)
    ensures AllWords(ws)
    decreases |s|
  {
    if |s| == 0 then []
    else if IsSpace(s[0]) then SplitWords(s[1..])
    else
      var n := WordLength(s);
      [s[..n]] + SplitWords(s[n..])
  }

  /** Python's `len(s.split())`, the token estimate of a message. */
  function TokenCount(s: string): nat
  {
    |SplitWords(s)|
  }

  /** Words separated by single blanks: `" ".join(ws)`. */
  function JoinWords(ws: seq<string>): string
  {
    if |ws| == 0 then ""
    else if |ws| == 1 then ws[0]
    else ws[0] + " " + JoinWords(ws[1..])
  }

  lemma WordLengthOfWord(w: string, rest: string)
    requires IsWord(w)
    requires |rest| == 0 || IsSpace(rest[0])
    ensures WordLength(w + rest) == |w|
  {
    var s := w + rest;
    assert forall k :: 0 <= k < |w| ==> s[k] == w[k];
    assert |rest| > 0 ==> s[|w|] == rest[0];
  }

  /** Splitting words joined by blanks gives the words back. */
  lemma {:induction false} SplitJoinWords(ws: seq<string>)
    requires AllWords(ws)
    ensures SplitWords(JoinWords(ws)) == ws
    decreases |ws|
  {
    if |ws| == 0 {
    } else if |ws| == 1 {
      var w := ws[0];
      WordLengthOfWord(w, "");
      assert w + "" == w;
      assert w[|w|..] == "";
      assert w[..|w|] == w;
    } else {
      var w := ws[0];
      var tail := JoinWords(ws[1..]);
      var s := w + (" " + tail);
      assert JoinWords(ws) == s;
      WordLengthOfWord(w, " " + tail);
      assert s[..|w|] == w;
      assert s[|w|..] == " " + tail;
      assert (" " + tail)[1..] == tail;
      SplitJoinWords(ws[1..]);
      assert [w] + ws[1..] == ws;
    }
  }

  /** The number of tokens of a blank-joined word list is its length. */
  lemma TokenCountOfWords(ws: seq<string>)
    requires AllWords(ws)
    ensures TokenCount(JoinWords(ws)) == |ws|
  {
    SplitJoinWords(ws);
  }

  /** Number of leading whitespace characters of `s`. */
  function LeadingSpace(s: string): (n: nat)
    ensures n <= |s|
    ensures forall k :: 0 <= k < n ==> IsSpace(s[k])
    ensures n < |s| ==> !IsSpace(s[n])
  {
    if |s| == 0 || !IsSpace(s[0]) then 0 else 1 + LeadingSpace(s[1..])
  }

  /** Number of trailing whitespace characters of `s`. */
  function TrailingSpace(s: string): (n: nat)
    ensures n <= |s|
    ensures forall k :: |s| - n <= k < |s| ==> IsSpace(s[k])
    ensures n < |s| ==> !IsSpace(s[|s| - n - 1])
  {
    if |s| == 0 || !IsSpace(s[|s| - 1]) then 0 else 1 + TrailingSpace(s[..|s| - 1])
  }

  /** Python's `s.strip()`. The result is the slice of `s` left once the
      leading and trailing whitespace is cut; what is cut is whitespace only,
      and what is left neither starts nor ends with whitespace. */
  function Strip(s: string): (r: string)
    ensures LeadingSpace(s) + |r| <= |s|
    ensures |r| > 0 ==> !IsSpace(r[0]) && !IsSpace(r[|r| - 1])
    ensures r == s[LeadingSpace(s)..LeadingSpace(s) + |r|]
    ensures forall k :: 0 <= k < LeadingSpace(s) ==> IsSpace(s[k])
    ensures forall k :: LeadingSpace(s) + |r| <= k < |s| ==> IsSpace(s[k])
  {
    var a := LeadingSpace(s);
    var t := s[a..];
    var b := TrailingSpace(t);
    assert forall k :: |t| - b <= k < |t| ==> IsSpace(t[k]);
    t[..|t| - b]
  }

  /** Neither starts nor ends with whitespace. */
  predicate Trimmed(s: string)
  {
    |s| == 0 || (!IsSpace(s[0]) && !IsSpace(s[|s| - 1]))
  }

  /** Stripping leaves a trimmed string alone, so it is idempotent. */
  lemma StripTrimmed(s: string)
    requires Trimmed(s)
    ensures Strip(s) == s
  {
    var r := Strip(s);
    if |s| > 0 {
      assert LeadingSpace(s) == 0;
    }
  }

  lemma StripIdempotent(s: string)
    ensures Strip(Strip(s)) == Strip(s)
  {
    StripTrimmed(Strip(s));
  }

  /** Python's `s.split(sep)` for a one-character separator: always at least
      one piece, and no piece holds the separator. */
  function SplitOn(s: string, sep: char): (parts: seq<string>)
    ensures |parts| >= 1
    ensures forall k :: 0 <= k < |parts| ==> sep !in parts[k]
  {
    if |s| == 0 then [""]
    else
      var rest := SplitOn(s[1..], sep);
      if s[0] == sep then [""] + rest
      else [[s[0]] + rest[0]] + rest[1..]
  }

  /** `sep.join(parts)`. */
  function JoinOn(parts: seq<string>, sep: char): string
  {
    if |parts| == 0 then ""
    else if |parts| == 1 then parts[0]
    else parts[0] + [sep] + JoinOn(parts[1..], sep)
  }

  /** Joining the pieces of a split with the separator restores the string. */
  lemma {:induction false} JoinSplitOn(s: string, sep: char)
    ensures JoinOn(SplitOn(s, sep), sep) == s
    decreases |s|
  {
    if |s| > 0 {
      var rest := SplitOn(s[1..], sep);
      JoinSplitOn(s[1..], sep);
      if s[0] == sep {
        assert [""] + rest == [""] + rest;
        assert ([""] + rest)[1..] == rest;
      } else {
        var parts := [[s[0]] + rest[0]] + rest[1..];
        assert parts[1..] == rest[1..];
        if |rest| == 1 {
          assert JoinOn(rest, sep) == rest[0];
        } else {
          assert JoinOn(rest, sep) == rest[0] + [sep] + JoinOn(rest[1..], sep);
        }
        assert s == [s[0]] + s[1..];
      }
    }
  }

  /** Splitting separator-free pieces joined by the separator gives them back. */
  lemma {:induction false} SplitJoinOn(parts: seq<string>, sep: char)
    requires |parts| >= 1
    requires forall k :: 0 <= k < |parts| ==> sep !in parts[k]
    ensures SplitOn(JoinOn(parts, sep), sep) == parts
    decreases |parts|, |parts[0]|
  {
    var p := parts[0];
    if |p| == 0 {
      if |parts| > 1 {
        var tail := JoinOn(parts[1..], sep);
        assert JoinOn(parts, sep) == [sep] + tail;
        assert ([sep] + tail)[1..] == tail;
        SplitJoinOn(parts[1..], sep);
        assert [""] + parts[1..] == parts;
      }
    } else {
      var shorter := [p[1..]] + parts[1..];
      assert shorter[1..] == parts[1..];
      assert forall k :: 0 <= k < |shorter| ==> sep !in shorter[k] by {
        forall k | 0 <= k < |shorter|
          ensures sep !in shorter[k]
        {
          if k == 0 {
            assert forall c :: c in p[1..] ==> c in p;
          } else {
            assert shorter[k] == parts[k];
          }
        }
      }
      SplitJoinOn(shorter, sep);
      var j := JoinOn(parts, sep);
      if |parts| == 1 {
        assert j == p;
      } else {
        assert j == p + [sep] + JoinOn(parts[1..], sep);
      }
      assert j[1..] == JoinOn(shorter, sep);
      assert j[0] == p[0] && p[0] != sep;
      assert [p[0]] + p[1..] == p;
      assert [[j[0]] + shorter[0]] + shorter[1..] == parts;
    }
  }

  /** Python's `str.upper()` on one character, for the ASCII letters. */
  function UpperChar(c: char): char
  {
    if 'a' <= c <= 'z' then (c as int - 32) as char else c
  }

  function Upper(s: string): (r: string)
    ensures |r| == |s|
    ensures forall k :: 0 <= k < |s| ==> r[k] == UpperChar(s[k])
  {
    seq(|s|, k requires 0 <= k < |s| => UpperChar(s[k]))
  }

  /** Upper-casing twice changes nothing more, and no ASCII lower-case
      letter survives it. */
  lemma UpperIdempotent(s: string)
    ensures Upper(Upper(s)) == Upper(s)
    ensures forall k :: 0 <= k < |s| ==> !('a' <= Upper(s)[k] <= 'z')
  {
  }
}

=== FILE: txt_legacy.dfy ===
/** The legacy TXT marker format: one marker per line,
    `id | description | signal | pattern, pattern, ...`, with blank lines and
    `#` comments skipped. */
module TxtLegacy {
  import opened Basics
  import opened Text
  import opened MarkerIds

  /** The text a TXT marker carries for its frame's concept, pragmatics and
      narrative. */
  const Placeholder: string := "n/a"

  /** What a TXT line contributes to a marker definition: the id, the frame's
      signal, and the patterns. Examples and tags are always empty. */
  datatype TxtMarker = TxtMarker(id: string, signal: string, patterns: seq<string>)

  function StripAll(ps: seq<string>): (r: seq<string>)
    ensures |r| == |ps|
    ensures forall k :: 0 <= k < |ps| ==> r[k] == Strip(ps[k]) && Trimmed(r[k])
  {
    seq(|ps|, k requires 0 <= k < |ps| => Strip(ps[k]))
  }

  /** Blank after stripping, or a comment. */
  predicate Skipped(line: string)
  {
    var t := Strip(line);
    |t| == 0 || t[0] == '#'
  }

  /** The stripped `|`-separated fields of the stripped line. */
  function Fields(line: string): seq<string>
  {
    StripAll(SplitOn(Strip(line), '|'))
  }

  /** Holds for a character that stripping never removes from inside `s`. */
  lemma StripKeeps(s: string, c: char)
    requires c !in s
    ensures c !in Strip(s)
  {
    var a := LeadingSpace(s);
    var r := Strip(s);
    assert forall k :: 0 <= k < |r| ==> r[k] == s[a + k];
  }

  /** A field free of `sep` gives pieces free of `sep` and of the field's
      own separator. */
  lemma StripAllKeeps(ps: seq<string>, c: char)
    requires forall k :: 0 <= k < |ps| ==> c !in ps[k]
    ensures forall k :: 0 <= k < |ps| ==> c !in StripAll(ps)[k]
  {
    forall k | 0 <= k < |ps|
      ensures c !in StripAll(ps)[k]
    {
      StripKeeps(ps[k], c);
    }
  }

  /** A marker as a line of the format puts it, given its description, is a
      line that reads back as the same marker. */
  predicate WellFormed(m: TxtMarker, description: string)
  {
    && ValidateMarkerId(m.id).Ok?
    && Trimmed(m.id) && '|' !in m.id
    && Trimmed(description) && '|' !in description
    && Trimmed(m.signal) && '|' !in m.signal
    && |m.patterns| >= 1
    && (forall k :: 0 <= k < |m.patterns| ==>
          Trimmed(m.patterns[k]) && ',' !in m.patterns[k] && '|' !in m.patterns[k])
  }

  /** Migrating a trimmed, `|`-free id keeps it trimmed and `|`-free. */
  lemma MigrateKeepsShape(s: string)
    requires Trimmed(s) && '|' !in s && MigrateMarkerId(s).Ok?
    ensures Trimmed(MigrateMarkerId(s).value) && '|' !in MigrateMarkerId(s).value
  {
    PrefixChars(s);
    var id := MigrateMarkerId(s).value;
    if HasLegacyPrefix(s) {
      var tail := s[2..];
      assert forall c :: c in tail ==> c in s;
      assert |id| >= 4 && id[4..] == tail;
      assert id[0] != ' ';
      if |tail| > 0 {
        assert id[|id| - 1] == s[|s| - 1];
      } else {
        assert id[|id| - 1] == '_';
      }
    }
  }

  /** Python's `line.split('|')` and `.split(',')` in the source, with
      every piece stripped; `MM_` ids raise `KeyError`, ids without a level
      prefix raise `ValueError`. A line that is read holds a valid id and
      only trimmed, separator-free fields, so it is in the normal form of
      the format. */
  function ParseLine(line: string): (r: Result<Option<TxtMarker>, IdError>)
    ensures r == Ok(None) <==> Skipped(line) || |Fields(line)| < 4
    ensures r.Err? ==> !Skipped(line) && |Fields(line)| >= 4
    ensures r.Err? ==> r.error == KeyError("MM") || r.error.MissingPrefix?
    ensures r.Ok? && r.value.Some? ==> |Fields(line)| >= 4 && WellFormed(r.value.value, Fields(line)[1])
    ensures r.Ok? && r.value.Some? ==> r.value.value.signal == Fields(line)[2]
    // a line that is not skipped fails exactly when its id field fails to
    // migrate, or migrates to an id without a level prefix
    ensures !Skipped(line) && |Fields(line)| >= 4 ==>
      (r.Err? <==> MigrateMarkerId(Fields(line)[0]).Err? || ValidateMarkerId(MigrateMarkerId(Fields(line)[0]).value).Err?)
    ensures r.Err? && |Fields(line)| >= 4 && MigrateMarkerId(Fields(line)[0]).Err? ==>
      r.error == MigrateMarkerId(Fields(line)[0]).error
    ensures r.Err? && |Fields(line)| >= 4 && MigrateMarkerId(Fields(line)[0]).Ok? ==>
      r.error == MissingPrefix(MigrateMarkerId(Fields(line)[0]).value)
    // the marker read carries the migrated id and the stripped patterns
    ensures r.Ok? && r.value.Some? ==>
      && |Fields(line)| >= 4
      && r.value.value.id == MigrateMarkerId(Fields(line)[0]).value
      && r.value.value.patterns == StripAll(SplitOn(Fields(line)[3], ','))
  {
    if Skipped(line) then Ok(None)
    else
      var parts := Fields(line);
      if |parts| < 4 then Ok(None)
      else
        StripAllKeeps(SplitOn(Strip(line), '|'), '|');
        match MigrateMarkerId(parts[0])
        case Err(e) => Err(e)
        case Ok(id) =>
          match ValidateMarkerId(id)
          case Err(e) => Err(e)
          case Ok(_) =>
            MigrateKeepsShape(parts[0]);
            var pieces := SplitOn(parts[3], ',');
            assert forall k :: 0 <= k < |pieces| ==> '|' !in pieces[k] by {
              JoinSplitOn(parts[3], ',');
              forall k | 0 <= k < |pieces|
                ensures '|' !in pieces[k]
              {
                JoinOnPieces(pieces, ',', k);
              }
            }
            StripAllKeeps(pieces, ',');
            StripAllKeeps(pieces, '|');
            Ok(Some(TxtMarker(id, parts[2], StripAll(pieces))))
  }

  /** A line whose id field carries the `MM_` prefix raises `KeyError`. */
  lemma MmLineRaises(line: string)
    requires !Skipped(line) && |Fields(line)| >= 4
    requires "MM_" <= Fields(line)[0]
    ensures ParseLine(line) == Err(KeyError("MM"))
  {
  }

  /** A line whose id field has neither a legacy nor a level prefix raises
      `ValueError` for that id. */
  lemma UnprefixedLineRaises(line: string)
    requires !Skipped(line) && |Fields(line)| >= 4
    requires !HasLegacyPrefix(Fields(line)[0]) && ValidateMarkerId(Fields(line)[0]).Err?
    ensures ParseLine(line) == Err(MissingPrefix(Fields(line)[0]))
  {
  }

  /** A line whose id field carries a legacy `A_`, `S_` or `C_` prefix is
      read with the id migrated to its level prefix. */
  lemma LegacyLineMigrated(line: string)
    requires !Skipped(line) && |Fields(line)| >= 4
    requires "A_" <= Fields(line)[0] || "S_" <= Fields(line)[0] || "C_" <= Fields(line)[0]
    ensures ParseLine(line).Ok? && ParseLine(line).value.Some?
    ensures var id := Fields(line)[0];
      ParseLine(line).value.value.id ==
        (if "A_" <= id then "ATO_" else if "S_" <= id then "SEM_" else "CLU_") + id[2..]
  {
    MigratedIdsValidate(Fields(line)[0]);
    PrefixChars(Fields(line)[0]);
  }

  /** Every character of a piece occurs in the joined string. */
  lemma {:induction false} JoinOnPieces(parts: seq<string>, sep: char, k: nat)
    requires k < |parts|
    ensures forall c :: c in parts[k] ==> c in JoinOn(parts, sep)
  {
    if |parts| > 1 {
      var j := JoinOn(parts, sep);
      assert j == parts[0] + [sep] + JoinOn(parts[1..], sep);
      if k == 0 {
        assert forall c :: c in parts[0] ==> c in j;
      } else {
        JoinOnPieces(parts[1..], sep, k - 1);
        assert parts[1..][k - 1] == parts[k];
        assert forall c :: c in JoinOn(parts[1..], sep) ==> c in j;
      }
    }
  }

  /** A valid id is left alone by migration. */
  lemma ValidIdNotMigrated(id: string)
    requires ValidateMarkerId(id).Ok?
    ensures MigrateMarkerId(id) == Ok(id)
  {
    PrefixChars(id);
  }

  /** Joining trimmed pieces with a separator that is not whitespace gives a
      trimmed string. */
  lemma {:induction false} JoinOnTrimmed(parts: seq<string>, sep: char)
    requires !IsSpace(sep)
    requires forall k :: 0 <= k < |parts| ==> Trimmed(parts[k])
    ensures Trimmed(JoinOn(parts, sep))
  {
    if |parts| > 1 {
      var rest := JoinOn(parts[1..], sep);
      JoinOnTrimmed(parts[1..], sep);
      var j := parts[0] + [sep] + rest;
      assert JoinOn(parts, sep) == j;
      assert j[0] == if |parts[0]| > 0 then parts[0][0] else sep;
      assert j[|j| - 1] == if |rest| > 0 then rest[|rest| - 1] else sep;
    }
  }

  /** The line the format writes for a marker and its description. */
  function FormatLine(m: TxtMarker, description: string): string
  {
    JoinOn([m.id, description, m.signal, JoinOn(m.patterns, ',')], '|')
  }

  /** The patterns field of a well-formed marker holds no `|`. */
  lemma PatternsFieldBarFree(m: TxtMarker, description: string)
    requires WellFormed(m, description)
    ensures Trimmed(JoinOn(m.patterns, ',')) && '|' !in JoinOn(m.patterns, ',')
  {
    JoinOnTrimmed(m.patterns, ',');
    forall c | c in JoinOn(m.patterns, ',')
      ensures c != '|'
    {
      JoinOnChars(m.patterns, ',', c);
    }
  }

  /** A joined string starts with its first piece. */
  lemma JoinOnHead(parts: seq<string>, sep: char)
    requires |parts| > 0 && |parts[0]| > 0
    ensures |JoinOn(parts, sep)| > 0 && JoinOn(parts, sep)[0] == parts[0][0]
  {
    if |parts| > 1 {
      assert JoinOn(parts, sep) == parts[0] + ([sep] + JoinOn(parts[1..], sep));
    }
  }

  /** The line written for a well-formed marker is left alone by stripping. */
  lemma FormatTrimmed(m: TxtMarker, description: string)
    requires WellFormed(m, description)
    ensures Strip(FormatLine(m, description)) == FormatLine(m, description)
  {
    var fields := [m.id, description, m.signal, JoinOn(m.patterns, ',')];
    PatternsFieldBarFree(m, description);
    assert Trimmed(fields[0]) && Trimmed(fields[1]) && Trimmed(fields[2]) && Trimmed(fields[3]);
    JoinOnTrimmed(fields, '|');
    StripTrimmed(FormatLine(m, description));
  }

  /** The line written for a well-formed marker is neither blank nor a
      comment: it starts with the marker's id. */
  lemma FormatNotSkipped(m: TxtMarker, description: string)
    requires WellFormed(m, description)
    ensures !Skipped(FormatLine(m, description))
  {
    var fields := [m.id, description, m.signal, JoinOn(m.patterns, ',')];
    FormatTrimmed(m, description);
    PrefixChars(m.id);
    JoinOnHead(fields, '|');
  }

  /** The fields of the line written for a well-formed marker are the four
      parts it was written from. */
  lemma FormatFields(m: TxtMarker, description: string)
    requires WellFormed(m, description)
    ensures !Skipped(FormatLine(m, description))
    ensures Fields(FormatLine(m, description)) == [m.id, description, m.signal, JoinOn(m.patterns, ',')]
  {
    var fields := [m.id, description, m.signal, JoinOn(m.patterns, ',')];
    FormatTrimmed(m, description);
    FormatNotSkipped(m, description);
    PatternsFieldBarFree(m, description);
    SplitJoinOn(fields, '|');
    forall k | 0 <= k < 4
      ensures Strip(fields[k]) == fields[k]
    {
      StripTrimmed(fields[k]);
    }
  }

  /** The patterns field written for a well-formed marker reads back as its
      patterns. */
  lemma FormatPatterns(m: TxtMarker, description: string)
    requires WellFormed(m, description)
    ensures StripAll(SplitOn(JoinOn(m.patterns, ','), ',')) == m.patterns
  {
    SplitJoinOn(m.patterns, ',');
    forall k | 0 <= k < |m.patterns|
      ensures Strip(m.patterns[k]) == m.patterns[k]
    {
      StripTrimmed(m.patterns[k]);
    }
  }

  /** Writing a well-formed marker and reading the line back gives the
      marker. */
  lemma ParseFormat(m: TxtMarker, description: string)
    requires WellFormed(m, description)
    ensures ParseLine(FormatLine(m, description)) == Ok(Some(m))
  {
    FormatFields(m, description);
    FormatPatterns(m, description);
    ValidIdNotMigrated(m.id);
  }

  /** A character of a joined string is the separator or occurs in a piece. */
  lemma {:induction false} JoinOnChars(parts: seq<string>, sep: char, c: char)
    requires c in JoinOn(parts, sep)
    ensures c == sep || exists k :: 0 <= k < |parts| && c in parts[k]
  {
    if |parts| == 1 {
      assert c in parts[0];
    } else if |parts| > 1 {
      var rest := JoinOn(parts[1..], sep);
      assert JoinOn(parts, sep) == parts[0] + [sep] + rest;
      if c in parts[0] {
      } else if c != sep {
        assert c in rest;
        JoinOnChars(parts[1..], sep, c);
        if c != sep {
          var k :| 0 <= k < |parts[1..]| && c in parts[1..][k];
          assert c in parts[k + 1];
        }
      }
    }
  }

  /** Reading, writing and reading again gives what the first read gave: a
      read marker is in the normal form of the format. */
  lemma ParseFormatParse(line: string)
    requires ParseLine(line).Ok? && ParseLine(line).value.Some?
    ensures ParseLine(FormatLine(ParseLine(line).value.value, Fields(line)[1])) == ParseLine(line)
  {
    ParseFormat(ParseLine(line).value.value, Fields(line)[1]);
  }

  /** The markers of a run of per-line results in order, or the first
      error: the run collects exactly when no result is an error, an error
      collected is one of the results, and a collected run keeps exactly the
      markers read. */
  function Collect(rs: seq<Result<Option<TxtMarker>, IdError>>): (r: Result<seq<TxtMarker>, IdError>)
    ensures r.Ok? ==> |r.value| <= |rs|
    ensures r.Ok? <==> forall k :: 0 <= k < |rs| ==> rs[k].Ok?
    ensures r.Err? ==> exists k :: 0 <= k < |rs| && rs[k] == Err(r.error)
    ensures r.Ok? ==> forall m :: m in r.value <==> exists k :: 0 <= k < |rs| && rs[k] == Ok(Some(m))
  {
    if |rs| == 0 then Ok([])
    else
      assert forall k :: 1 <= k < |rs| ==> rs[k] == rs[1..][k - 1];
      match rs[0]
      case Err(e) => Err(e)
      case Ok(first) =>
        match Collect(rs[1..])
        case Err(e) => Err(e)
        case Ok(ms) => Ok((if first.Some? then [first.value] else []) + ms)
  }

  /** Each line read on its own. */
  function ReadAll(lines: seq<string>): (r: seq<Result<Option<TxtMarker>, IdError>>)
    ensures |r| == |lines|
    ensures forall k :: 0 <= k < |lines| ==> r[k] == ParseLine(lines[k])
  {
    seq(|lines|, k requires 0 <= k < |lines| => ParseLine(lines[k]))
  }

  /** `load_txt_markers` over the lines of one file: the markers of the read
      lines in order, or the first error, which discards the whole file. */
  function ParseLines(lines: seq<string>): (r: Result<seq<TxtMarker>, IdError>)
    ensures r.Ok? ==> |r.value| <= |lines|
    ensures r.Ok? <==> forall k :: 0 <= k < |lines| ==> ParseLine(lines[k]).Ok?
  {
    Collect(ReadAll(lines))
  }

  /** The error collected is the first error among the results. */
  lemma {:induction false} CollectFirstError(rs: seq<Result<Option<TxtMarker>, IdError>>)
    requires Collect(rs).Err?
    ensures exists k :: (0 <= k < |rs| && rs[k] == Err(Collect(rs).error)
      && (forall j :: 0 <= j < k ==> rs[j].Ok?))
  {
    if rs[0].Err? {
      assert rs[0] == Err(Collect(rs).error);
    } else {
      var rest := rs[1..];
      assert Collect(rest).Err? && Collect(rs).error == Collect(rest).error;
      CollectFirstError(rest);
      var k :| 0 <= k < |rest| && rest[k] == Err(Collect(rest).error)
        && (forall j :: 0 <= j < k ==> rest[j].Ok?);
      assert rs[k + 1] == rest[k];
      forall j | 0 <= j < k + 1
        ensures rs[j].Ok?
      {
        if j > 0 {
          assert rs[j] == rest[j - 1];
        }
      }
    }
  }

  /** The error of an unreadable file is that of its first unreadable line. */
  lemma ParseLinesFirstError(lines: seq<string>)
    requires ParseLines(lines).Err?
    ensures exists k :: (0 <= k < |lines| && ParseLine(lines[k]) == Err(ParseLines(lines).error)
      && (forall j :: 0 <= j < k ==> ParseLine(lines[j]).Ok?))
  {
    var rs := ReadAll(lines);
    CollectFirstError(rs);
    var k :| 0 <= k < |rs| && rs[k] == Err(Collect(rs).error) && (forall j :: 0 <= j < k ==> rs[j].Ok?);
    assert ParseLine(lines[k]) == Err(ParseLines(lines).error);
  }

  /** Every marker of a read file carries a valid id. */
  lemma ParseLinesValidIds(lines: seq<string>)
    requires ParseLines(lines).Ok?
    ensures forall k :: 0 <= k < |ParseLines(lines).value| ==> ValidateMarkerId(ParseLines(lines).value[k].id).Ok?
  {
    var ms := ParseLines(lines).value;
    forall k | 0 <= k < |ms|
      ensures ValidateMarkerId(ms[k].id).Ok?
    {
      assert ms[k] in ms;
      var j :| 0 <= j < |lines| && ReadAll(lines)[j] == Ok(Some(ms[k]));
      assert ParseLine(lines[j]) == Ok(Some(ms[k]));
    }
  }

  /** A result that contributes nothing, wherever it stands, changes
      nothing. */
  lemma {:induction false} CollectSkip(a: seq<Result<Option<TxtMarker>, IdError>>, b: seq<Result<Option<TxtMarker>, IdError>>)
    ensures Collect(a + [Ok(None)] + b) == Collect(a + b)
    decreases |a|
  {
    if |a| == 0 {
      assert a + [Ok(None)] + b == [Ok(None)] + b;
      assert ([Ok(None)] + b)[1..] == b;
      assert a + b == b;
      if Collect(b).Ok? {
        assert [] + Collect(b).value == Collect(b).value;
      }
    } else {
      assert (a + [Ok(None)] + b)[1..] == a[1..] + [Ok(None)] + b;
      assert (a + b)[1..] == a[1..] + b;
      assert (a + [Ok(None)] + b)[0] == a[0] && (a + b)[0] == a[0];
      CollectSkip(a[1..], b);
    }
  }

  /** Reading a file in two parts reads each part. */
  lemma ReadAllAppend(a: seq<string>, b: seq<string>)
    ensures ReadAll(a + b) == ReadAll(a) + ReadAll(b)
  {
    var l := ReadAll(a + b);
    var r := ReadAll(a) + ReadAll(b);
    forall k | 0 <= k < |l|
      ensures l[k] == r[k]
    {
      if k < |a| {
        assert (a + b)[k] == a[k];
      } else {
        assert (a + b)[k] == b[k - |a|];
      }
    }
  }

  /** A skipped line, wherever it stands, changes nothing. */
  lemma SkippedLineIgnored(a: seq<string>, line: string, b: seq<string>)
    requires Skipped(line)
    ensures ParseLines(a + [line] + b) == ParseLines(a + b)
  {
    ReadAllAppend(a, [line]);
    ReadAllAppend(a + [line], b);
    ReadAllAppend(a, b);
    assert ReadAll([line]) == [Ok(None)];
    CollectSkip(ReadAll(a), ReadAll(b));
  }

  /** Results that each carry a marker collect to those markers. */
  lemma {:induction false} CollectAllSome(rs: seq<Result<Option<TxtMarker>, IdError>>, ms: seq<TxtMarker>)
    requires |rs| == |ms|
    requires forall k :: 0 <= k < |rs| ==> rs[k] == Ok(Some(ms[k]))
    ensures Collect(rs) == Ok(ms)
  {
    if |rs| > 0 {
      assert forall k :: 0 <= k < |rs| - 1 ==> rs[1..][k] == rs[k + 1];
      CollectAllSome(rs[1..], ms[1..]);
      assert [ms[0]] + ms[1..] == ms;
    }
  }

  function FormatLines(ms: seq<TxtMarker>, descriptions: seq<string>): (r: seq<string>)
    requires |descriptions| == |ms|
    ensures |r| == |ms|
    ensures forall k :: 0 <= k < |ms| ==> r[k] == FormatLine(ms[k], descriptions[k])
  {
    seq(|ms|, k requires 0 <= k < |ms| => FormatLine(ms[k], descriptions[k]))
  }

  /** Writing well-formed markers one per line and reading the file back
      gives the markers, in order. */
  lemma ParseFormatLines(ms: seq<TxtMarker>, descriptions: seq<string>)
    requires |descriptions| == |ms|
    requires forall k :: 0 <= k < |ms| ==> WellFormed(ms[k], descriptions[k])
    ensures ParseLines(FormatLines(ms, descriptions)) == Ok(ms)
  {
    var rs := ReadAll(FormatLines(ms, descriptions));
    forall k | 0 <= k < |ms|
      ensures rs[k] == Ok(Some(ms[k]))
    {
      ParseFormat(ms[k], descriptions[k]);
    }
    CollectAllSome(rs, ms);
  }
}

=== FILE: windows.dfy ===
/** `_collect_by_window`: a transcript cut into consecutive blocks of at
    most `w` messages, each with the hits whose message index falls inside
    it. */
module Windows {
  import opened Basics

  datatype Message = Message(speaker: string, text: string)

  /** A detector hit: the index of its message in the transcript, the
      speaker, and the marker id. */
  datatype Hit = Hit(i: int, speaker: string, marker: string)

  /** The half-open block `[start, end)` with its messages and hits. */
  datatype Window = Window(start: nat, end: nat, msgs: seq<Message>, hits: seq<Hit>)

  /** `[h for h in hits if lo <= h["i"] < hi]`, order and repeats kept: a
      single hit is kept or dropped on its own index, and `HitsInAppend`
      says the filter works run by run. */
  function HitsIn(hits: seq<Hit>, lo: int, hi: int): (r: seq<Hit>)
    ensures |r| <= |hits|
    ensures forall h :: h in r <==> h in hits && lo <= h.i < hi
    ensures |hits| == 1 ==> r == (if lo <= hits[0].i < hi then hits else [])
  {
    if |hits| == 0 then []
    else
      var h := hits[|hits| - 1];
      HitsIn(hits[..|hits| - 1], lo, hi) + (if lo <= h.i < hi then [h] else [])
  }

  /** Filtering two runs of hits is filtering each and concatenating, so
      with the single-hit case the filter keeps every passing hit as often
      and in the order it was given. */
  lemma {:induction false} HitsInAppend(a: seq<Hit>, b: seq<Hit>, lo: int, hi: int)
    ensures HitsIn(a + b, lo, hi) == HitsIn(a, lo, hi) + HitsIn(b, lo, hi)
    decreases |b|
  {
    if |b| == 0 {
      assert a + b == a;
    } else {
      var bl := b[..|b| - 1];
      var h := b[|b| - 1];
      assert a + b == (a + bl) + [h];
      assert b == bl + [h];
      HitsInAppend(a, bl, lo, hi);
      HitsInSnoc(a + bl, h, lo, hi);
      HitsInSnoc(bl, h, lo, hi);
    }
  }

  /** One more hit at the end is kept or dropped on its own. */
  lemma HitsInSnoc(xs: seq<Hit>, h: Hit, lo: int, hi: int)
    ensures HitsIn(xs + [h], lo, hi) == HitsIn(xs, lo, hi) + (if lo <= h.i < hi then [h] else [])
  {
    assert (xs + [h])[..|xs|] == xs;
  }


  /** A filter that every hit passes keeps the hits as they are. */
  lemma {:induction false} HitsInAll(hits: seq<Hit>, lo: int, hi: int)
    requires forall k :: 0 <= k < |hits| ==> lo <= hits[k].i < hi
    ensures HitsIn(hits, lo, hi) == hits
  {
    if |hits| > 0 {
      var pre := hits[..|hits| - 1];
      var h := hits[|hits| - 1];
      assert hits == pre + [h];
      assert lo <= h.i < hi;
      HitsInAll(pre, lo, hi);
    }
  }

  /** A window is the block `[start, end)` of the transcript, non-empty and
      at most `w` long, with exactly the hits that index into it. */
  predicate IsBlock(msgs: seq<Message>, hits: seq<Hit>, w: nat, win: Window)
  {
    && win.start < win.end <= |msgs|
    && win.end - win.start <= w
    && win.msgs == msgs[win.start..win.end]
    && win.hits == HitsIn(hits, win.start, win.end)
  }

  /** `min(n, i + w)`. */
  function BlockEnd(n: nat, i: nat, w: nat): nat
  {
    if n < i + w then n else i + w
  }

  /** The generator from position `i` on, for a window size `w >= 1`.
      The windows tile `[i, |msgs|)`: the first starts at `i`, the last ends
      at `|msgs|`, each ends where the next starts, and all but the last
      are exactly `w` long. */
  function WindowsFrom(msgs: seq<Message>, hits: seq<Hit>, w: nat, i: nat): (ws: seq<Window>)
    requires w >= 1 && i <= |msgs|
    ensures |ws| == 0 <==> i == |msgs|
    ensures |ws| > 0 ==> ws[0].start == i && ws[|ws| - 1].end == |msgs|
    ensures forall k :: 0 <= k < |ws| ==> IsBlock(msgs, hits, w, ws[k])
    ensures forall k :: 0 <= k < |ws| - 1 ==> ws[k].end == ws[k + 1].start && ws[k].end - ws[k].start == w
    decreases |msgs| - i
  {
    if i == |msgs| then []
    else
      var j := BlockEnd(|msgs|, i, w);
      var rest := WindowsFrom(msgs, hits, w, j);
      [Window(i, j, msgs[i..j], HitsIn(hits, i, j))] + rest
  }

  /** Why collection fails: a window size below one never advances. */
  datatype Stuck = NonTerminating

  /** `_collect_by_window(msgs, hits, w)`. With `w < 1` and a non-empty
      transcript the source loops for ever; with an empty one it yields
      nothing whatever `w` is. */
  function CollectByWindow(msgs: seq<Message>, hits: seq<Hit>, w: int): (r: Result<seq<Window>, Stuck>)
    ensures r.Err? <==> |msgs| > 0 && w < 1
    ensures |msgs| == 0 ==> r == Ok([])
    ensures r.Ok? && |msgs| > 0 ==> r.value == WindowsFrom(msgs, hits, w, 0)
  {
    if |msgs| == 0 then Ok([])
    else if w < 1 then Err(NonTerminating)
    else Ok(WindowsFrom(msgs, hits, w, 0))
  }

  /** The messages of a run of windows, one after the other. */
  function ConcatMsgs(ws: seq<Window>): seq<Message>
  {
    if |ws| == 0 then [] else ws[0].msgs + ConcatMsgs(ws[1..])
  }

  /** Contiguous slices of `msgs` that run from `i` to the end put back
      together give `msgs[i..]`. */
  lemma {:induction false} ConcatTiles(msgs: seq<Message>, ws: seq<Window>, i: nat)
    requires i <= |msgs|
    requires |ws| == 0 <==> i == |msgs|
    requires |ws| > 0 ==> ws[0].start == i && ws[|ws| - 1].end == |msgs|
    requires forall k :: 0 <= k < |ws| ==> ws[k].start < ws[k].end <= |msgs| && ws[k].msgs == msgs[ws[k].start..ws[k].end]
    requires forall k :: 0 <= k < |ws| - 1 ==> ws[k].end == ws[k + 1].start
    ensures ConcatMsgs(ws) == msgs[i..]
    decreases |ws|
  {
    if |ws| > 0 {
      var j := ws[0].end;
      var rest := ws[1..];
      if |rest| > 0 {
        assert rest[0] == ws[1] && ws[1].start == j && j < ws[1].end <= |msgs|;
      } else {
        assert |ws| == 1 && j == |msgs|;
      }
      assert forall k :: 0 <= k < |rest| ==> rest[k] == ws[k + 1];
      ConcatTiles(msgs, rest, j);
      assert ConcatMsgs(ws) == msgs[i..j] + msgs[j..];
      assert msgs[i..j] + msgs[j..] == msgs[i..];
    }
  }

  /** The windows' message slices put back together give the transcript
      from `i` on. */
  lemma WindowsPartition(msgs: seq<Message>, hits: seq<Hit>, w: nat, i: nat)
    requires w >= 1 && i <= |msgs|
    ensures ConcatMsgs(WindowsFrom(msgs, hits, w, i)) == msgs[i..]
  {
    var ws := WindowsFrom(msgs, hits, w, i);
    forall k | 0 <= k < |ws|
      ensures ws[k].start < ws[k].end <= |msgs| && ws[k].msgs == msgs[ws[k].start..ws[k].end]
    {
      assert IsBlock(msgs, hits, w, ws[k]);
    }
    ConcatTiles(msgs, ws, i);
  }

  /** The `k`-th window starts at `i + k·w`. */
  lemma {:induction false} WindowStarts(msgs: seq<Message>, hits: seq<Hit>, w: nat, i: nat, k: nat)
    requires w >= 1 && i <= |msgs|
    requires k < |WindowsFrom(msgs, hits, w, i)|
    ensures WindowsFrom(msgs, hits, w, i)[k].start == i + k * w
    decreases k
  {
    if k > 0 {
      var j := BlockEnd(|msgs|, i, w);
      var ws := WindowsFrom(msgs, hits, w, i);
      assert ws[1..] == WindowsFrom(msgs, hits, w, j);
      assert ws[k] == ws[1..][k - 1];
      WindowStarts(msgs, hits, w, j, k - 1);
      assert j == i + w;
      assert i + w + (k - 1) * w == i + k * w;
    }
  }

  /** Windows further along start no earlier than earlier ones end. */
  lemma {:induction false} WindowsOrdered(ws: seq<Window>, a: nat, b: nat)
    requires forall k :: 0 <= k < |ws| ==> ws[k].start < ws[k].end
    requires forall k :: 0 <= k < |ws| - 1 ==> ws[k].end == ws[k + 1].start
    requires a < b < |ws|
    ensures ws[a].end <= ws[b].start
    decreases b - a
  {
    if a + 1 < b {
      WindowsOrdered(ws, a + 1, b);
    }
  }

  /** A transcript no longer than the window size is one window. */
  lemma OneWindow(msgs: seq<Message>, hits: seq<Hit>, w: nat)
    requires w >= 1 && 0 < |msgs| <= w
    ensures WindowsFrom(msgs, hits, w, 0) == [Window(0, |msgs|, msgs, HitsIn(hits, 0, |msgs|))]
  {
    assert msgs[0..|msgs|] == msgs;
  }

  /** Each hit with an index in `[i, |msgs|)` lies in some window. */
  lemma {:induction false} HitPlaced(msgs: seq<Message>, hits: seq<Hit>, w: nat, i: nat, h: Hit)
    requires w >= 1 && i <= |msgs|
    requires h in hits && i <= h.i < |msgs|
    ensures exists k :: 0 <= k < |WindowsFrom(msgs, hits, w, i)| && h in WindowsFrom(msgs, hits, w, i)[k].hits
    decreases |msgs| - i
  {
    var ws := WindowsFrom(msgs, hits, w, i);
    var j := BlockEnd(|msgs|, i, w);
    if h.i < j {
      assert h in ws[0].hits;
    } else {
      assert ws[1..] == WindowsFrom(msgs, hits, w, j);
      HitPlaced(msgs, hits, w, j, h);
      var k :| 0 <= k < |ws[1..]| && h in ws[1..][k].hits;
      assert h in ws[k + 1].hits;
    }
  }

  /** No hit lies in two windows, since the blocks do not overlap. */
  lemma HitUnique(msgs: seq<Message>, hits: seq<Hit>, w: nat, i: nat, h: Hit, a: nat, b: nat)
    requires w >= 1 && i <= |msgs|
    requires a < |WindowsFrom(msgs, hits, w, i)| && b < |WindowsFrom(msgs, hits, w, i)|
    requires h in WindowsFrom(msgs, hits, w, i)[a].hits && h in WindowsFrom(msgs, hits, w, i)[b].hits
    ensures a == b
  {
    var ws := WindowsFrom(msgs, hits, w, i);
    assert IsBlock(msgs, hits, w, ws[a]) && IsBlock(msgs, hits, w, ws[b]);
    assert forall k :: 0 <= k < |ws| ==> ws[k].start < ws[k].end by {
      forall k | 0 <= k < |ws|
        ensures ws[k].start < ws[k].end
      {
        assert IsBlock(msgs, hits, w, ws[k]);
      }
    }
    BlocksDisjoint(ws, h.i, a, b);
  }

  /** Contiguous non-empty blocks hold each position at most once. */
  lemma BlocksDisjoint(ws: seq<Window>, p: int, a: nat, b: nat)
    requires forall k :: 0 <= k < |ws| ==> ws[k].start < ws[k].end
    requires forall k :: 0 <= k < |ws| - 1 ==> ws[k].end == ws[k + 1].start
    requires a < |ws| && b < |ws|
    requires ws[a].start <= p < ws[a].end && ws[b].start <= p < ws[b].end
    ensures a == b
  {
    if a < b {
      WindowsOrdered(ws, a, b);
    } else if b < a {
      WindowsOrdered(ws, b, a);
    }
  }

  /** A hit whose index lies outside the transcript is in no window. */
  lemma HitOutsideNowhere(msgs: seq<Message>, hits: seq<Hit>, w: nat, h: Hit)
    requires w >= 1
    requires h.i < 0 || h.i >= |msgs|
    ensures forall k :: 0 <= k < |WindowsFrom(msgs, hits, w, 0)| ==> h !in WindowsFrom(msgs, hits, w, 0)[k].hits
  {
  }
}
